=== FILE: README.md ===
# plotIt numeric core in Dafny

plotIt turns a YAML description of files, plots and systematic sources into
stacked histograms with uncertainty bands, data/prediction ratios, legends
and yield tables. This project models the part of it that computes numbers
and makes decisions about them:

- **Stacks.** Simulation files are grouped by stack index. Legend groups are
  merged into one layer, and layers can be ordered by yield. The stacked
  total carries only statistical errors.
- **Systematics.** Systematic sources are parsed and created. Their shifted
  histograms are computed for constant, log-normal and shape sources, and
  each source is folded into per-bin up and down errors. The sources are
  then combined in quadrature, per name, with the statistical error. The
  result is the stack's uncertainty band and the summary items.
- **Ratios.** There are two ways to compute the ratio of data over
  prediction with asymmetric errors.
- **Histogram edits.** Under- and overflow folding, and the blinding of
  data.
- **Summary.** The summary's store, and the totals its console printer
  derives from it.
- **Configuration.** Legend construction: one entry per legend group, the
  type order, dealing entries into columns and padding. Also the yield
  table's categories and per-file systematics, log-flag expansion, plot
  overrides, label merging, era filtering and luminosity maps.
- **YAML converters.** Position, point, range, colour, line, style and type
  names.

A histogram is `Hist(contents, sumw2)`. Both are sequences of reals indexed
by ROOT's bin numbers: 0 is the underflow, 1..N are the regular bins and
N+1 is the overflow. Errors are carried squared, as ROOT stores them.
Square roots are never taken. A bin's error is the square root of the
quantity the model computes, so every "quadrature" statement below is a
statement about sums of squares. ROOT objects, YAML nodes and configuration
structures are immutable datatypes. Each operation is a function from its
inputs to its outputs.

Modules:

| module | contents |
|---|---|
| `Histograms`, `Vectors`, `Reals`, `Wrappers` | Shared vocabulary |
| `Yaml` | A YAML node model |
| `Types` | Configuration records and their converters |
| `Files` | File selection |
| `Systematics` | Systematic sources |
| `Tallies` | The `std::map` accumulations |
| `Sorting` | Sorting by a key |
| `Stacks` | Stack building |
| `Combiner` | `computeSystematics` |
| `Ratios` | Ratio computation |
| `Overflows` | Under- and overflow folding |
| `Blinding` | Blinding of data |
| `Summaries` | The summary and its printer |
| `Legends` | Legend construction |
| `Yields` | Yield table bookkeeping |
| `Plots` | Plot-level configuration |
| `Utilities` | Helper functions |

Some behaviour of the code is easy to misread; the model follows the
code:

- The symmetric error of a source in a bin is the signed maximum of the two
  resolved shifts, not an absolute value.
- When the up shift is positive and the down shift is exactly zero, the
  shift is reported on the down side (`Combiner.ResolvePositiveDown`).
- Signal sources are reported to the summary but do not feed the band.
- Clearing the regular bins outside the displayed range with
  `SetBinContent` keeps their stored squared errors; only the underflow and
  overflow bins lose both content and squared error (`Overflows.Cleared`).
- A colour's hex digits are read by stream extraction, which skips leading
  whitespace, a sign and a `0x` prefix (`Utilities.ReadHex32`).
- Yield titles are escaped before categories are compared, and the escaping
  merges some titles (`Yields.EscapedTitlesMerge`).
- `mergeLabels` compares a global label only against the plot's own labels.
- Systematic type names are matched case-sensitively: the lower-cased copy
  the factory computes is never used.

## Model

| member | source | states |
|---|---|---|
| Ratios.RatioPoint | src/TH1Plotter.cc:32-47 | The point's value times the reference content gives the observed content. Both of its errors are non-negative. |
| Ratios.QuotientErrorSqNonNegative | src/TH1Plotter.cc:40-47 | The propagated squared error of a quotient is never negative. |
| Ratios.RelativeErrorsAddInQuadrature | src/TH1Plotter.cc:40-47 | For non-zero contents, the squared error of the quotient equals the squared ratio times the sum of the squared relative errors of numerator and denominator. |
| Ratios.GetRatio | src/TH1Plotter.cc:24-61 | There are at most N points, and they come in strictly increasing bin order. |
| Ratios.PointsAreTheNonZeroBins | src/TH1Plotter.cc:28-56 | A bin has a ratio point if and only if it is a regular bin and both the observed and the reference content are non-zero. |
| Ratios.Ratio2Point | src/TH1Plotter.cc:65-90 | The point's value times the reference content gives the observed content. Both errors are non-negative. |
| Ratios.GetRatio2 | src/TH1Plotter.cc:65-90 | There are at most N points, in strictly increasing bin order. |
| Ratios.Ratio2IgnoresReferenceErrors | src/TH1Plotter.cc:78-79 | The second ratio does not depend on the reference's errors at all. |
| Ratios.PointsAgree | src/TH1Plotter.cc:40-47 | In a bin where the reference is error-free, both ratio formulas give the same value, and the same errors once squared. |
| Ratios.RatiosAgree | src/TH1Plotter.cc:24-90 | The two ratio constructions keep exactly the same bins, in the same order. |
| Stacks.StackIndices | src/TH1Plotter.cc:97-102 | The indices are strictly increasing, and an index appears if and only if some simulation file has it. |
| Stacks.KeepIndicesMembers | src/TH1Plotter.cc:104-109 | An index is kept if and only if it was present and passes the test. |
| Stacks.KeepIndicesIncreasing | src/TH1Plotter.cc:104-109 | Keeping a subset preserves strictly increasing order. |
| Stacks.BuildStacks | src/TH1Plotter.cc:96-112 | Each returned stack is the built stack of its index, and only non-empty stacks are returned. |
| Stacks.BuildStacksIndices | src/TH1Plotter.cc:96-112 | The stacks come in strictly increasing index order. An index has a stack if and only if a simulation file of the selected eras has it and its stack has a layer. |
| Stacks.GroupItems | src/TH1Plotter.cc:121-142 | There is one (group, histogram) item per grouped file, in file order, and it is what the first pass accumulates. |
| Stacks.CloneIsAddToZero | src/TH1Plotter.cc:129-139 | Cloning a group's first histogram equals adding it to an empty histogram, so the first pass is a plain per-group sum. |
| Stacks.GroupLookup | src/TH1Plotter.cc:160-177 | A group still in the map is found there, and its entry is the group's total. |
| Stacks.LayersMatchReference | src/TH1Plotter.cc:144-180 | The map-and-erase second pass produces exactly the reference layers. A reference layer is an ungrouped file's own histogram, or a group's total at the group's first file. |
| Stacks.GroupsAppearOnce | src/TH1Plotter.cc:144-180 | In the reference layers, every group appears at most once, and as its total. |
| Stacks.StackGroupsAppearOnce | src/TH1Plotter.cc:114-180 | Every legend group appears in a stack's layers at most once, carrying the sum of its members' histograms. |
| Stacks.StackLayersAreReference | src/TH1Plotter.cc:114-180 | The stack's unsorted layers are the reference layers of the stack's grouped and ungrouped files. |
| Sorting.SortBy | src/TH1Plotter.cc:182-188 | The result is a permutation of the input, ascending by the key. |
| Stacks.StatOnly | src/TH1Plotter.cc:190-201 | Every bin of the stat-only histogram is the sum of that bin over all layers. So is its squared error. |
| Stacks.StackOneMore | src/TH1Plotter.cc:190-201 | Adding the next layer to the running total keeps it equal to the bin-wise sum of the layers so far. |
| Stacks.BuildStack | src/TH1Plotter.cc:114-211 | There is no stack exactly when the index has no layer. |
| Stacks.BuildStackLayers | src/TH1Plotter.cc:114-211 | The layers are a permutation of the unsorted layers. They are in yield order when sorting is asked for and unchanged otherwise. stat-only is their bin-wise sum. |
| Combiner.Contributions | src/TH1Plotter.cc:221-224 | Every contribution comes from a file that feeds the stack: simulation of the same index, or any signal file. |
| Combiner.ContributionVector | src/TH1Plotter.cc:231-252 | A source that cannot feed the band still gets an entry, all zeros. A feeding source gets its per-bin component. |
| Combiner.ShapesOf | src/TH1Plotter.cc:254-259 | A set is used if and only if its nominal, up and down histograms all exist. |
| Combiner.YieldShifts | src/TH1Plotter.cc:269-277 | The reported pair is the up and down integral shifts themselves, possibly exchanged. The up shift stays first exactly when the two do not point the same way or are equal. |
| Combiner.YieldShiftsNotResolved | src/TH1Plotter.cc:269-277 | When both shapes raise the yield, the yield keeps a non-zero down shift, where one bin with the same shifts reports zero. |
| Combiner.BinSumIsIntegral | src/TH1Plotter.cc:269-277 | The per-bin summation over the regular bins equals the histogram's integral. |
| Combiner.SymmetricTotalBoundsShifts | src/TH1Plotter.cc:289-330 | A source's summed symmetric error is at least its up shift and at least its down shift of the total yield. |
| Combiner.Resolve | src/TH1Plotter.cc:300-318 | The up error is never negative. The larger resolved error is the largest of 0, the up shift and the down shift. Opposite-sign shifts are kept or exchanged. Same-sign shifts collapse onto one side with the other side zero. |
| Combiner.ResolvePositiveDown | src/TH1Plotter.cc:300-318 | The down error is positive if and only if the down shift is exactly zero and the up shift is positive. In that case the up shift is moved to the down side. |
| Combiner.BothBelowNominal | src/TH1Plotter.cc:300-318 | When both shifts are negative, the symmetric error of the bin is zero. |
| Combiner.SymmetricErrorIgnoresOrder | src/TH1Plotter.cc:300-319 | Exchanging the up and down shapes leaves the symmetric error of a bin unchanged. |
| Combiner.BinSymmetric | src/TH1Plotter.cc:319 | The bin's symmetric error is the largest of 0, the up shift and the down shift of that bin, so it is non-negative and at least each shift. |
| Combiner.SymmetricTotal | src/TH1Plotter.cc:318-321 | The summed symmetric error is non-negative and at least each bin's symmetric error. |
| Combiner.BinSymmetrics | src/TH1Plotter.cc:318-321 | Entry i is the symmetric error of bin i + 1, one entry per bin. |
| Combiner.SymmetricTotalIsSum | src/TH1Plotter.cc:318-321 | The summed symmetric error is the sum of the bins' symmetric errors over bins 1 to n. |
| Combiner.NoVariationNoError | src/TH1Plotter.cc:289-321 | A source whose up and down equal the nominal contributes zero. |
| Combiner.TotalIsNameBinTotal | src/TH1Plotter.cc:324-329 | Each name's accumulated vector is, bin by bin, the sum of that name's feeding sources. Signal and incomplete sets add nothing. |
| Combiner.NoFeedingSetNoBand | src/TH1Plotter.cc:324-376 | If no source feeds the band, the systematic parts are zero and the totals are the statistical errors. |
| Combiner.SetItem | src/TH1Plotter.cc:332-339 | The item carries the source's pretty name and the file's id. Its uncertainty is the sum of the bins' symmetric errors, and its up and down parts are the shifts of the total yield. The uncertainty is non-negative and at least each part. |
| Combiner.SummaryOps | src/TH1Plotter.cc:332-339 | There is at most one item per contribution, and none is filed under data when no contribution is data. |
| Combiner.SetOps | src/TH1Plotter.cc:332-339 | One contribution gives at most one item, filed under the file's type. |
| Combiner.SummaryOpsAppend | src/TH1Plotter.cc:332-339 | The items of a concatenation are the items of the first part followed by those of the second, so items come in contribution order. |
| Combiner.SummaryOpsSingle | src/TH1Plotter.cc:332-339 | A contribution gives no item when a shape is missing. Otherwise it gives exactly one item, filed under the file's type and id. |
| Combiner.ComputeBand | src/TH1Plotter.cc:343-376 | Each total is the systematic part plus the statistical error squared, and every entry is non-negative. |
| Combiner.WithStat | src/TH1Plotter.cc:359-375 | Adding the statistical part puts the stat-only squared error of the same bin onto each systematic entry. |
| Combiner.BandIsQuadratureOverNames | src/TH1Plotter.cc:343-376 | Each side of the band, in each bin, is the sum over the distinct source names of the squared per-name linear sums. |
| Combiner.ComputeSystematics | src/TH1Plotter.cc:214-377 | The band is `ComputeBand` of the stack's contributions; that first clause only names the definition, and the band's meaning is stated by `Combiner.BandIsQuadratureOverNames`. The nominal summary items are untouched. |
| Combiner.ComputeSystematicsItems | src/TH1Plotter.cc:332-339 | Data never receives systematic items. Every other type's items are the old ones followed by the new ones. |
| Combiner.AllBands | src/TH1Plotter.cc:379-381 | There is one band per stack, each computed from that stack alone. |
| Combiner.ThreadSummary | src/TH1Plotter.cc:379-381 | Threading the summary through all stacks leaves the nominal items untouched. |
| Combiner.ComputeAll | src/TH1Plotter.cc:379-381 | The bands are the per-stack bands. The nominal summary is untouched. |
| Blinding.Blind | src/TH1Plotter.cc:554-576 | Outside the window the regular bins and the underflow keep their contents. The window and the overflow are empty. Squared errors follow the contents. Nothing changes when blinding does not apply. |
| Blinding.BlindIdempotent | src/TH1Plotter.cc:554-576 | Blinding an already blinded histogram changes nothing. |
| Blinding.BlindedContent | src/TH1Plotter.cc:554-576 | The blinded total is the underflow plus the bins before the window, plus the bins after it. |
| Overflows.Cleared | src/TH1Plotter.cc:1324-1332 | Contents outside the range are zero. The squared errors of the under- and overflow are zero. Other squared errors are kept. |
| Overflows.AddOverflowAsWritten | src/TH1Plotter.cc:1289-1347 | The folding as written keeps the binning. |
| Overflows.AsWrittenAgreesOnWideRanges | src/TH1Plotter.cc:1334-1346 | When the first bin is before the last, the code as written equals the corrected folding. |
| Overflows.AsWrittenLosesUnderflow | src/TH1Plotter.cc:1334-1346 | With a one-bin range, the code as written loses the underflow. |
| Overflows.AddOverflow | src/TH1Plotter.cc:1289-1347 | Zero entries change nothing. Otherwise the first bin takes the underflow and the last the overflow, both in contents and squared errors, and everything outside is cleared. |
| Overflows.AddOverflowConserves | src/TH1Plotter.cc:1312-1346 | Folding keeps the histogram's total content, which is now all inside the range. |
| Overflows.AddOverflowIdempotent | src/TH1Plotter.cc:1289-1347 | Folding a folded histogram again leaves its contents unchanged. |
| Overflows.AddOverflowIdempotentForData | src/TH1Plotter.cc:1289-1347 | For data, folding a folded histogram again changes nothing at all. |
| Overflows.RefoldingCountsErrorsAgain | src/TH1Plotter.cc:1324-1346 | For simulation a second fold adds the squared errors kept before the range to the first bin again (2 becomes 3 in the example). |
| Overflows.AddOnlyOverflow | src/TH1Plotter.cc:1349-1389 | Zero entries change nothing. Otherwise only the overflow is folded into the last bin, and both the underflow and the overflow are cleared. |
| Overflows.OnlyOverflowIsOverflowWithoutUnderflow | src/TH1Plotter.cc:1349-1389 | With an empty underflow, overflow-only folding equals full folding from bin 1. |
| Systematics.ScaleSet | src/systematics.cc:27-39 | Every present shifted histogram is scaled by the factor. The true histograms and the source are untouched. |
| Systematics.NewSet | src/systematics.cc:63-70 | A new set starts with nominal, up and down all equal to the nominal histogram, and nothing computed yet. |
| Systematics.Update | src/systematics.cc:23-25 | After an update, the nominal is the true nominal and both shifts exist. Shapes copy their true shapes. A constant scales up by its value and down by 2 minus its value. A log-normal scales by its evaluated factors. |
| Systematics.UpdateIdempotent | src/systematics.cc:72-95 | Applying a source twice is applying it once. |
| Systematics.UpdateForgetsScale | src/systematics.cc:27-39 | An update recomputes from the true histograms, so an earlier scaling is forgotten. |
| Systematics.DefaultSetHasNoVariation | src/systematics.cc:63-70 | A shape source with no varied files leaves up and down equal to the nominal. |
| Systematics.ConstantDeltasOpposite | src/systematics.cc:87-95 | A constant source moves up and down by opposite amounts in every bin. |
| Systematics.ConstantFromNode | src/systematics.cc:78-85 | The value is the scalar itself or the map's `value`, and a success always comes from a scalar. |
| Systematics.LogNormalFromNode | src/systematics.cc:97-122 | A scalar gives the prior with post-fit 0 and errors 1. A map succeeds exactly when the prior and every optional key present read as floats. Post-fit is the key's value, or 0. `post-fit-error` sets both errors, `-up` and `-down` override one side each, and an unset error is 1. |
| Systematics.ShapeFromNode | src/systematics.cc:140-147 | The result is a shape source whose external sum-of-weights default to 1. |
| Systematics.Create | src/systematics.cc:213-246 | An unknown type is an error. Each known type name gives its kind. The pretty name defaults to the name and the `on` pattern to everything. |
| Systematics.TypeMatchingIsCaseSensitive | src/systematics.cc:213-246 | "Const" is not a known type. |
| Systematics.SystematicsNodeType | src/plotIt.cc:112-143 | A scalar is a shape source. A map whose value is a scalar is a constant. Otherwise the map's `type` decides, defaulting to a shape source. A null `type` reads as "null". Anything else is an error. |
| Systematics.ParseSystematicsNode | src/plotIt.cc:112-143 | A parsed source carries the node's name and a known type. A bare name gives a shape source whose pretty name is the name and whose `on` pattern matches everything. |
| Summaries.Add | src/summary.cc:9-11 | The item is appended to its type's list. Everything else is unchanged. |
| Summaries.AddSystematics | src/summary.cc:13-15 | The item is appended to its (type, process) list. Everything else is unchanged. |
| Summaries.Get | src/summary.cc:17-23 | A type never added to reads as empty. |
| Summaries.GetSystematics | src/summary.cc:25-31 | A (type, process) never added to reads as empty. |
| Summaries.ReplayGet | src/summary.cc:9-31 | After any sequence of adds, each getter returns exactly the items its own adder received, in order. |
| Summaries.AddAllSystematicsGet | src/summary.cc:13-31 | Adding a batch of systematic items appends exactly the batch's items for each key. |
| Summaries.BreakdownSq | src/summary.cc:80-95 | A per-process breakdown exists only when not combining and the process has systematic items. Its squared total is the squared statistical uncertainty plus the squared uncertainty of each of the process's systematic items. |
| Summaries.PrintItems | src/summary.cc:39-132 | There are no totals exactly when the type has no items. Each process has its breakdown, printed only when systematics are not combined and the process has systematic items. |
| Summaries.PrintItemsTotals | src/summary.cc:75-115 | The totals are the sum of events and the sum of squared uncertainties. For simulation, the squared total adds each systematic name's squared summed uncertainty. |
| Summaries.NoSystematicsTotalIsStatistical | src/summary.cc:103-115 | Without systematic items, the simulation total uncertainty is the statistical one. |
| Tallies.TallyIsTotals | src/summary.cc:75-78 | Accumulating into a map gives one entry per distinct name, and each entry holds the sum of that name's values. |
| Tallies.WithoutKeyFound | src/TH1Plotter.cc:160-177 | A group is still in the map if and only if it was accumulated and not yet erased. |
| Tallies.WithoutKeyEntry | src/TH1Plotter.cc:160-177 | An entry still in the map is the entry that was accumulated. |
| Tallies.EraseFound | src/TH1Plotter.cc:160-177 | Erasing a group after use is the same as marking it seen. |
| Legends.Emitters | src/plotIt.cc:935-948 | Every emitter is a file of the asked type, and the set of emitted groups only grows. |
| Legends.EmittedGroupsFresh | src/plotIt.cc:936-939 | A grouped emitter's group had not been emitted before and is marked afterwards. |
| Legends.EmittedGroupsOnce | src/plotIt.cc:936-939 | No group is emitted twice. |
| Legends.EmittersCover | src/plotIt.cc:935-948 | Every ungrouped file of the type is an emitter, and every group of the type is emitted. |
| Legends.MarkedGroupsEmitted | src/plotIt.cc:936-939 | Every group newly marked was emitted. |
| Legends.TypeEntries | src/plotIt.cc:950-968 | The entries are a permutation of the emitters' entries plus the static entries of the type, sorted by descending order. |
| Legends.LegendEntries | src/plotIt.cc:996-1027 | The legend holds exactly the simulation, signal and (unless hidden) data entries. The uncertainty entry comes last when present. |
| Legends.OneEntryPerGroup | src/plotIt.cc:936-939 | Across all types, each legend group has one entry. |
| Legends.GroupedFilesShown | src/plotIt.cc:935-948 | Every grouped file that is shown has its group emitted. |
| Legends.UngroupedFilesShown | src/plotIt.cc:935-948 | Every ungrouped file that is shown is an emitter. |
| Legends.Distribute | src/plotIt.cc:1000-1025 | Entry k lands in column k mod c at row k div c. Each column holds exactly its entries. |
| Legends.Position | src/plotIt.cc:1000-1025 | The position of entry k is a row and a column below the column count that reconstruct k. |
| Legends.PositionIsDivision | src/plotIt.cc:1000-1025 | The row is k / c and the column is k % c. |
| Legends.FirstColumnLongest | src/plotIt.cc:1029-1037 | The first column is the longest, so padding pads to it. |
| Legends.LayoutIsPaddedEntries | src/plotIt.cc:1029-1046 | Reading the padded columns row by row gives the entries, followed by empty entries that fill the last row. |
| Legends.LayoutSize | src/plotIt.cc:1029-1046 | The layout is the smallest multiple of the column count that holds all entries. |
| Legends.FillLegend | src/plotIt.cc:932-1047 | The legend is the padded layout of the ordered entries. |
| Plots.ExpandLogs | src/plotIt.cc:869-904 | There is one variant per combination of the x and y log values, x-major. Each has its combination's flags and an output suffix with `_logx`/`_logy` for each set flag. Only the first keeps `use_for_yields`. Nothing else changes. |
| Plots.AddRow | src/plotIt.cc:869-904 | Adding a row of variants keeps every variant matched to its grid cell. |
| Plots.MakeVariant | src/plotIt.cc:869-904 | A variant has the asked log flags and their suffixes. It keeps `use_for_yields` only in first position. |
| Plots.Grid | src/plotIt.cc:869-904 | A pair is in the grid if and only if its x value is one of the x values and its y value one of the y values. |
| Plots.LogValues | src/plotIt.cc:663-675 | "both" gives two different values. Any other setting gives one. |
| Plots.BothAxesGiveFourVariants | src/plotIt.cc:869-904 | Asking for both on both axes gives four distinct variants. |
| Plots.Overriding | src/plotIt.cc:907-911 | Every overriding plot is kept, and only overriding plots. A list of overriding plots is kept whole. Order and repeats are stated by `Plots.OverridingAppend`. |
| Plots.OverrideFilter | src/plotIt.cc:907-911 | When some plot overrides, a non-empty list of overriding plots remains, holding every overriding plot. Otherwise all remain. |
| Plots.OverridingAppend | src/plotIt.cc:907-911 | The overriding plots of a + b are those of a followed by those of b. The filter is stable and keeps repeats, as `std::remove_if` does. |
| Plots.OverridingSingle | src/plotIt.cc:907-911 | A single plot is kept if and only if it overrides. |
| Plots.OverrideFilterIdempotent | src/plotIt.cc:907-911 | Filtering twice is filtering once. |
| Plots.NewGlobals | src/plotIt.cc:2072-2091 | Every kept global comes from the globals and has a text no plot label has, and every such global is kept. Order and repeats are stated by `Plots.NewGlobalsAppend`. |
| Plots.MergeLabels | src/plotIt.cc:2072-2091 | The plot's labels come first, unchanged. After them come globals whose text the plot lacks, and a global is among them if and only if its text is not a plot label's. |
| Plots.NewGlobalsAppend | src/plotIt.cc:2076-2088 | The globals kept from a + b are those kept from a followed by those kept from b, so the global order and repeated globals are kept. |
| Plots.NewGlobalsSingle | src/plotIt.cc:2076-2088 | A single global label is kept if and only if no plot label has its text. |
| Plots.MergeLabelsAppend | src/plotIt.cc:2072-2091 | Merging with one more global appends it at the end exactly when no plot label has its text. |
| Plots.MergeLabelsIdempotent | src/plotIt.cc:2072-2091 | Merging twice is merging once. |
| Plots.EraLuminosities | src/plotIt.cc:351-368 | Reading succeeds if and only if every era's luminosity is a number, and then gives those numbers. |
| Plots.EraMap | src/plotIt.cc:351-368 | The keys are "" and the eras, and "" holds the sum over the eras. |
| Plots.EraMapTotal | src/plotIt.cc:351-368 | With distinct named eras, each era holds its own luminosity. |
| Plots.EraMapAt | src/plotIt.cc:351-368 | With distinct named eras, each era holds its own luminosity. |
| Plots.LoadLuminosity | src/plotIt.cc:351-368 | A scalar is the total luminosity. A map gives the per-era map. Anything else is an error. |
| Yields.EscapeTitle | src/plotIt.cc:1286-1287 | A title with a `$` or without an underscore is kept. Any other title comes out with every underscore right after a backslash. |
| Yields.EscapedPlot | src/plotIt.cc:1286-1287 | The plot's title is replaced by its escaped form, and nothing else changes. |
| Yields.EscapeUsed | src/plotIt.cc:1281-1287 | Plots used for yields have their titles escaped. The others are left alone. |
| Yields.FirstOfEachTitle | src/plotIt.cc:1289-1291 | The kept plots are used for yields and have distinct titles, and every used plot's title is present. |
| Yields.SeenTitleIsNotFirstUse | src/plotIt.cc:1289-1290 | A used plot's title is already among the selected ones if and only if an earlier used plot has that title. |
| Yields.FirstOfEachTitlePrefix | src/plotIt.cc:1281-1291 | Walking the first n plots selects, in list order, exactly the used plots that no earlier used plot shares a title with. |
| Yields.FirstOfEachTitleIsFirstUses | src/plotIt.cc:1281-1291 | The selection is the list of first uses of each title, in the order of the plots. |
| Yields.YieldPlots | src/plotIt.cc:1281-1291 | The category plots are escaped plots used for yields, with distinct titles. Every used plot's escaped title is present. |
| Yields.CategoryPairs | src/plotIt.cc:1291 | Each pair is its plot's table order and title. |
| Yields.CategoriesFromUsedPlots | src/plotIt.cc:1281-1291 | Every category is the table order and escaped title of a plot used for yields. |
| Yields.CategoriesCoverUsedPlots | src/plotIt.cc:1281-1291 | Every used plot's escaped title is a category. |
| Yields.Categories | src/plotIt.cc:1281-1291 | Category titles are distinct. Each category comes from a plot used for yields, and every used plot's escaped title is a category. |
| Yields.CategoriesAreFirstUses | src/plotIt.cc:1281-1291 | The category plots, and so the categories, are in plot order the first used plot of each escaped title, with that plot's table order. |
| Yields.FirstTableOrderKept | src/plotIt.cc:1289-1291 | Two used plots titled `x` with table orders 1 and 2 give the single category (1, `x`). |
| Yields.LeadingUnderscoreEscapedTwice | src/plotIt.cc:1286-1287 | A leading underscore is escaped twice: `_a` becomes `\\_a`. |
| Yields.BackslashedTitleEscaped | src/plotIt.cc:1286-1287 | An already escaped `\_a` also becomes `\\_a`. |
| Yields.EscapedTitlesMerge | src/plotIt.cc:1281-1291 | Plots titled `_a` and `\_a` make a single category. |
| Yields.UnusedPlotIgnored | src/plotIt.cc:1277-1291 | A plot not used for yields does not change the categories. |
| Yields.YieldError | src/plotIt.cc:1366-1369 | The error is non-negative, at least both integral shifts, and equal to one of them. |
| Yields.SourceError | src/plotIt.cc:1359-1369 | A source has an error if and only if all three shapes exist. The error is the larger distance of the up and down integrals from the nominal one. |
| Yields.FileSystematicsSq | src/plotIt.cc:1352-1371 | The file's squared systematic is non-negative and at least each source's squared error. |
| Yields.SourceSq | src/plotIt.cc:1359-1371 | A source adds the square of its error, or nothing when a shape is missing. |
| Yields.FileSystematicsSqAppend | src/plotIt.cc:1352-1371 | The squared systematic of a concatenation is the sum of the parts' squared systematics. |
| Yields.FileSystematicsSqSingle | src/plotIt.cc:1359-1371 | A single source's squared systematic is its own squared error. |
| Yields.NoSystematicsIffNoShift | src/plotIt.cc:1352-1371 | The file has no yield systematic if and only if no source shifts its yield. |
| Yields.YieldErrorSymmetric | src/plotIt.cc:1366-1369 | Exchanging up and down does not change a source's error. |
| Yields.FileYieldSystematicsSq | src/plotIt.cc:1352-1378 | Data has no systematic term. Every other file has the quadratic sum of its sources' errors. |
| Files.FilterEras | include/plotIt.h:72-74 | A file passes if no eras are selected, it has no era, or its era is selected. |
| Files.LoadedSets | src/plotIt.cc:1336-1345 | Every set keeps its source, has working up and down shapes, and its nominal shape is the true nominal scaled by the file's factor. |
| Files.LoadedConstantShift | src/TH1Plotter.cc:446-452 | A fresh constant source of value v, once loaded, moves each bin up by (v - 1) times the scaled content and down by the same amount. |
| Files.GetFiles | include/plotIt.h:65-70 | The result holds exactly the files that satisfy the predicate. |
| Files.GetFilesAppend | include/plotIt.h:65-70 | Selecting from a concatenation concatenates the selections. |
| Files.GetFilesIdempotent | include/plotIt.h:65-70 | Selecting twice is selecting once. |
| Files.FilesOfEras | include/plotIt.h:75 | The result holds exactly the files that pass the era filter. |
| Files.NoErasKeepsAll | include/plotIt.h:72-75 | With no era selected, every file is kept, in order. |
| Files.StyleOf | src/plotIt.cc:2195-2201 | A file in a known legend group takes the group's style. Any other file takes its own. |
| Types.StringToType | include/types.h:34-41 | "signal" and "data" are recognised, and everything else is simulation. |
| Types.TypeToString | include/types.h:43-56 | The display names are "Simulation", "Signal" and "Data". |
| Types.DisplayNamesReadAsSimulation | include/types.h:34-56 | The display names read back as simulation, because the parser is case-sensitive. |
| Types.StringToErrorsType | include/types.h:64-75 | "normal" and "poisson2" are recognised, and everything else is Poisson. |
| Types.ErrorsTypeNamesRoundTrip | include/types.h:64-75 | The configuration names of error types read back as themselves. |
| Types.Clone | include/types.h:381-387 | The clone differs from the original only in name and id. |
| Types.EncodePositionAsWritten | include/types.h:504-512 | The encoder as written produces four numbers. |
| Types.PositionAsWrittenDoesNotRoundTrip | include/types.h:504-524 | The encoder as written does not survive decoding. |
| Types.EncodePosition | include/types.h:504-512 | The corrected encoder produces four numbers. |
| Types.DecodePosition | include/types.h:514-524 | Decoding succeeds if and only if the node is a list of four numbers, and then gives them in order. |
| Types.PositionRoundTrip | include/types.h:504-524 | With the corrected encoder, decoding gives back the position. |
| Types.DecodePoint | include/types.h:528-546 | Decoding succeeds if and only if the node is a list of two numbers. |
| Types.PointRoundTrip | include/types.h:528-546 | Decoding an encoded point gives it back. |
| Types.DecodeRange | include/types.h:549-567 | Decoding succeeds if and only if the node is a list of two numbers. |
| Types.RangeRoundTrip | include/types.h:549-567 | Decoding an encoded range gives it back. |
| Types.RangeNodeRoundTrip | include/types.h:549-567 | Encoding a decoded range gives back the node's numbers. |
| Types.LoadLegend | src/types.cc:10-33 | Loading succeeds if and only if each present legend key and the drawing options convert. Each present key gives its converted value, each absent one the base value, and nothing else changes. |
| Types.LoadFill | src/types.cc:62-66 | Loading succeeds if and only if a present fill colour and fill type convert. Present keys give their values, absent ones the base, and nothing else changes. |
| Types.LoadMarker | src/types.cc:70-77 | Loading succeeds if and only if a present marker colour, type and size convert. Present keys give their values, absent ones the base, and nothing else changes. |
| Types.LoadPlotStyle | src/types.cc:9-78 | Loading succeeds if and only if every present key converts and the line style parses. Each of the ten keys gives its converted value when present and the type's default when absent. The line style is parsed over the type's default line. |
| Types.EmptyNodeGivesDefaults | src/types.cc:9-78 | An empty node gives the defaults: data draws "P" and "P E X0", and others draw "F" and "hist". |
| Types.StyleNodeRoundTrip | src/types.cc:9-78 | A node setting every key of a style with index colours and 16-bit integers loads as that style, whatever the file type. |
| Types.ParseLineStyle | src/types.cc:84-93 | A non-map node leaves the style unchanged. Fields present in a map override it. |
| Types.DecodePoints | src/types.cc:95-127 | A list decodes if and only if each element is a point, with one point per element. |
| Types.LineFromNode | src/types.cc:95-127 | Reading succeeds if and only if a map's style and pad convert and the value is two points or, for a horizontal or vertical line, a number. A style exists if and only if the node is a map, and it is the style parsed over the default one. The pad is the bottom one if and only if `pad-location` reads `bottom`. An unspecified line has the two decoded points. A horizontal line has y, and a vertical one x, equal to the node's number at both ends, the other coordinate NaN. |
| Types.LineValueRoundTrip | src/types.cc:110-125 | A line's coordinates written as a node read back as its points or its one coordinate. |
| Types.LineRoundTrip | src/types.cc:95-127 | A line written as a node, styled or not, reads back as that line. |
| Types.Stylize | src/types.cc:139-147 | An entry drawn from an object keeps the drawn attributes. A static entry takes its own line width and uses its fill colour as line colour. |
| Utilities.ReplaceSubstr | src/utilities.cc:196-200 | With no occurrence the string is unchanged. Without a match at the front, the result is the plain replace-all. |
| Utilities.ReplaceAllIdentity | src/utilities.cc:196-200 | Replacing a pattern by itself changes nothing. |
| Utilities.ReplaceRestartsAfterFrontMatch | src/utilities.cc:196-200 | Because the search restarts at 0 after a front match, "abz" with "ab"→"xab" gives "xxabz", not the replace-all result "xabz". |
| Utilities.Truncate | include/utilities.h:187-195 | A string of at most max_len - 1 characters is unchanged. A longer one keeps its first max_len - 1 characters followed by an ellipsis. A zero max_len wraps around and keeps everything. |
| Utilities.TruncateIdempotent | include/utilities.h:187-195 | Truncating twice is truncating once. |
| Utilities.AddPairs | include/utilities.h:40-41 | Each component grows by the other pair's component. |
| Utilities.AccumulatePairsSums | include/utilities.h:40-41 | Accumulating pairs gives the sums of the first and of the second components. |
| Utilities.LoadColor | src/utilities.cc:202-231 | A `#` text of six or eight more characters (meant as `#rrggbb` or `#aarrggbb`) is read by stream extraction and decoded into red, green, blue and alpha. Any other node is a colour index and is an error unless it is a 16-bit integer. |
| Utilities.HexColorRoundTrip | src/utilities.cc:202-231 | Writing a colour as #rrggbb and loading it gives back its components. |
| Utilities.ZeroAlphaIsOpaque | src/utilities.cc:202-231 | "#00ff0000" is loaded as opaque red. |
| Utilities.SkipSpaces | src/utilities.cc:210-212 | The result is a suffix of the text that does not start with whitespace, and everything dropped is whitespace. |
| Utilities.ReadHex32 | src/utilities.cc:207-212 | Reading the hex digits into a 32-bit unsigned value always gives a value below 2^32. Whitespace, prefix and sign are stated by the `Utilities.ReadHex…` lemmas. |
| Utilities.ReadHexOfDigits | src/utilities.cc:207-212 | Text that starts with two hex digits and fits in 32 bits reads as the value of its leading digits. |
| Utilities.ReadHexSkipsSpace | src/utilities.cc:207-212 | Leading whitespace does not change the value read. |
| Utilities.ReadHexSkipsPrefix | src/utilities.cc:207-212 | `0x` and `0X` are skipped alike, and the digits after them read as their hex value, saturating to 0xffffffff beyond 32 bits. |
| Utilities.ReadHexPlusSign | src/utilities.cc:207-212 | A `+` sign before text that starts with neither whitespace nor a sign does not change the value. |
| Utilities.ReadHexMinusSign | src/utilities.cc:207-212 | A `-` sign gives the negation modulo 2^32 of the `+` reading, unless that reading is 0xffffffff. |
| Utilities.ParseHexBound | src/utilities.cc:207-212 | Reading n more hex digits after a value acc stays below (acc + 1) * 16^n. |
| Utilities.EightDigitsFit | src/utilities.cc:201-212 | At most eight hex digits stay below 2^32, so a colour text never saturates. |
| Utilities.ColorOfValue | src/utilities.cc:214-221 | A 32-bit value gives red, green and blue from its three low bytes over 255. Alpha is the top byte over 255 when the value exceeds 0xffffff and 1 otherwise, always within [0, 1]. |
| Utilities.LoadHexText | src/utilities.cc:204-212 | A hex colour text whose digits read as a value loads as that value's colour. |
| Utilities.ColorOfBytes | src/utilities.cc:214-221 | Three bytes packed as rrggbb decode to those bytes over 255, opaque. |
| Utilities.PrefixedColorsRead | src/utilities.cc:207-221 | "#0xff00" and "#  ff00" load as the same opaque green as "#00ff00". |
| Utilities.NegativeColorWraps | src/utilities.cc:207-221 | "#-00001" reads as 0xffffffff and loads as opaque white. |
| Utilities.ReplaceAllEscapes | src/utilities.cc:196-200 | Replacing every `_` by `\_` leaves every underscore right after a backslash. |
| Utilities.PositiveMinimum | src/utilities.cc:179-194 | The result is positive and at most every positive bin. It is one of them, or the float maximum when there is none. |
| Utilities.PartialSumsIntegral | src/utilities.cc:179-194 | The k-th drawn stack histogram has as integral the sum of the first k+1 layers' integrals. |
| Utilities.MinimumOf | src/utilities.cc:185-189 | The minimum is at most every element and is one of them. |
| Utilities.ObjectPositiveMinimum | src/utilities.cc:179-194 | A histogram gives its positive minimum. A stack gives the smallest positive minimum of its drawn histograms. Anything else gives 0. |

## Left out

- Drawing, canvases, ROOT and YAML file I/O, LaTeX output and the command line are not modelled. Bin lookup (`FindBin`), axis ranges and `GetEntries` become parameters.
- Poisson errors of data in ratios and yields are not modelled. Histograms carry squared errors, and square roots are never taken.
- Floating-point arithmetic is modelled by exact reals. Single-precision `float` fields are reals or optional reals.
- The log-normal evaluation (exp and log) is a parameter of `Systematics.Create`.
- `Rebin`, `applyRenaming`, the file lookup of a shape source's new set, the colour counter and `TColor` creation are left out. They are I/O or ROOT object management.
- The yield table's `plot_total_systematics` and `process_systematics` sums are not modelled, and categories are not sorted by table order.
- `Yields.EscapedPlot`: the escaped title is written back into the plot in place, so a later yield table built from the same plots escapes it again. The model escapes once per table and returns the categories only.
- `Types.Point` and `Types.Range` validity: modelled as the datatypes' `Valid` predicates, which only test that both coordinates are present.
- `Legends.FillLegend`: requires at least one column. With zero columns the source's `% 0` is undefined. The float row index is idealised as integer division.
- `Legends.Emitters`: a file without a legend still gives an (empty) entry, because the source's lookup returns true for it.
- `Blinding.Blind`: assumes the normal error option, where a squared error is the absolute value of the content. Other ROOT error options are not modelled.
- `Plots.EraMapTotal`: requires distinct, named eras. With duplicate eras the source counts a luminosity twice in the total, while the map keeps one.
- `Summaries.PrintItems`: the per-name accumulation keeps first-encounter order instead of the `std::map` order. The sum of squares does not depend on order. The up and down fields of a summary item are not printed.
- `Combiner.ComputeSystematics`: the file selection is not era-filtered, as in the code, which uses every file.
- `Sorting.SortBy`: layers with equal yields come out in one fixed order. `std::sort` leaves their order unspecified, so the model picks one of the orders the source allows.
- `Files.StyleOf`: a file's own plot style is assumed present.
- `Utilities.ObjectPositiveMinimum`: requires a non-empty stack. Stacks built by `Stacks.BuildStack` are never empty.
- `Systematics.SystematicsNodeType`: requires a non-empty map when the node is a map. The source reads the first entry of the map without checking it is there.
- `Types.StyleNodeRoundTrip`: covers styles whose colours are indices. A custom colour is written as hex text, so only channels that are multiples of 1/255 come back; `Utilities.HexColorRoundTrip` states that reading.
- `Types.LineRoundTrip`: covers lines whose style colour is an index, and unstyled lines on the top pad, which are the only unstyled lines a node can describe.
- `Utilities.ReadHex32`: follows how the GNU C++ library extracts an unsigned integer in the classic locale. Thousands grouping of other locales is not modelled.
- `Files.File`: the file's factor is a parameter of `Files.LoadedSets`. Its computation from cross-section, branching ratio, generated events, luminosity and scales is not modelled. The other modules take a file's `hist` and `systematics` as already loaded.
- `Yaml.Node.AsInt16`: yaml-cpp reads the integer from the scalar's text with a stream. Text such as `2.0` or `1e2` fails there, and base prefixes are read as such. The model accepts any scalar whose number is an integer in range.
- `Utilities.ReplaceSubstr`: requires a non-empty pattern, and a replacement that does not start with the pattern when the string does. Otherwise the source loops forever.

## Findings

| source | as written | input that shows it | evidently intended | confidence | as-written member | corrected member |
|---|---|---|---|---|---|---|
| include/types.h:504-512 | The position encoder writes x1, y1, x1, y1 | Position(0.6, 0.6, 0.9, 0.9) decodes back as (0.6, 0.6, 0.6, 0.6) | Write x1, y1, x2, y2 | not executed | Types.EncodePositionAsWritten, Types.PositionAsWrittenDoesNotRoundTrip | Types.EncodePosition, Types.PositionRoundTrip |
| src/TH1Plotter.cc:1334-1346 | With first bin equal to last bin, the overflow write replaces the underflow write | contents [1, 1, 1] (underflow, one bin, overflow), range bin 1: the bin ends at 2, not 3 | The single bin holds underflow + content + overflow | not executed | Overflows.AddOverflowAsWritten, Overflows.AsWrittenLosesUnderflow | Overflows.AddOverflow, Overflows.AddOverflowConserves |

=== FILE: blinding.dfy ===
/** Blinding of the data histogram: when the plot has a valid blinded range,
    data is present and unblinding was not asked for, the data histogram is
    reset and only the bins outside [startBin, endBin] are filled back.
    `startBin` and `endBin` are the bins ROOT finds for the two ends of the
    range. The reset also switches off the stored squared errors, so they
    follow the contents again; the model takes ROOT's default option, where
    a bin's squared error is the absolute value of its content. */
module Blinding {
  import opened Reals
  import opened Vectors
  import opened Histograms

  /** `dst` with the bins `lo..hi-1` copied from `src`. */
  function Restore(dst: seq<real>, src: seq<real>, lo: nat, hi: nat): (r: seq<real>)
    requires |src| == |dst| && lo <= hi <= |dst|
    decreases hi - lo
    ensures |r| == |dst|
    ensures forall i :: 0 <= i < |dst| ==> r[i] == if lo <= i < hi then src[i] else dst[i]
  {
    if lo == hi then dst else Restore(dst[lo := src[lo]], src, lo + 1, hi)
  }

  /** Squared errors that follow the contents. */
  function ContentErrors(c: seq<real>): (r: seq<real>)
    ensures |r| == |c|
    ensures forall i :: 0 <= i < |c| ==> r[i] == Abs(c[i])
  {
    seq(|c|, i requires 0 <= i < |c| => Abs(c[i]))
  }

  /** Whether the blinding block runs. */
  predicate Applies(unblind: bool, hasData: bool, rangeValid: bool) {
    !unblind && hasData && rangeValid
  }

  /** The blinding block. Bins below `startBin` are restored from the
      underflow on, and bins above `endBin` up to the last regular bin, so
      the overflow bin stays empty; everything in the window is empty. */
  function Blind(h: Hist, unblind: bool, hasData: bool, rangeValid: bool, startBin: nat, endBin: nat): (r: Hist)
    requires h.Valid() && startBin <= h.NBins() + 1 && endBin <= h.NBins() + 1
    ensures Conforms(r, h.NBins())
    ensures !Applies(unblind, hasData, rangeValid) ==> r == h
    ensures Applies(unblind, hasData, rangeValid) ==>
      && (forall i :: 0 <= i < |h.contents| ==>
            r.contents[i] == if i < startBin || endBin < i <= h.NBins() then h.contents[i] else 0.0)
      && r.sumw2 == ContentErrors(r.contents)
  {
    if !Applies(unblind, hasData, rangeValid) then h
    else
      var n := |h.contents|;
      var reset := Zeros(n);
      var below := Restore(reset, h.contents, 0, startBin);
      var contents := if endBin + 1 <= n - 1 then Restore(below, h.contents, endBin + 1, n - 1) else below;
      Hist(contents, ContentErrors(contents))
  }

  /** Blinding twice is blinding once. */
  lemma BlindIdempotent(h: Hist, unblind: bool, hasData: bool, rangeValid: bool, startBin: nat, endBin: nat)
    requires h.Valid() && startBin <= h.NBins() + 1 && endBin <= h.NBins() + 1
    ensures var r := Blind(h, unblind, hasData, rangeValid, startBin, endBin);
      Blind(r, unblind, hasData, rangeValid, startBin, endBin) == r
  {
    var r := Blind(h, unblind, hasData, rangeValid, startBin, endBin);
    if Applies(unblind, hasData, rangeValid) {
      assert Blind(r, unblind, hasData, rangeValid, startBin, endBin).contents == r.contents;
    }
  }

  /** What is left to see is the content outside the window: the total
      content of the blinded histogram is the underflow and the regular
      bins before the window plus the regular bins after it. */
  lemma BlindedContent(h: Hist, startBin: nat, endBin: nat)
    requires h.Valid() && startBin <= endBin <= h.NBins()
    ensures Sum(Blind(h, false, true, true, startBin, endBin).contents)
            == Sum(h.contents[..startBin]) + Sum(h.contents[endBin + 1..h.NBins() + 1])
  {
    var r := Blind(h, false, true, true, startBin, endBin);
    assert h.NBins() + 1 == |h.contents| - 1;
    OutsideWindowSum(h.contents, r.contents, startBin, endBin);
  }

  /** The sum of a sequence that agrees with `c` outside a window and in
      the last entry is zero. */
  lemma OutsideWindowSum(c: seq<real>, rc: seq<real>, startBin: nat, endBin: nat)
    requires |c| == |rc| && startBin <= endBin < |c| - 1
    requires forall i :: 0 <= i < |c| ==>
      rc[i] == if i < startBin || endBin < i < |c| - 1 then c[i] else 0.0
    ensures Sum(rc) == Sum(c[..startBin]) + Sum(c[endBin + 1..|c| - 1])
  {
    var n := |c|;
    var below, window, above, overflow := rc[..startBin], rc[startBin..endBin + 1], rc[endBin + 1..n - 1], rc[n - 1..];
    assert rc == below + window + above + overflow;
    assert below == c[..startBin];
    assert above == c[endBin + 1..n - 1];
    forall i | 0 <= i < |window| ensures window[i] == 0.0 {
      assert window[i] == rc[startBin + i];
    }
    SumOfZeros(window);
    SumOfZeros(overflow);
    SumOfFour(below, window, above, overflow);
  }

  lemma SumOfFour(a: seq<real>, b: seq<real>, c: seq<real>, d: seq<real>)
    ensures Sum(a + b + c + d) == Sum(a) + Sum(b) + Sum(c) + Sum(d)
  {
    SumAppend(a + b + c, d);
    SumAppend(a + b, c);
    SumAppend(a, b);
  }
}

=== FILE: combiner.dfy ===
/** `computeSystematics`: the systematic uncertainty band of one stack. Per
    bin, each set of shapes gives an up and a down error from its up and
    down variations; errors of sets sharing a source name add linearly
    (fully correlated), different names add in quadrature (uncorrelated),
    and the statistical error of the stack adds in quadrature on top.
    Errors are carried as squares, so no square root appears. Only
    simulation feeds the band; signal only reports its items to the
    summary. */
module Combiner {
  import opened Wrappers
  import opened Reals
  import opened Vectors
  import opened Histograms
  import opened Tallies
  import opened Systematics
  import opened Types
  import opened Files
  import opened Stacks
  import opened Summaries

  // ---------------------------------------------------------------------
  // One bin

  /** The (up, down) error of one bin from the shifts of the up and down
      shapes. Shifts of opposite signs (or a zero one) are double-sided:
      the pair is kept when the up shift is non-negative and the down shift
      negative, and exchanged otherwise. Shifts of the same sign are
      one-sided: the larger goes to the up side when they are positive and
      to the down side when they are negative, the other side being zero.
      The up error is never negative, and the larger of the two errors,
      the symmetric error, is the larger of zero and the two shifts. */
  function Resolve(dUp: real, dDn: real): (r: (real, real))
    ensures r.0 >= 0.0
    ensures Max(r.0, r.1) == Max(0.0, Max(dUp, dDn))
    ensures dUp * dDn <= 0.0 ==> (r == (dUp, dDn) || r == (dDn, dUp))
    ensures dUp > 0.0 && dDn > 0.0 ==> r == (Max(dUp, dDn), 0.0)
    ensures dUp < 0.0 && dDn < 0.0 ==> r == (0.0, Max(dUp, dDn))
  {
    ProductSign(dUp, dDn);
    if dUp * dDn <= 0.0 then
      if dUp >= 0.0 && dDn < 0.0 then (dUp, dDn) else (dDn, dUp)
    else if dUp > 0.0 then (Max(dUp, dDn), 0.0)
    else (0.0, Max(dUp, dDn))
  }

  /** The down error is positive in exactly one case: an upward shift with
      an unchanged down shape falls into the double-sided branch, fails its
      test and is exchanged, so it is reported on the down side. */
  lemma ResolvePositiveDown(dUp: real, dDn: real)
    ensures Resolve(dUp, dDn).1 > 0.0 <==> dDn == 0.0 && dUp > 0.0
    ensures dDn == 0.0 && dUp > 0.0 ==> Resolve(dUp, dDn) == (0.0, dUp)
  {
    ProductSign(dUp, dDn);
  }

  /** Both shapes below nominal give no symmetric error at all. */
  lemma BothBelowNominal(dUp: real, dDn: real)
    requires dUp < 0.0 && dDn < 0.0
    ensures Max(Resolve(dUp, dDn).0, Resolve(dUp, dDn).1) == 0.0
  {
  }

  /** Exchanging the up and down shapes leaves the symmetric error alone. */
  lemma SymmetricErrorIgnoresOrder(dUp: real, dDn: real)
    ensures Max(Resolve(dUp, dDn).0, Resolve(dUp, dDn).1) == Max(Resolve(dDn, dUp).0, Resolve(dDn, dUp).1)
  {
  }

  // ---------------------------------------------------------------------
  // One set of shapes

  /** The working shapes of a set, when all three are present. */
  datatype Shapes = Shapes(nominal: Hist, up: Hist, down: Hist)

  function ShapesOf(s: SystematicSet): (r: Option<Shapes>)
    ensures r.Some? <==> s.nominal.Some? && s.up.Some? && s.down.Some?
  {
    if s.nominal.Some? && s.up.Some? && s.down.Some? then Some(Shapes(s.nominal.value, s.up.value, s.down.value))
    else None
  }

  /** (up, down) error of bin `i`. */
  function BinPair(s: Shapes, i: nat): (real, real) {
    Resolve(BinOf(s.up, i) - BinOf(s.nominal, i), BinOf(s.down, i) - BinOf(s.nominal, i))
  }

  /** Symmetric error of bin `i`: the larger of its up and down error. */
  function BinSymmetric(s: Shapes, i: nat): (r: real)
    ensures r >= 0.0
    ensures r >= BinOf(s.up, i) - BinOf(s.nominal, i) && r >= BinOf(s.down, i) - BinOf(s.nominal, i)
    ensures r == Max(0.0, Max(BinOf(s.up, i) - BinOf(s.nominal, i), BinOf(s.down, i) - BinOf(s.nominal, i)))
  {
    Max(BinPair(s, i).0, BinPair(s, i).1)
  }

  /** Which of the three per-bin errors a vector carries. */
  datatype Component = Symmetric | Upper | Lower

  function ComponentAt(s: Shapes, i: nat, which: Component): real {
    match which
    case Symmetric => BinSymmetric(s, i)
    case Upper => BinPair(s, i).0
    case Lower => BinPair(s, i).1
  }

  /** Bins 1..m of `h` summed. */
  function BinSum(h: Hist, m: nat): real
  {
    if m == 0 then 0.0 else BinSum(h, m - 1) + BinOf(h, m)
  }

  /** On a histogram with `n` regular bins that is ROOT's `Integral()`. */
  lemma BinSumIsIntegral(h: Hist, n: nat)
    requires Conforms(h, n)
    ensures BinSum(h, n) == Integral(h)
  {
    BinSumIsSlice(h, n);
  }

  lemma {:induction false} BinSumIsSlice(h: Hist, m: nat)
    requires h.Valid() && m <= h.NBins()
    ensures BinSum(h, m) == Sum(h.contents[1..m + 1])
  {
    if m > 0 {
      BinSumIsSlice(h, m - 1);
      assert h.contents[1..m + 1] == h.contents[1..m] + [h.contents[m]];
      SumAppend(h.contents[1..m], [h.contents[m]]);
    }
  }

  /** Sum over bins 1..m of the symmetric error: `total_syst_error`. No
      bin's symmetric error exceeds it. */
  function SymmetricTotal(s: Shapes, m: nat): (r: real)
    ensures r >= 0.0
    ensures forall i :: 1 <= i <= m ==> r >= BinSymmetric(s, i)
  {
    if m == 0 then 0.0 else SymmetricTotal(s, m - 1) + BinSymmetric(s, m)
  }

  /** The symmetric errors of bins 1..m, in bin order. */
  function BinSymmetrics(s: Shapes, m: nat): (r: seq<real>)
    ensures |r| == m
    ensures forall i :: 0 <= i < m ==> r[i] == BinSymmetric(s, i + 1)
  {
    seq(m, i requires 0 <= i < m => BinSymmetric(s, i + 1))
  }

  /** `total_syst_error` is the sum of the bins' symmetric errors. */
  lemma {:induction false} SymmetricTotalIsSum(s: Shapes, m: nat)
    ensures SymmetricTotal(s, m) == Sum(BinSymmetrics(s, m))
  {
    if m > 0 {
      SymmetricTotalIsSum(s, m - 1);
      var init, last := BinSymmetrics(s, m - 1), BinSymmetric(s, m);
      assert BinSymmetrics(s, m) == init + [last];
      SumAppend(init, [last]);
      assert Sum([last]) == last + Sum([last][1..]);
    }
  }

  /** The integral shifts of the up and down shapes, as the source reports
      them for the whole yield: the two shifts themselves, only reordered,
      never resolved into one-sided errors as a single bin's are. The up
      shift stays first exactly when the shifts do not point the same way
      or are equal. */
  function YieldShifts(s: Shapes, n: nat): (r: (real, real))
    ensures var tUp := BinSum(s.up, n) - BinSum(s.nominal, n);
            var tDn := BinSum(s.down, n) - BinSum(s.nominal, n);
            && multiset{r.0, r.1} == multiset{tUp, tDn}
            && (r.0 == tUp <==> tUp * tDn <= 0.0 || tUp == tDn)
  {
    var tUp := BinSum(s.up, n) - BinSum(s.nominal, n);
    var tDn := BinSum(s.down, n) - BinSum(s.nominal, n);
    if tUp * tDn <= 0.0 then (tUp, tDn) else (tDn, tUp)
  }

  /** When both shapes raise the yield, the yield keeps a non-zero down
      shift, where a single bin with the same shifts reports a down error of
      zero: the yield table does not reuse the per-bin rule. */
  lemma YieldShiftsNotResolved(s: Shapes, n: nat)
    requires BinSum(s.up, n) > BinSum(s.nominal, n) && BinSum(s.down, n) > BinSum(s.nominal, n)
    ensures YieldShifts(s, n).1 > 0.0
    ensures Resolve(BinSum(s.up, n) - BinSum(s.nominal, n), BinSum(s.down, n) - BinSum(s.nominal, n)).1 == 0.0
  {
  }

  /** Summing symmetric errors bin by bin never reports less than the
      shift of the integral under either variation. */
  lemma {:induction false} SymmetricTotalBoundsShifts(s: Shapes, m: nat)
    ensures SymmetricTotal(s, m) >= BinSum(s.up, m) - BinSum(s.nominal, m)
    ensures SymmetricTotal(s, m) >= BinSum(s.down, m) - BinSum(s.nominal, m)
  {
    if m > 0 {
      SymmetricTotalBoundsShifts(s, m - 1);
    }
  }

  /** Shapes equal to the nominal one contribute no error. */
  lemma {:induction false} NoVariationNoError(h: Hist, m: nat)
    ensures SymmetricTotal(Shapes(h, h, h), m) == 0.0
  {
    if m > 0 {
      NoVariationNoError(h, m - 1);
    }
  }

  // ---------------------------------------------------------------------
  // Which files and sets take part

  /** Files whose sets take part for stack `index`: every non-data file
      with systematics, where simulation must belong to that stack. The
      selection runs over all files, whatever their era. */
  predicate Contributes(f: File, index: int) {
    f.typ != Data && |f.systematics| > 0 && (f.typ != MC || f.stackIndex == index)
  }

  /** A (file, set) pair. */
  type Contribution = (File, SystematicSet)

  function SetsOf(f: File): (r: seq<Contribution>)
    ensures |r| == |f.systematics|
    ensures forall k :: 0 <= k < |r| ==> r[k] == (f, f.systematics[k])
  {
    seq(|f.systematics|, k requires 0 <= k < |f.systematics| => (f, f.systematics[k]))
  }

  /** Every set of every file, file by file. */
  function Flatten(files: seq<File>): (r: seq<Contribution>)
    ensures forall k :: 0 <= k < |r| ==> r[k].0 in files && r[k].1 in r[k].0.systematics
  {
    if |files| == 0 then []
    else
      var init := files[..|files| - 1];
      var r := Flatten(init) + SetsOf(files[|files| - 1]);
      assert forall k :: 0 <= k < |r| ==> r[k].0 in files by {
        forall k | 0 <= k < |r|
          ensures r[k].0 in files
        {
          if k < |Flatten(init)| {
            assert r[k].0 in init;
          } else {
            assert r[k].0 == files[|files| - 1];
          }
        }
      }
      r
  }

  /** The sets visited for stack `index`, in file order. */
  function Contributions(files: seq<File>, index: int): (r: seq<Contribution>)
    ensures forall k :: 0 <= k < |r| ==> Contributes(r[k].0, index) && r[k].0 in files
  {
    Flatten(GetFiles(files, f => Contributes(f, index)))
  }

  /** A set feeds the band when its file is simulation and its three
      working shapes are present. */
  predicate Feeds(c: Contribution) {
    c.0.typ == MC && ShapesOf(c.1).Some?
  }

  // ---------------------------------------------------------------------
  // Per-name vectors

  /** The per-bin vector a set adds to its name's entry: its errors when
      it feeds the band, zeros otherwise (the entry is still created). */
  function ContributionVector(c: Contribution, n: nat, which: Component): (r: seq<real>)
    ensures |r| == n
    ensures forall k :: 0 <= k < n ==> r[k] == (if Feeds(c) then ComponentAt(ShapesOf(c.1).value, k + 1, which) else 0.0)
  {
    if Feeds(c) then seq(n, k requires 0 <= k < n => ComponentAt(ShapesOf(c.1).value, k + 1, which)) else Zeros(n)
  }

  /** The (name, vector) items of a list of sets. */
  function Items(cs: seq<Contribution>, n: nat, which: Component): (r: seq<(string, seq<real>)>)
    ensures |r| == |cs|
    ensures forall k :: 0 <= k < |cs| ==> r[k] == (cs[k].1.source.name, ContributionVector(cs[k], n, which))
  {
    if |cs| == 0 then []
    else Items(cs[..|cs| - 1], n, which) + [(cs[|cs| - 1].1.source.name, ContributionVector(cs[|cs| - 1], n, which))]
  }

  /** Element-wise addition of two vectors of length `n`. */
  function VecPlus(n: nat): (plus: (seq<real>, seq<real>) -> seq<real>)
    ensures forall a, b :: |a| == n && |b| == n ==> plus(a, b) == Vectors.Add(a, b)
  {
    (a: seq<real>, b: seq<real>) => if |a| == n && |b| == n then Vectors.Add(a, b) else a
  }

  /** `combined_systematics_map`: one vector per source name. */
  function Combined(cs: seq<Contribution>, n: nat, which: Component): seq<(string, seq<real>)> {
    Tally(Items(cs, n, which), Zeros(n), VecPlus(n))
  }

  /** Reference: the error of bin `i` summed over every set of name
      `name` that feeds the band. */
  function NameBinTotal(cs: seq<Contribution>, name: string, i: nat, which: Component): real
  {
    if |cs| == 0 then 0.0
    else
      var c := cs[|cs| - 1];
      var t := NameBinTotal(cs[..|cs| - 1], name, i, which);
      if c.1.source.name == name && Feeds(c) then t + ComponentAt(ShapesOf(c.1).value, i, which) else t
  }

  /** A name's accumulated vector has bin `i` equal to the reference sum:
      signal sets and sets with a missing shape add nothing. */
  lemma {:induction false} TotalIsNameBinTotal(cs: seq<Contribution>, n: nat, which: Component, name: string)
    ensures |Total(Items(cs, n, which), name, Zeros(n), VecPlus(n))| == n
    ensures forall k :: 0 <= k < n ==>
      Total(Items(cs, n, which), name, Zeros(n), VecPlus(n))[k] == NameBinTotal(cs, name, k + 1, which)
  {
    if |cs| > 0 {
      var init := cs[..|cs| - 1];
      TotalIsNameBinTotal(init, n, which, name);
      assert Items(cs, n, which)[..|cs| - 1] == Items(init, n, which);
    }
  }

  // ---------------------------------------------------------------------
  // The band

  /** Squared errors of the regular bins 1..n (index k for bin k + 1): of
      the systematic band, of its up and down sides, and of each combined
      with the statistical error. */
  datatype Band = Band(
    systSq: seq<real>, systUpSq: seq<real>, systDownSq: seq<real>,
    totalSq: seq<real>, totalUpSq: seq<real>, totalDownSq: seq<real>)

  /** Element `k` of a vector, zero outside it. */
  function At(v: seq<real>, k: nat): real {
    if k < |v| then v[k] else 0.0
  }

  /** Sum over the entries of the square of their element `k`. */
  function BinSquares(acc: seq<(string, seq<real>)>, k: nat): (r: real)
    ensures r >= 0.0
  {
    if |acc| == 0 then 0.0
    else
      BinSquares(acc[..|acc| - 1], k) + Square(At(acc[|acc| - 1].1, k))
  }

  /** Reference: sum over the names of the squared per-name totals of bin
      `i`. */
  function SquaresByName(cs: seq<Contribution>, names: seq<string>, i: nat, which: Component): (r: real)
    ensures r >= 0.0
  {
    if |names| == 0 then 0.0
    else
      SquaresByName(cs, names[..|names| - 1], i, which) + Square(NameBinTotal(cs, names[|names| - 1], i, which))
  }

  function ComponentSq(cs: seq<Contribution>, n: nat, which: Component): (r: seq<real>)
    ensures |r| == n
    ensures forall k :: 0 <= k < n ==> r[k] >= 0.0
  {
    seq(n, k requires 0 <= k < n => BinSquares(Combined(cs, n, which), k))
  }

  /** The band of a stack whose statistical-only histogram is `statOnly`,
      from the sets `cs`. Each side of the total band is its systematic
      part and the statistical part in quadrature. */
  function ComputeBand(cs: seq<Contribution>, statOnly: Hist, n: nat): (r: Band)
    ensures |r.systSq| == |r.systUpSq| == |r.systDownSq| == n
    ensures |r.totalSq| == |r.totalUpSq| == |r.totalDownSq| == n
    ensures forall k :: 0 <= k < n ==>
      && r.systSq[k] >= 0.0 && r.systUpSq[k] >= 0.0 && r.systDownSq[k] >= 0.0
      && r.totalSq[k] == r.systSq[k] + Sumw2Of(statOnly, k + 1)
      && r.totalUpSq[k] == r.systUpSq[k] + Sumw2Of(statOnly, k + 1)
      && r.totalDownSq[k] == r.systDownSq[k] + Sumw2Of(statOnly, k + 1)
  {
    var s := ComponentSq(cs, n, Symmetric);
    var u := ComponentSq(cs, n, Upper);
    var d := ComponentSq(cs, n, Lower);
    Band(s, u, d, WithStat(s, statOnly), WithStat(u, statOnly), WithStat(d, statOnly))
  }

  /** A squared systematic error per regular bin with the statistical
      error of the bin added in quadrature. */
  function WithStat(v: seq<real>, statOnly: Hist): (r: seq<real>)
    ensures |r| == |v| && forall k :: 0 <= k < |v| ==> r[k] == v[k] + Sumw2Of(statOnly, k + 1)
  {
    seq(|v|, k requires 0 <= k < |v| => v[k] + Sumw2Of(statOnly, k + 1))
  }

  /** The systematic side of a band that a component feeds. */
  function Side(b: Band, which: Component): seq<real> {
    match which
    case Symmetric => b.systSq
    case Upper => b.systUpSq
    case Lower => b.systDownSq
  }

  lemma {:induction false} BinSquaresOfTotals(cs: seq<Contribution>, n: nat, which: Component,
                                              acc: seq<(string, seq<real>)>, names: seq<string>, k: nat)
    requires k < n
    requires |acc| == |names|
    requires forall j :: 0 <= j < |acc| ==> acc[j] == (names[j], Total(Items(cs, n, which), names[j], Zeros(n), VecPlus(n)))
    ensures BinSquares(acc, k) == SquaresByName(cs, names, k + 1, which)
  {
    if |acc| > 0 {
      var last := |acc| - 1;
      var acc', names' := acc[..last], names[..last];
      assert forall j :: 0 <= j < |acc'| ==> acc'[j] == acc[j] && names'[j] == names[j];
      BinSquaresOfTotals(cs, n, which, acc', names', k);
      TotalIsNameBinTotal(cs, n, which, names[last]);
      assert At(acc[last].1, k) == NameBinTotal(cs, names[last], k + 1, which);
    }
  }

  /** Each side of the systematic band is, bin by bin, the quadrature sum
      over the distinct source names of the linear sum of that name's
      errors over the simulation sets that have all their shapes. */
  lemma BandIsQuadratureOverNames(cs: seq<Contribution>, statOnly: Hist, n: nat, which: Component, k: nat)
    requires k < n
    ensures Side(ComputeBand(cs, statOnly, n), which)[k] == SquaresByName(cs, Names(Items(cs, n, which)), k + 1, which)
  {
    var items := Items(cs, n, which);
    TallyIsTotals(items, Zeros(n), VecPlus(n));
    BinSquaresOfTotals(cs, n, which, Combined(cs, n, which), Names(items), k);
  }

  /** With no simulation set feeding it the band is empty: signal
      uncertainties never widen it. */
  lemma NoFeedingSetNoBand(cs: seq<Contribution>, statOnly: Hist, n: nat, k: nat)
    requires k < n
    requires forall j :: 0 <= j < |cs| ==> !Feeds(cs[j])
    ensures var b := ComputeBand(cs, statOnly, n);
      && b.systSq[k] == 0.0 && b.systUpSq[k] == 0.0 && b.systDownSq[k] == 0.0
      && b.totalSq[k] == Sumw2Of(statOnly, k + 1)
  {
    var b := ComputeBand(cs, statOnly, n);
    SideIsZero(cs, statOnly, n, Symmetric, k);
    SideIsZero(cs, statOnly, n, Upper, k);
    SideIsZero(cs, statOnly, n, Lower, k);
    assert Side(b, Symmetric) == b.systSq && Side(b, Upper) == b.systUpSq && Side(b, Lower) == b.systDownSq;
  }

  lemma SideIsZero(cs: seq<Contribution>, statOnly: Hist, n: nat, which: Component, k: nat)
    requires k < n
    requires forall j :: 0 <= j < |cs| ==> !Feeds(cs[j])
    ensures Side(ComputeBand(cs, statOnly, n), which)[k] == 0.0
  {
    NoFeedingZeroSquares(cs, Names(Items(cs, n, which)), k + 1, which);
    BandIsQuadratureOverNames(cs, statOnly, n, which, k);
  }

  lemma {:induction false} NoFeedingZeroTotal(cs: seq<Contribution>, name: string, i: nat, which: Component)
    requires forall j :: 0 <= j < |cs| ==> !Feeds(cs[j])
    ensures NameBinTotal(cs, name, i, which) == 0.0
  {
    if |cs| > 0 {
      NoFeedingZeroTotal(cs[..|cs| - 1], name, i, which);
    }
  }

  lemma {:induction false} NoFeedingZeroSquares(cs: seq<Contribution>, names: seq<string>, i: nat, which: Component)
    requires forall j :: 0 <= j < |cs| ==> !Feeds(cs[j])
    ensures SquaresByName(cs, names, i, which) == 0.0
  {
    if |names| > 0 {
      NoFeedingZeroSquares(cs, names[..|names| - 1], i, which);
      NoFeedingZeroTotal(cs, names[|names| - 1], i, which);
    }
  }

  // ---------------------------------------------------------------------
  // Summary items

  /** The summary item of one set: named after the source's pretty name,
      its uncertainty the bin-summed symmetric error, its up and down
      uncertainties the ordered integral shifts. */
  function SetItem(c: Contribution, s: Shapes, n: nat): (r: SummaryItem)
    ensures r.name == c.1.source.prettyName && r.processId == c.0.id
    ensures r.eventsUncertainty >= 0.0
    ensures r.eventsUncertainty >= r.eventsUncertaintyUp && r.eventsUncertainty >= r.eventsUncertaintyDown
    ensures r.eventsUncertainty == Sum(BinSymmetrics(s, n))
    ensures (r.eventsUncertaintyUp, r.eventsUncertaintyDown) == YieldShifts(s, n)
  {
    SymmetricTotalIsSum(s, n);
    SymmetricTotalBoundsShifts(s, n);
    var (up, down) := YieldShifts(s, n);
    SummaryItem(c.1.source.prettyName, c.0.id, 0.0, SymmetricTotal(s, n), up, down, 0.0, 0.0)
  }

  /** `addSystematics` calls, one per set with all its shapes, filed under
      the file's type and id; signal sets are reported as well. */
  function SummaryOps(cs: seq<Contribution>, n: nat): (r: seq<(FileType, nat, SummaryItem)>)
    ensures |r| <= |cs|
    ensures (forall j :: 0 <= j < |cs| ==> cs[j].0.typ != Data) ==> forall k :: 0 <= k < |r| ==> r[k].0 != Data
  {
    if |cs| == 0 then []
    else SummaryOps(cs[..|cs| - 1], n) + SetOps(cs[|cs| - 1], n)
  }

  /** The `addSystematics` call of one contribution, if its set has all
      three shapes. */
  function SetOps(c: Contribution, n: nat): (r: seq<(FileType, nat, SummaryItem)>)
    ensures |r| <= 1
    ensures forall k :: 0 <= k < |r| ==> r[k].0 == c.0.typ
  {
    match ShapesOf(c.1)
    case None => []
    case Some(s) => [(c.0.typ, c.0.id, SetItem(c, s, n))]
  }

  /** The items of `a + b` are those of `a` followed by those of `b`. */
  lemma {:induction false} SummaryOpsAppend(a: seq<Contribution>, b: seq<Contribution>, n: nat)
    ensures SummaryOps(a + b, n) == SummaryOps(a, n) + SummaryOps(b, n)
    decreases |b|
  {
    if |b| == 0 {
      assert a + b == a;
    } else {
      var b' := b[..|b| - 1];
      SummaryOpsAppend(a, b', n);
      SummaryOpsStep(a, b, n);
    }
  }

  lemma SummaryOpsStep(a: seq<Contribution>, b: seq<Contribution>, n: nat)
    requires |b| > 0
    requires SummaryOps(a + b[..|b| - 1], n) == SummaryOps(a, n) + SummaryOps(b[..|b| - 1], n)
    ensures SummaryOps(a + b, n) == SummaryOps(a, n) + SummaryOps(b, n)
  {
    var ab := a + b;
    var b' := b[..|b| - 1];
    var last := SetOps(b[|b| - 1], n);
    assert ab[..|ab| - 1] == a + b';
    assert ab[|ab| - 1] == b[|b| - 1];
    assert SummaryOps(ab, n) == SummaryOps(a + b', n) + last by {
      SummaryOpsLast(ab, n);
    }
    assert SummaryOps(b, n) == SummaryOps(b', n) + last by {
      SummaryOpsLast(b, n);
    }
    ConcatAssociates(SummaryOps(a, n), SummaryOps(b', n), last);
  }

  lemma ConcatAssociates<T>(x: seq<T>, y: seq<T>, z: seq<T>)
    ensures (x + y) + z == x + (y + z)
  {
  }

  lemma SummaryOpsLast(cs: seq<Contribution>, n: nat)
    requires |cs| > 0
    ensures SummaryOps(cs, n) == SummaryOps(cs[..|cs| - 1], n) + SetOps(cs[|cs| - 1], n)
  {
  }

  /** One contribution gives one item, filed under its file's type and id,
      when its set has all three shapes, and none otherwise. */
  lemma SummaryOpsSingle(c: Contribution, n: nat)
    ensures SummaryOps([c], n) ==
      match ShapesOf(c.1)
      case None => []
      case Some(s) => [(c.0.typ, c.0.id, SetItem(c, s, n))]
  {
    assert [c][..0] == [];
  }

  /** `computeSystematics(index, stack, summary)`. */
  function ComputeSystematics(files: seq<File>, index: int, statOnly: Hist, n: nat, summary: Summary): (r: (Band, Summary))
    ensures r.0 == ComputeBand(Contributions(files, index), statOnly, n)
    ensures forall t :: Get(r.1, t) == Get(summary, t)
  {
    var cs := Contributions(files, index);
    (ComputeBand(cs, statOnly, n), AddAllSystematics(summary, SummaryOps(cs, n)))
  }

  /** Data files never receive systematic items, and every other process
      receives its items after the ones it already had. */
  lemma ComputeSystematicsItems(files: seq<File>, index: int, statOnly: Hist, n: nat, summary: Summary, t: FileType, id: nat)
    ensures var s := ComputeSystematics(files, index, statOnly, n, summary).1;
      var ops := SummaryOps(Contributions(files, index), n);
      && GetSystematics(s, t, id) == GetSystematics(summary, t, id) + ItemsFor(ops, t, id)
      && GetSystematics(s, Data, id) == GetSystematics(summary, Data, id)
  {
    var cs := Contributions(files, index);
    var ops := SummaryOps(cs, n);
    AddAllSystematicsGet(summary, ops, t, id);
    AddAllSystematicsGet(summary, ops, Data, id);
    NoDataItems(ops, id);
  }

  lemma {:induction false} NoDataItems(ops: seq<(FileType, nat, SummaryItem)>, id: nat)
    requires forall k :: 0 <= k < |ops| ==> ops[k].0 != Data
    ensures ItemsFor(ops, Data, id) == []
  {
    if |ops| > 0 {
      NoDataItems(ops[..|ops| - 1], id);
    }
  }

  /** The band of one stack, over its own bins. */
  function StackBand(files: seq<File>, stack: (int, Stack)): Band
    requires stack.1.statOnly.Valid()
  {
    ComputeBand(Contributions(files, stack.0), stack.1.statOnly, stack.1.statOnly.NBins())
  }

  /** The bands of the stacks, in stack order. */
  function AllBands(files: seq<File>, stacks: seq<(int, Stack)>): (r: seq<Band>)
    requires forall k :: 0 <= k < |stacks| ==> stacks[k].1.statOnly.Valid()
    ensures |r| == |stacks|
    ensures forall k :: 0 <= k < |stacks| ==> r[k] == StackBand(files, stacks[k])
  {
    if |stacks| == 0 then []
    else
      var n := |stacks| - 1;
      var init := stacks[..n];
      assert forall k :: 0 <= k < n ==> init[k] == stacks[k];
      AllBands(files, init) + [StackBand(files, stacks[n])]
  }

  /** The summary after every stack's systematic items were added in turn. */
  function ThreadSummary(files: seq<File>, stacks: seq<(int, Stack)>, summary: Summary): (r: Summary)
    requires forall k :: 0 <= k < |stacks| ==> stacks[k].1.statOnly.Valid()
    ensures forall t :: Get(r, t) == Get(summary, t)
  {
    if |stacks| == 0 then summary
    else
      var n := |stacks| - 1;
      var stack := stacks[n];
      var s := ThreadSummary(files, stacks[..n], summary);
      ComputeSystematics(files, stack.0, stack.1.statOnly, stack.1.statOnly.NBins(), s).1
  }

  /** `computeSystematics(stacks, summary)`: every stack in turn, the
      summary threaded through; `n` of a stack is its number of bins. A
      stack's band does not depend on the summary, so the bands and the
      threaded summary are computed apart. */
  function ComputeAll(files: seq<File>, stacks: seq<(int, Stack)>, summary: Summary): (r: (seq<Band>, Summary))
    requires forall k :: 0 <= k < |stacks| ==> stacks[k].1.statOnly.Valid()
    ensures |r.0| == |stacks|
    ensures forall k :: 0 <= k < |stacks| ==>
      r.0[k] == ComputeBand(Contributions(files, stacks[k].0), stacks[k].1.statOnly, stacks[k].1.statOnly.NBins())
    ensures forall t :: Get(r.1, t) == Get(summary, t)
  {
    (AllBands(files, stacks), ThreadSummary(files, stacks, summary))
  }
}

=== FILE: files.dfy ===
/** Input files as the engine sees them once their objects are loaded, and
    the selection of files by era and by predicate. */
module Files {
  import opened Histograms
  import opened Systematics
  import opened Types
  import opened Wrappers

  /** One input file with the histogram loaded for the current plot.
      `entries` is ROOT's entry count of that histogram. `hist` is the
      histogram already scaled by the file's factor (cross-section times
      branching ratio over generated events, times luminosity and scales),
      and `systematics` the sets of shapes of the sources that apply to it,
      already updated and scaled by the same factor: `LoadedSets` builds
      them from the fresh sets. */
  datatype File = File(
    id: nat,
    prettyName: string,
    era: string,
    typ: FileType,
    stackIndex: int,
    legendGroup: string,
    yieldsGroup: string,
    style: PlotStyle,
    entries: real,
    hist: Hist,
    systematics: seq<SystematicSet>)

  /** The sets of a file once its plot is loaded: every set is rebuilt
      from its true shapes by its source, then scaled by the file's
      factor. */
  function LoadedSets(sets: seq<SystematicSet>, factor: real): (r: seq<SystematicSet>)
    requires forall k :: 0 <= k < |sets| ==> sets[k].Valid() && FiniteKind(sets[k].source.kind)
    ensures |r| == |sets|
    ensures forall k :: 0 <= k < |sets| ==>
      && r[k].Valid()
      && r[k].source == sets[k].source
      && r[k].nominal == Some(ScaleHist(sets[k].trueNominal, factor))
      && r[k].up.Some? && r[k].down.Some?
  {
    seq(|sets|, k requires 0 <= k < |sets| => ScaleSet(Update(sets[k]), factor))
  }

  /** A constant source of value `v`, fresh from the nominal histogram and
      loaded with `factor`, moves every bin up by `(v - 1)` times the
      scaled content and down by the same amount: its shift is not zero
      unless `v` is 1 or the bin is empty. */
  lemma LoadedConstantShift(source: Systematic, nominal: Hist, factor: real, i: nat)
    requires nominal.Valid() && source.kind.Constant? && source.kind.value.Some?
    requires i < |nominal.contents|
    ensures var r := LoadedSets([NewSet(source, nominal)], factor)[0];
      var v := source.kind.value.value;
      var c := factor * nominal.contents[i];
      && r.up.value.contents[i] - r.nominal.value.contents[i] == (v - 1.0) * c
      && r.down.value.contents[i] - r.nominal.value.contents[i] == (1.0 - v) * c
  {
    var newSet := NewSet(source, nominal);
    var u := Update(newSet);
    var v := source.kind.value.value;
    assert u.up.value.contents[i] == v * nominal.contents[i];
    assert u.down.value.contents[i] == (2.0 - v) * nominal.contents[i];
    var r := ScaleSet(u, factor);
    assert LoadedSets([newSet], factor)[0] == r;
    assert r.up.value.contents[i] == factor * (v * nominal.contents[i]);
    assert r.down.value.contents[i] == factor * ((2.0 - v) * nominal.contents[i]);
  }

  /** `filter_eras`: a file takes part when no era is configured, when it
      belongs to no era, or when its era is one of the configured ones. */
  predicate FilterEras(eras: seq<string>, f: File)
    ensures FilterEras(eras, f) <==> |eras| == 0 || f.era == "" || f.era in eras
  {
    |eras| == 0 || f.era == "" || exists i :: 0 <= i < |eras| && eras[i] == f.era
  }

  /** `getFiles(pred)`: the files satisfying `pred`, in their order. */
  function GetFiles(files: seq<File>, pred: File -> bool): (r: seq<File>)
    ensures |r| <= |files|
    ensures forall k :: 0 <= k < |r| ==> pred(r[k]) && r[k] in files
    ensures forall k :: 0 <= k < |files| && pred(files[k]) ==> files[k] in r
  {
    if |files| == 0 then []
    else
      var init := GetFiles(files[..|files| - 1], pred);
      var last := files[|files| - 1];
      assert forall k :: 0 <= k < |files| - 1 ==> files[..|files| - 1][k] == files[k];
      if pred(last) then init + [last] else init
  }

  /** Selection distributes over concatenation, which together with the
      single-file case fixes the order of the result: it is the input
      order. */
  lemma {:induction false} GetFilesAppend(a: seq<File>, b: seq<File>, pred: File -> bool)
    ensures GetFiles(a + b, pred) == GetFiles(a, pred) + GetFiles(b, pred)
  {
    if |b| == 0 {
      assert a + b == a;
    } else {
      var b' := b[..|b| - 1];
      GetFilesAppend(a, b', pred);
      assert (a + b)[..|a + b| - 1] == a + b';
    }
  }

  lemma GetFilesSingle(f: File, pred: File -> bool)
    ensures GetFiles([f], pred) == if pred(f) then [f] else []
  {
    assert [f][..0] == [];
  }

  /** Selecting twice with the same predicate selects nothing more. */
  lemma {:induction false} GetFilesIdempotent(files: seq<File>, pred: File -> bool)
    ensures GetFiles(GetFiles(files, pred), pred) == GetFiles(files, pred)
  {
    if |files| > 0 {
      var init := files[..|files| - 1];
      var last := files[|files| - 1];
      GetFilesIdempotent(init, pred);
      if pred(last) {
        GetFilesAppend(GetFiles(init, pred), [last], pred);
        GetFilesSingle(last, pred);
      }
    }
  }

  /** `getFiles()`: the files of the configured eras. */
  function FilesOfEras(files: seq<File>, eras: seq<string>): (r: seq<File>)
    ensures forall k :: 0 <= k < |r| ==> FilterEras(eras, r[k]) && r[k] in files
    ensures forall k :: 0 <= k < |files| && FilterEras(eras, files[k]) ==> files[k] in r
  {
    GetFiles(files, f => FilterEras(eras, f))
  }

  /** With no era configured every file takes part. */
  lemma {:induction false} NoErasKeepsAll(files: seq<File>)
    ensures FilesOfEras(files, []) == files
  {
    if |files| > 0 {
      NoErasKeepsAll(files[..|files| - 1]);
      assert files[..|files| - 1] + [files[|files| - 1]] == files;
    }
  }

  /** `getPlotStyle(file)`: the style of the file's legend group when it
      has one that is configured, otherwise the file's own style. */
  function StyleOf(f: File, groupStyles: map<string, PlotStyle>): (r: PlotStyle)
    ensures f.legendGroup != "" && f.legendGroup in groupStyles ==> r == groupStyles[f.legendGroup]
    ensures f.legendGroup == "" || f.legendGroup !in groupStyles ==> r == f.style
  {
    if |f.legendGroup| > 0 && f.legendGroup in groupStyles then groupStyles[f.legendGroup] else f.style
  }

  /** Every file's histogram has `n` regular bins. */
  predicate FilesConform(files: seq<File>, n: nat) {
    forall k :: 0 <= k < |files| ==> Conforms(files[k].hist, n)
  }
}

=== FILE: histogram.dfy ===
/** The histogram primitive the engine reads and writes: a one-dimensional
    binned function with N regular bins, stored as per-bin contents and
    per-bin sums of squared weights (`sumw2`, the squared statistical error)
    at indices 0..N+1, where 0 is the underflow bin and N+1 the overflow bin. */
module Histograms {
  import opened Vectors

  datatype Hist = Hist(contents: seq<real>, sumw2: seq<real>) {
    predicate Valid() {
      |contents| >= 2 && |sumw2| == |contents|
    }

    /** Number of regular bins. */
    function NBins(): nat
      requires Valid()
    {
      |contents| - 2
    }
  }

  /** `h` is a well-formed histogram with exactly `n` regular bins. */
  predicate Conforms(h: Hist, n: nat) {
    h.Valid() && h.NBins() == n
  }

  /** Every histogram of `hs` has exactly `n` regular bins. */
  predicate AllConform(hs: seq<Hist>, n: nat) {
    forall k :: 0 <= k < |hs| ==> Conforms(hs[k], n)
  }

  /** Integral over the regular bins 1..N (ROOT's `Integral()` with no range). */
  function Integral(h: Hist): real
    requires h.Valid()
  {
    Sum(h.contents[1..h.NBins() + 1])
  }

  /** Integral over every bin, underflow and overflow included
      (ROOT's `Integral(0, N + 1)`). */
  function IntegralAll(h: Hist): real
  {
    Sum(h.contents)
  }

  /** Bin-wise sum of two histograms of the same binning: contents add and
      squared errors add (ROOT's `Add` with sumw2 enabled). */
  function AddHist(a: Hist, b: Hist): (r: Hist)
    requires a.Valid() && Conforms(b, a.NBins())
    ensures Conforms(r, a.NBins())
    ensures forall i :: 0 <= i < |a.contents| ==>
              r.contents[i] == a.contents[i] + b.contents[i] && r.sumw2[i] == a.sumw2[i] + b.sumw2[i]
  {
    Hist(Add(a.contents, b.contents), Add(a.sumw2, b.sumw2))
  }

  /** ROOT's `Scale(f)`: contents scale by `f`, squared errors by `f * f`. */
  function ScaleHist(h: Hist, f: real): (r: Hist)
    ensures r.Valid() == h.Valid()
    ensures |r.contents| == |h.contents| && |r.sumw2| == |h.sumw2|
    ensures forall i :: 0 <= i < |h.contents| ==> r.contents[i] == f * h.contents[i]
    ensures forall i :: 0 <= i < |h.sumw2| ==> r.sumw2[i] == (f * f) * h.sumw2[i]
  {
    Hist(Scale(h.contents, f), Scale(h.sumw2, f * f))
  }

  lemma IntegralOfSum(a: Hist, b: Hist)
    requires a.Valid() && Conforms(b, a.NBins())
    ensures Integral(AddHist(a, b)) == Integral(a) + Integral(b)
  {
    var n := a.NBins();
    assert AddHist(a, b).contents[1..n + 1] == Add(a.contents[1..n + 1], b.contents[1..n + 1]);
    SumAdd(a.contents[1..n + 1], b.contents[1..n + 1]);
  }

  lemma IntegralOfScaled(h: Hist, f: real)
    requires h.Valid()
    ensures Integral(ScaleHist(h, f)) == f * Integral(h)
  {
    var n := h.NBins();
    var t := ScaleHist(h, f).contents[1..n + 1];
    forall i | 0 <= i < n
      ensures t[i] == Scale(h.contents[1..n + 1], f)[i]
    {
      assert t[i] == f * h.contents[i + 1];
    }
    assert t == Scale(h.contents[1..n + 1], f);
    SumScale(h.contents[1..n + 1], f);
  }

  lemma AddHistCommutes(a: Hist, b: Hist)
    requires a.Valid() && Conforms(b, a.NBins())
    ensures AddHist(a, b) == AddHist(b, a)
  {
  }

  lemma AddHistAssociates(a: Hist, b: Hist, c: Hist)
    requires a.Valid() && Conforms(b, a.NBins()) && Conforms(c, a.NBins())
    ensures AddHist(AddHist(a, b), c) == AddHist(a, AddHist(b, c))
  {
  }
}

=== FILE: legend.dfy ===
/** `fillLegend`: which files get a legend entry, in which order the
    entries come, and how they are laid out over the legend's columns.
    The ROOT legend object itself is not modelled: the result is the
    sequence of entries in the order they are added to it. */
module Legends {
  import opened Wrappers
  import opened Types
  import opened Files
  import opened Sorting

  // ---------------------------------------------------------------------
  // Entries of one file type

  /** Whether a file's legend comes from its legend group: the group is
      named, configured, and has a legend text. */
  predicate InGroup(f: File, groups: map<string, PlotStyle>) {
    |f.legendGroup| > 0 && f.legendGroup in groups && |groups[f.legendGroup].legend| > 0
  }

  function StyleEntry(f: File, s: PlotStyle): LegendEntry {
    LegendEntry(Some(f.id), s.legend, s.legendStyle, s.legendOrder, 0, 0, 0)
  }

  /** The entry made for a file that gets one: from its group's style,
      else from its own style when that has a legend. A file with neither
      still gets an entry, the empty one. */
  function EntryOf(f: File, groups: map<string, PlotStyle>): LegendEntry {
    if InGroup(f, groups) then StyleEntry(f, groups[f.legendGroup])
    else if |f.style.legend| > 0 then StyleEntry(f, f.style)
    else EmptyEntry
  }

  /** The files of type `t` that get an entry, in file order, with the
      groups marked as added afterwards. A grouped file gets an entry only
      when its group has none yet, and marks the group. */
  function Emitters(files: seq<File>, t: FileType, groups: map<string, PlotStyle>, added: set<string>): (r: (seq<File>, set<string>))
    decreases |files|
    ensures added <= r.1
    ensures forall k :: 0 <= k < |r.0| ==> r.0[k] in files && r.0[k].typ == t
  {
    if |files| == 0 then ([], added)
    else
      var f := files[0];
      var tail := files[1..];
      assert files == [f] + tail;
      if f.typ != t then Emitters(tail, t, groups, added)
      else if InGroup(f, groups) then
        if f.legendGroup in added then Emitters(tail, t, groups, added)
        else
          var rest := Emitters(tail, t, groups, added + {f.legendGroup});
          ([f] + rest.0, rest.1)
      else
        var rest := Emitters(tail, t, groups, added);
        ([f] + rest.0, rest.1)
  }

  /** The files of `r.0` that carry their group's entry carry groups not
      in `added` but in `r.1`. */
  predicate FreshGroups(r: (seq<File>, set<string>), groups: map<string, PlotStyle>, added: set<string>) {
    forall k :: 0 <= k < |r.0| && InGroup(r.0[k], groups) ==>
      r.0[k].legendGroup !in added && r.0[k].legendGroup in r.1
  }

  /** `r.0` holds every ungrouped file of type `t`, and `r.1` marks the
      group of every grouped one. */
  predicate Covers(r: (seq<File>, set<string>), files: seq<File>, t: FileType, groups: map<string, PlotStyle>) {
    && (forall f :: f in files && f.typ == t && !InGroup(f, groups) ==> f in r.0)
    && (forall f :: f in files && f.typ == t && InGroup(f, groups) ==> f.legendGroup in r.1)
  }

  /** Every group marked in `r.1` beyond `added` is carried by a file of
      `r.0`. */
  predicate MarksEmitted(r: (seq<File>, set<string>), groups: map<string, PlotStyle>, added: set<string>) {
    forall g :: g in r.1 && g !in added ==> GroupEmitted(r.0, groups, g)
  }

  /** The groups emitted by `Emitters` are new ones, and are marked. */
  lemma {:induction false} EmittedGroupsFresh(files: seq<File>, t: FileType, groups: map<string, PlotStyle>, added: set<string>)
    decreases |files|
    ensures FreshGroups(Emitters(files, t, groups, added), groups, added)
  {
    if |files| > 0 {
      var f, tail := files[0], files[1..];
      var r := Emitters(files, t, groups, added);
      if f.typ == t && !(InGroup(f, groups) && f.legendGroup in added) {
        var added' := if InGroup(f, groups) then added + {f.legendGroup} else added;
        EmittedGroupsFresh(tail, t, groups, added');
        var rest := Emitters(tail, t, groups, added');
        assert r.0 == [f] + rest.0 && r.1 == rest.1;
        forall k | 0 <= k < |r.0| && InGroup(r.0[k], groups)
          ensures r.0[k].legendGroup !in added && r.0[k].legendGroup in r.1
        {
          if k > 0 {
            assert r.0[k] == rest.0[k - 1];
          }
        }
      } else {
        EmittedGroupsFresh(tail, t, groups, added);
        assert r == Emitters(tail, t, groups, added);
      }
    }
  }

  /** `Emitters` emits each group once. */
  lemma {:induction false} EmittedGroupsOnce(files: seq<File>, t: FileType, groups: map<string, PlotStyle>, added: set<string>)
    decreases |files|
    ensures DistinctGroups(Emitters(files, t, groups, added).0, groups)
  {
    if |files| > 0 {
      var f, tail := files[0], files[1..];
      var r := Emitters(files, t, groups, added);
      if f.typ == t && !(InGroup(f, groups) && f.legendGroup in added) {
        var added' := if InGroup(f, groups) then added + {f.legendGroup} else added;
        EmittedGroupsOnce(tail, t, groups, added');
        EmittedGroupsFresh(tail, t, groups, added');
        var rest := Emitters(tail, t, groups, added');
        assert r.0 == [f] + rest.0;
        forall k, l | 0 <= k < l < |r.0| && InGroup(r.0[k], groups) && InGroup(r.0[l], groups)
          ensures r.0[k].legendGroup != r.0[l].legendGroup
        {
          assert r.0[l] == rest.0[l - 1];
          if k > 0 {
            assert r.0[k] == rest.0[k - 1];
          }
        }
      } else {
        EmittedGroupsOnce(tail, t, groups, added);
        assert r == Emitters(tail, t, groups, added);
      }
    }
  }

  /** `Emitters` leaves out no ungrouped file of its type and marks the
      group of every grouped one. */
  lemma {:induction false} EmittersCover(files: seq<File>, t: FileType, groups: map<string, PlotStyle>, added: set<string>)
    decreases |files|
    ensures Covers(Emitters(files, t, groups, added), files, t, groups)
  {
    if |files| > 0 {
      var f, tail := files[0], files[1..];
      assert files == [f] + tail;
      if f.typ == t && InGroup(f, groups) && f.legendGroup !in added {
        EmittersCover(tail, t, groups, added + {f.legendGroup});
      } else {
        EmittersCover(tail, t, groups, added);
      }
    }
  }

  /** Every group `Emitters` marks is carried by one of the files it
      emits. */
  lemma {:induction false} MarkedGroupsEmitted(files: seq<File>, t: FileType, groups: map<string, PlotStyle>, added: set<string>)
    decreases |files|
    ensures MarksEmitted(Emitters(files, t, groups, added), groups, added)
  {
    if |files| > 0 {
      var f, tail := files[0], files[1..];
      var r := Emitters(files, t, groups, added);
      if f.typ == t && !(InGroup(f, groups) && f.legendGroup in added) {
        var added' := if InGroup(f, groups) then added + {f.legendGroup} else added;
        MarkedGroupsEmitted(tail, t, groups, added');
        var rest := Emitters(tail, t, groups, added');
        assert r.0 == [f] + rest.0 && r.1 == rest.1;
        forall g | g in r.1 && g !in added
          ensures GroupEmitted(r.0, groups, g)
        {
          if g in added' {
            assert r.0[0] == f;
          } else {
            var k :| 0 <= k < |rest.0| && InGroup(rest.0[k], groups) && rest.0[k].legendGroup == g;
            assert r.0[k + 1] == rest.0[k];
          }
        }
      } else {
        MarkedGroupsEmitted(tail, t, groups, added);
      }
    }
  }

  /** Some file among `em` carries group `g`'s entry. */
  predicate GroupEmitted(em: seq<File>, groups: map<string, PlotStyle>, g: string) {
    exists k :: 0 <= k < |em| && InGroup(em[k], groups) && em[k].legendGroup == g
  }

  lemma GroupEmittedAppend(a: seq<File>, b: seq<File>, c: seq<File>, groups: map<string, PlotStyle>, g: string)
    requires GroupEmitted(a, groups, g) || GroupEmitted(b, groups, g) || GroupEmitted(c, groups, g)
    ensures GroupEmitted(a + b + c, groups, g)
  {
    var em := a + b + c;
    if GroupEmitted(a, groups, g) {
      var k :| 0 <= k < |a| && InGroup(a[k], groups) && a[k].legendGroup == g;
      assert em[k] == a[k];
    } else if GroupEmitted(b, groups, g) {
      var k :| 0 <= k < |b| && InGroup(b[k], groups) && b[k].legendGroup == g;
      assert em[|a| + k] == b[k];
    } else {
      var k :| 0 <= k < |c| && InGroup(c[k], groups) && c[k].legendGroup == g;
      assert em[|a| + |b| + k] == c[k];
    }
  }

  /** Ordering key of `std::sort` by descending `order`. */
  function OrderKey(e: LegendEntry): real {
    -(e.order as real)
  }

  predicate Descending(s: seq<LegendEntry>) {
    forall i, j :: 0 <= i < j < |s| ==> s[i].order >= s[j].order
  }

  /** The configured static entries of a type, none when absent. */
  function StaticOf(statics: map<FileType, seq<LegendEntry>>, t: FileType): seq<LegendEntry> {
    if t in statics then statics[t] else []
  }

  /** The entries made for a list of emitting files. */
  function EntriesOf(em: seq<File>, groups: map<string, PlotStyle>): (r: seq<LegendEntry>)
    ensures |r| == |em| && forall k :: 0 <= k < |em| ==> r[k] == EntryOf(em[k], groups)
  {
    seq(|em|, k requires 0 <= k < |em| => EntryOf(em[k], groups))
  }

  lemma EntriesOfAppend(a: seq<File>, b: seq<File>, groups: map<string, PlotStyle>)
    ensures EntriesOf(a + b, groups) == EntriesOf(a, groups) + EntriesOf(b, groups)
  {
  }

  /** `getEntries(type)`: the entries of the emitting files of that type,
      then its static entries, sorted by descending order. Equal orders
      are left in no particular order. */
  function TypeEntries(files: seq<File>, t: FileType, groups: map<string, PlotStyle>, added: set<string>,
                       statics: map<FileType, seq<LegendEntry>>): (r: (seq<LegendEntry>, set<string>))
    ensures r.1 == Emitters(files, t, groups, added).1
    ensures multiset(r.0) == multiset(EntriesOf(Emitters(files, t, groups, added).0, groups) + StaticOf(statics, t))
    ensures Descending(r.0)
  {
    var em := Emitters(files, t, groups, added);
    var sorted := SortBy(EntriesOf(em.0, groups) + StaticOf(statics, t), OrderKey);
    assert forall i, j :: 0 <= i < j < |sorted| ==> OrderKey(sorted[i]) <= OrderKey(sorted[j]);
    (sorted, em.1)
  }

  // ---------------------------------------------------------------------
  // All entries of a plot

  /** The hand-styled entry of the uncertainty band. */
  function UncertaintyEntry(text: string, fillStyle: int, fillColor: int): LegendEntry {
    LegendEntry(None, text, "f", 0, fillStyle, fillColor, 0)
  }

  /** The files that get an entry in one plot's legend: MC, then signal,
      then data unless the plot has none. Groups start unmarked, since
      every plot resets them. */
  function PlotEmitters(files: seq<File>, groups: map<string, PlotStyle>, noData: bool): seq<File> {
    var mc := Emitters(files, MC, groups, {});
    var signal := Emitters(files, Signal, groups, mc.1);
    var data := if noData then [] else Emitters(files, Data, groups, signal.1).0;
    mc.0 + signal.0 + data
  }

  /** The static entries of the shown types. */
  function ShownStatics(statics: map<FileType, seq<LegendEntry>>, noData: bool): seq<LegendEntry> {
    StaticOf(statics, MC) + StaticOf(statics, Signal) + (if noData then [] else StaticOf(statics, Data))
  }

  /** The entries of a plot's legend before the column layout: each type's
      sorted entries, MC, signal, then data, and last the uncertainty
      entry when asked for. Together they are the entries of the emitting
      files and the static entries, nothing more or less. */
  function LegendEntries(files: seq<File>, groups: map<string, PlotStyle>, statics: map<FileType, seq<LegendEntry>>,
                         noData: bool, uncertainty: Option<LegendEntry>): (r: seq<LegendEntry>)
    ensures multiset(r) == multiset(EntriesOf(PlotEmitters(files, groups, noData), groups) + ShownStatics(statics, noData))
                           + (if uncertainty.Some? then multiset{uncertainty.value} else multiset{})
    ensures uncertainty.Some? ==> |r| > 0 && r[|r| - 1] == uncertainty.value
  {
    var mc := TypeEntries(files, MC, groups, {}, statics);
    var signal := TypeEntries(files, Signal, groups, mc.1, statics);
    var data := if noData then [] else TypeEntries(files, Data, groups, signal.1, statics).0;
    EntriesOfEmitters(files, groups, statics, noData);
    mc.0 + signal.0 + data + (if uncertainty.Some? then [uncertainty.value] else [])
  }

  lemma EntriesOfEmitters(files: seq<File>, groups: map<string, PlotStyle>, statics: map<FileType, seq<LegendEntry>>, noData: bool)
    ensures var mc := TypeEntries(files, MC, groups, {}, statics);
      var signal := TypeEntries(files, Signal, groups, mc.1, statics);
      var data := if noData then [] else TypeEntries(files, Data, groups, signal.1, statics).0;
      multiset(mc.0 + signal.0 + data) ==
        multiset(EntriesOf(PlotEmitters(files, groups, noData), groups) + ShownStatics(statics, noData))
  {
    var mc := Emitters(files, MC, groups, {});
    var signal := Emitters(files, Signal, groups, mc.1);
    var data := if noData then [] else Emitters(files, Data, groups, signal.1).0;
    EntriesOfAppend(mc.0 + signal.0, data, groups);
    EntriesOfAppend(mc.0, signal.0, groups);
  }

  /** Every legend group contributes at most one entry to a plot's legend,
      even when its files span several types. */
  lemma OneEntryPerGroup(files: seq<File>, groups: map<string, PlotStyle>, noData: bool)
    ensures DistinctGroups(PlotEmitters(files, groups, noData), groups)
  {
    var mc := Emitters(files, MC, groups, {});
    var signal := Emitters(files, Signal, groups, mc.1);
    var d := Emitters(files, Data, groups, signal.1);
    EmittedGroupsFresh(files, MC, groups, {});
    EmittedGroupsFresh(files, Signal, groups, mc.1);
    EmittedGroupsFresh(files, Data, groups, signal.1);
    EmittedGroupsOnce(files, MC, groups, {});
    EmittedGroupsOnce(files, Signal, groups, mc.1);
    EmittedGroupsOnce(files, Data, groups, signal.1);
    DistinctGroupsAppend(mc.0, signal.0, if noData then [] else d.0, groups, mc.1, signal.1);
  }

  /** No two files of `em` carry the entry of the same group. */
  predicate DistinctGroups(em: seq<File>, groups: map<string, PlotStyle>) {
    forall k, l :: 0 <= k < l < |em| && InGroup(em[k], groups) && InGroup(em[l], groups) ==>
      em[k].legendGroup != em[l].legendGroup
  }

  /** Three runs with distinct groups stay distinct together when each
      run's groups were not yet marked by the runs before it. */
  lemma DistinctGroupsAppend(a: seq<File>, b: seq<File>, c: seq<File>, groups: map<string, PlotStyle>,
                             marksA: set<string>, marksB: set<string>)
    requires DistinctGroups(a, groups) && DistinctGroups(b, groups) && DistinctGroups(c, groups)
    requires marksA <= marksB
    requires forall k :: 0 <= k < |a| && InGroup(a[k], groups) ==> a[k].legendGroup in marksA
    requires forall k :: 0 <= k < |b| && InGroup(b[k], groups) ==> b[k].legendGroup !in marksA && b[k].legendGroup in marksB
    requires forall k :: 0 <= k < |c| && InGroup(c[k], groups) ==> c[k].legendGroup !in marksB
    ensures DistinctGroups(a + b + c, groups)
  {
    var em := a + b + c;
    forall k, l | 0 <= k < l < |em| && InGroup(em[k], groups) && InGroup(em[l], groups)
      ensures em[k].legendGroup != em[l].legendGroup
    {
      var i, j := |a|, |a| + |b|;
      if l < i {
        assert em[k] == a[k] && em[l] == a[l];
      } else if l < j {
        assert em[l] == b[l - i];
        if k < i {
          assert em[k] == a[k];
        } else {
          assert em[k] == b[k - i];
        }
      } else {
        assert em[l] == c[l - j];
        if k < i {
          assert em[k] == a[k];
        } else if k < j {
          assert em[k] == b[k - i];
        } else {
          assert em[k] == c[k - j];
        }
      }
    }
  }

  /** Every group with a file of a shown type gets an entry, carried by
      the first such file. */
  lemma GroupedFilesShown(files: seq<File>, groups: map<string, PlotStyle>, noData: bool, f: File)
    requires f in files && InGroup(f, groups) && (f.typ != Data || !noData)
    ensures GroupEmitted(PlotEmitters(files, groups, noData), groups, f.legendGroup)
  {
    var mc := Emitters(files, MC, groups, {});
    var signal := Emitters(files, Signal, groups, mc.1);
    var d := Emitters(files, Data, groups, signal.1);
    var data := if noData then [] else d.0;
    var g := f.legendGroup;
    EmittersCover(files, f.typ, groups, if f.typ == MC then {} else if f.typ == Signal then mc.1 else signal.1);
    MarkedGroupsEmitted(files, MC, groups, {});
    MarkedGroupsEmitted(files, Signal, groups, mc.1);
    MarkedGroupsEmitted(files, Data, groups, signal.1);
    GroupEmittedAppend(mc.0, signal.0, data, groups, g);
  }

  /** Every file of a shown type that has no group entry gets its own
      entry. */
  lemma UngroupedFilesShown(files: seq<File>, groups: map<string, PlotStyle>, noData: bool, f: File)
    requires f in files && !InGroup(f, groups) && (f.typ != Data || !noData)
    ensures f in PlotEmitters(files, groups, noData)
  {
    var mc := Emitters(files, MC, groups, {});
    var signal := Emitters(files, Signal, groups, mc.1);
    EmittersCover(files, MC, groups, {});
    EmittersCover(files, Signal, groups, mc.1);
    EmittersCover(files, Data, groups, signal.1);
  }

  // ---------------------------------------------------------------------
  // Column layout

  /** The position of the first cell of row `j` when rows hold `columns`
      cells, counted one row at a time; it is `j * columns`. */
  function RowStart(j: nat, columns: nat): nat {
    if j == 0 then 0 else RowStart(j - 1, columns) + columns
  }

  lemma {:induction false} RowStartIsProduct(j: nat, columns: nat)
    ensures RowStart(j, columns) == j * columns == columns * j
  {
    if j > 0 {
      RowStartIsProduct(j - 1, columns);
    }
  }

  /** Later rows start later, by at least one row. */
  lemma {:induction false} RowStartMonotone(a: nat, b: nat, columns: nat)
    ensures a <= b ==> RowStart(a, columns) <= RowStart(b, columns)
    ensures a < b ==> RowStart(a, columns) + columns <= RowStart(b, columns)
    decreases b
  {
    if a < b {
      RowStartMonotone(a, b - 1, columns);
    }
  }

  /** `cols` holds `entries` dealt over `columns` columns in order: row
      `j` of column `c` is the entry at `RowStart(j, columns) + c`, and
      each column stops at the first row past the last entry. */
  predicate Dealt(cols: seq<seq<LegendEntry>>, entries: seq<LegendEntry>, columns: nat) {
    && |cols| == columns
    && (forall c, j :: 0 <= c < columns && 0 <= j < |cols[c]| ==>
          RowStart(j, columns) + c < |entries| && cols[c][j] == entries[RowStart(j, columns) + c])
    && (forall c :: 0 <= c < columns ==> ColumnEnds(cols[c], c, columns, |entries|))
  }

  /** Column `c` of `n` entries dealt over `columns`: its last row holds an
      entry and the row after it would be past the end. */
  predicate ColumnEnds(col: seq<LegendEntry>, c: nat, columns: nat, n: nat) {
    && RowStart(|col|, columns) + c >= n
    && (|col| > 0 ==> RowStart(|col| - 1, columns) + c < n)
  }

  /** Entry `k` placed in column `k % columns`, one entry after the other. */
  function Distribute(entries: seq<LegendEntry>, columns: nat): (r: seq<seq<LegendEntry>>)
    requires columns >= 1
    ensures Dealt(r, entries, columns)
  {
    if |entries| == 0 then seq(columns, c => [])
    else
      var k := |entries| - 1;
      var init := Distribute(entries[..k], columns);
      var pos := Position(k, columns);
      var r := init[pos.1 := init[pos.1] + [entries[k]]];
      DealLast(entries, init, columns, pos.1, pos.0, r);
      r
  }

  /** The row and column of position `k` when rows hold `columns` cells:
      `(k / columns, k % columns)`, found one row at a time. */
  function Position(k: nat, columns: nat): (r: (nat, nat))
    requires columns >= 1
    decreases k
    ensures k == RowStart(r.0, columns) + r.1 && r.1 < columns
  {
    if k < columns then (0, k)
    else
      var p := Position(k - columns, columns);
      (p.0 + 1, p.1)
  }

  /** `Position` is integer division and remainder. */
  lemma PositionIsDivision(k: nat, columns: nat)
    requires columns >= 1
    ensures Position(k, columns) == (k / columns, k % columns)
  {
    var p := Position(k, columns);
    RowStartIsProduct(k / columns, columns);
    RowColumnUnique(columns, p.0, p.1, k / columns, k % columns);
  }

  /** Dealing the last entry, at row `q` of column `c0`, to its column
      keeps the dealing properties. */
  lemma DealLast(entries: seq<LegendEntry>, init: seq<seq<LegendEntry>>, columns: nat, c0: nat, q: nat, r: seq<seq<LegendEntry>>)
    requires columns >= 1 && |entries| > 0 && c0 < columns && |entries| - 1 == RowStart(q, columns) + c0
    requires Dealt(init, entries[..|entries| - 1], columns)
    requires r == init[c0 := init[c0] + [entries[|entries| - 1]]]
    ensures Dealt(r, entries, columns)
  {
    var k := |entries| - 1;
    assert ColumnEnds(init[c0], c0, columns, k);
    RowOfLast(|init[c0]|, c0, columns, k, q);
    forall c, j | 0 <= c < columns && 0 <= j < |r[c]|
      ensures RowStart(j, columns) + c < |entries| && r[c][j] == entries[RowStart(j, columns) + c]
    {
      DealtCell(entries, init, columns, c0, q, r, c, j);
    }
    forall c | 0 <= c < columns
      ensures ColumnEnds(r[c], c, columns, |entries|)
    {
      DealtColumn(entries, init, columns, c0, q, r, c);
    }
  }

  lemma DealtCell(entries: seq<LegendEntry>, init: seq<seq<LegendEntry>>, columns: nat, c0: nat, q: nat,
                  r: seq<seq<LegendEntry>>, c: nat, j: nat)
    requires columns >= 1 && |entries| > 0 && c0 < columns && |entries| - 1 == RowStart(q, columns) + c0
    requires Dealt(init, entries[..|entries| - 1], columns) && |init[c0]| == q
    requires r == init[c0 := init[c0] + [entries[|entries| - 1]]]
    requires c < columns && j < |r[c]|
    ensures RowStart(j, columns) + c < |entries| && r[c][j] == entries[RowStart(j, columns) + c]
  {
    var k := |entries| - 1;
    if c != c0 || j < q {
      assert r[c][j] == init[c][j];
      assert init[c][j] == entries[..k][RowStart(j, columns) + c];
    } else {
      assert r[c][j] == entries[k];
    }
  }

  lemma DealtColumn(entries: seq<LegendEntry>, init: seq<seq<LegendEntry>>, columns: nat, c0: nat, q: nat,
                    r: seq<seq<LegendEntry>>, c: nat)
    requires columns >= 1 && |entries| > 0 && c0 < columns && |entries| - 1 == RowStart(q, columns) + c0
    requires Dealt(init, entries[..|entries| - 1], columns) && |init[c0]| == q
    requires r == init[c0 := init[c0] + [entries[|entries| - 1]]]
    requires c < columns
    ensures ColumnEnds(r[c], c, columns, |entries|)
  {
    var k := |entries| - 1;
    assert ColumnEnds(init[c], c, columns, k);
    RowColumnUnique(columns, |init[c]|, c, q, c0);
    if c != c0 {
      assert r[c] == init[c];
    }
  }

  /** The last entry, at row `q` of column `c0`, lands in the row just
      after the ones its column already holds. */
  lemma RowOfLast(m: nat, c0: nat, columns: nat, k: nat, q: nat)
    requires columns >= 1 && c0 < columns && k == RowStart(q, columns) + c0
    requires RowStart(m, columns) + c0 >= k && (m > 0 ==> RowStart(m - 1, columns) + c0 < k)
    ensures m == q
  {
    RowStartMonotone(m, q, columns);
    if m > 0 {
      RowStartMonotone(q, m - 1, columns);
    }
  }

  /** A position `RowStart(j, n) + c` with `c < n` determines its row and
      column. */
  lemma RowColumnUnique(n: nat, j: nat, c: nat, q: nat, c0: nat)
    requires 0 < n && c < n && c0 < n
    ensures RowStart(j, n) + c == RowStart(q, n) + c0 ==> j == q && c == c0
  {
    RowStartMonotone(j, q, n);
    RowStartMonotone(q, j, n);
  }

  /** The size of the longest column. */
  function MaxSize(cols: seq<seq<LegendEntry>>): (m: nat)
    ensures forall c :: 0 <= c < |cols| ==> |cols[c]| <= m
    ensures |cols| > 0 ==> exists c :: 0 <= c < |cols| && |cols[c]| == m
  {
    if |cols| == 0 then 0
    else
      var rest := MaxSize(cols[1..]);
      assert forall c :: 1 <= c < |cols| ==> cols[c] == cols[1..][c - 1];
      if |cols[0]| >= rest then |cols[0]| else rest
  }

  /** A column padded with empty entries up to `m` rows. */
  function Pad(col: seq<LegendEntry>, m: nat): (r: seq<LegendEntry>)
    requires |col| <= m
    ensures |r| == m
    ensures forall j :: 0 <= j < m ==> r[j] == if j < |col| then col[j] else EmptyEntry
  {
    col + seq(m - |col|, _ => EmptyEntry)
  }

  /** Every column padded to `m` rows. */
  function PadAll(cols: seq<seq<LegendEntry>>, m: nat): (r: seq<seq<LegendEntry>>)
    requires forall c :: 0 <= c < |cols| ==> |cols[c]| <= m
    ensures |r| == |cols| && forall c :: 0 <= c < |cols| ==> r[c] == Pad(cols[c], m) && |r[c]| == m
  {
    seq(|cols|, c requires 0 <= c < |cols| => Pad(cols[c], m))
  }

  /** The number of cells in `rows` rows of `columns` cells. */
  function GridSize(columns: nat, rows: nat): nat {
    columns * rows
  }

  /** Position `i` of a grid of `m` rows of `columns` cells lies in one of
      the `m` rows. */
  lemma RowInRange(i: nat, columns: nat, m: nat)
    requires columns >= 1 && i < GridSize(columns, m)
    ensures Position(i, columns).0 < m
  {
    RowStartIsProduct(m, columns);
    RowStartMonotone(m, Position(i, columns).0, columns);
  }

  /** Cell `i` of the padded columns read row by row. */
  function Cell(padded: seq<seq<LegendEntry>>, columns: nat, m: nat, i: nat): LegendEntry
    requires columns >= 1 && |padded| == columns && i < GridSize(columns, m)
    requires forall c :: 0 <= c < columns ==> |padded[c]| == m
  {
    RowInRange(i, columns, m);
    var pos := Position(i, columns);
    padded[pos.1][pos.0]
  }

  /** The column layout: entries dealt round-robin over the columns, every
      column padded to the longest one, then read back row by row. */
  function Layout(entries: seq<LegendEntry>, columns: nat): (r: seq<LegendEntry>)
    requires columns >= 1
  {
    var cols := Distribute(entries, columns);
    var m := MaxSize(cols);
    var padded := PadAll(cols, m);
    seq(GridSize(columns, m), i requires 0 <= i < GridSize(columns, m) => Cell(padded, columns, m, i))
  }

  /** Every column is at most as long as the first. */
  lemma FirstColumnLongest(cols: seq<seq<LegendEntry>>, entries: seq<LegendEntry>, columns: nat)
    requires columns >= 1 && Dealt(cols, entries, columns)
    ensures MaxSize(cols) == |cols[0]|
  {
    forall c | 0 <= c < columns
      ensures |cols[c]| <= |cols[0]|
    {
      ColumnNoLonger(cols, entries, columns, c);
    }
  }

  lemma ColumnNoLonger(cols: seq<seq<LegendEntry>>, entries: seq<LegendEntry>, columns: nat, c: nat)
    requires columns >= 1 && Dealt(cols, entries, columns) && c < columns
    ensures |cols[c]| <= |cols[0]|
  {
    assert ColumnEnds(cols[0], 0, columns, |entries|);
    assert ColumnEnds(cols[c], c, columns, |entries|);
    if |cols[c]| > 0 {
      RowStartMonotone(|cols[0]|, |cols[c]| - 1, columns);
    }
  }

  /** Row `j` of padded column `c` is the entry at its position, or the
      empty entry past the last one. */
  lemma PaddedIsEntry(entries: seq<LegendEntry>, cols: seq<seq<LegendEntry>>, columns: nat, m: nat, c: nat, j: nat)
    requires columns >= 1 && Dealt(cols, entries, columns) && c < columns && j < m && |cols[c]| <= m
    ensures var i := RowStart(j, columns) + c;
      Pad(cols[c], m)[j] == if i < |entries| then entries[i] else EmptyEntry
  {
    RowStartMonotone(|cols[c]|, j, columns);
    if j < |cols[c]| {
      assert cols[c][j] == entries[RowStart(j, columns) + c];
    } else {
      assert ColumnEnds(cols[c], c, columns, |entries|);
    }
  }

  /** A cell of the layout is the entry at its position, or the empty
      entry past the last one. */
  lemma CellIsEntry(entries: seq<LegendEntry>, cols: seq<seq<LegendEntry>>, columns: nat, m: nat, i: nat)
    requires columns >= 1 && Dealt(cols, entries, columns) && i < GridSize(columns, m)
    requires forall c :: 0 <= c < columns ==> |cols[c]| <= m
    ensures Cell(PadAll(cols, m), columns, m, i) == if i < |entries| then entries[i] else EmptyEntry
  {
    RowInRange(i, columns, m);
    var pos := Position(i, columns);
    PaddedIsEntry(entries, cols, columns, m, pos.1, pos.0);
    assert PadAll(cols, m)[pos.1] == Pad(cols[pos.1], m);
  }

  /** `r` is `entries` followed by empty entries that fill its last row of
      `columns` cells, and no more. */
  predicate PaddedEntries(r: seq<LegendEntry>, entries: seq<LegendEntry>, columns: nat)
    requires columns >= 1
  {
    && |entries| <= |r| < |entries| + columns
    && |r| % columns == 0
    && r[..|entries|] == entries
    && forall i :: |entries| <= i < |r| ==> r[i] == EmptyEntry
  }

  /** Balancing the columns does not reorder the legend: read row by row,
      it is the entries in their order followed by empty entries that fill
      the last row, so its length is the first multiple of the number of
      columns that holds every entry. */
  lemma LayoutIsPaddedEntries(entries: seq<LegendEntry>, columns: nat)
    requires columns >= 1
    ensures PaddedEntries(Layout(entries, columns), entries, columns)
  {
    var n := |entries|;
    var cols := Distribute(entries, columns);
    var m := MaxSize(cols);
    var r := Layout(entries, columns);
    LayoutSize(entries, columns);
    forall i | 0 <= i < |r|
      ensures r[i] == if i < n then entries[i] else EmptyEntry
    {
      CellIsEntry(entries, cols, columns, m, i);
    }
    assert r[..n] == entries;
  }

  /** The layout has as many rows as the first column, which is the
      first multiple of the number of columns that holds every entry. */
  lemma LayoutSize(entries: seq<LegendEntry>, columns: nat)
    requires columns >= 1
    ensures var r := Layout(entries, columns);
      && |r| == columns * MaxSize(Distribute(entries, columns))
      && |entries| <= |r| < |entries| + columns
      && |r| % columns == 0
  {
    var n := |entries|;
    var cols := Distribute(entries, columns);
    var m := MaxSize(cols);
    FirstColumnLongest(cols, entries, columns);
    assert ColumnEnds(cols[0], 0, columns, n);
    RowStartIsProduct(m, columns);
    if m > 0 {
      RowStartIsProduct(m - 1, columns);
    }
    MultipleOfColumns(columns, m);
  }

  lemma MultipleOfColumns(columns: nat, m: nat)
    requires columns >= 1
    ensures (GridSize(columns, m)) % columns == 0
  {
    RowStartIsProduct(m, columns);
    PositionIsDivision(GridSize(columns, m), columns);
    var p := Position(GridSize(columns, m), columns);
    RowColumnUnique(columns, m, 0, p.0, p.1);
  }

  /** `fillLegend`: the entries of a plot's legend in the order they are
      added to the legend. */
  function FillLegend(files: seq<File>, groups: map<string, PlotStyle>, statics: map<FileType, seq<LegendEntry>>,
                      noData: bool, uncertainty: Option<LegendEntry>, columns: nat): (r: seq<LegendEntry>)
    requires columns >= 1
    ensures PaddedEntries(r, LegendEntries(files, groups, statics, noData, uncertainty), columns)
  {
    var entries := LegendEntries(files, groups, statics, noData, uncertainty);
    LayoutIsPaddedEntries(entries, columns);
    Layout(entries, columns)
  }
}

=== FILE: overflow.dfy ===
/** `addOverflow` and `addOnlyOverflow`: fold the bins outside the displayed
    range [first, last] into the first and last displayed bins, so that the
    plotted integral still counts them. `first` and `last` are what ROOT's
    axis reports for the plot's x range (1 and N without one). */
module Overflows {
  import opened Vectors
  import opened Histograms
  import opened Types

  /** The displayed range is a non-empty run of regular bins. */
  predicate InRange(h: Hist, first: nat, last: nat) {
    h.Valid() && 1 <= first <= last <= h.NBins()
  }

  /** The histogram once the out-of-range bins are cleared: regular bins
      outside [first, last] lose their content but keep their squared
      errors (ROOT's `SetBinContent` leaves those alone), and the underflow
      and overflow bins lose both (`ClearUnderflowAndOverflow`). */
  function Cleared(h: Hist, first: nat, last: nat): (r: Hist)
    requires InRange(h, first, last)
    ensures Conforms(r, h.NBins())
    ensures forall i :: 0 <= i < |h.contents| ==>
      r.contents[i] == (if first <= i <= last then h.contents[i] else 0.0)
    ensures r.sumw2[0] == 0.0 && r.sumw2[|h.sumw2| - 1] == 0.0
    ensures forall i :: 0 < i < |h.sumw2| - 1 ==> r.sumw2[i] == h.sumw2[i]
  {
    var n := |h.contents|;
    Hist(seq(n, i requires 0 <= i < n => if first <= i <= last then h.contents[i] else 0.0),
         seq(n, i requires 0 <= i < n => if i == 0 || i == n - 1 then 0.0 else h.sumw2[i]))
  }

  /** `addOverflow` as written. Both displayed edge bins are read after
      the clearing and before either is written, so when the range is a
      single bin the second write overwrites the first. */
  function AddOverflowAsWritten(h: Hist, entries: real, typ: FileType, first: nat, last: nat): (r: Hist)
    requires InRange(h, first, last)
    ensures Conforms(r, h.NBins())
  {
    if entries == 0.0 then h
    else
      var c := Cleared(h, first, last);
      var under, underSq := Sum(h.contents[..first]), Sum(h.sumw2[..first]);
      var over, overSq := Sum(h.contents[last + 1..]), Sum(h.sumw2[last + 1..]);
      var firstContent, firstSq := c.contents[first], c.sumw2[first];
      var lastContent, lastSq := c.contents[last], c.sumw2[last];
      var contents := c.contents[first := firstContent + under][last := lastContent + over];
      var sumw2 := if typ != Data then c.sumw2[first := firstSq + underSq][last := lastSq + overSq] else c.sumw2;
      Hist(contents, sumw2)
  }

  lemma SumSplit(s: seq<real>, i: nat)
    requires i <= |s|
    ensures Sum(s) == Sum(s[..i]) + Sum(s[i..])
  {
    assert s == s[..i] + s[i..];
    SumAppend(s[..i], s[i..]);
  }

  /** Bin `i` followed by everything after it. */
  lemma SumFrom(s: seq<real>, i: nat)
    requires i < |s|
    ensures Sum(s[i..]) == s[i] + Sum(s[i + 1..])
  {
    assert s[i..][1..] == s[i + 1..];
  }

  /** Everything before bin `i` followed by bin `i`. */
  lemma SumUpTo(s: seq<real>, i: nat)
    requires i < |s|
    ensures Sum(s[..i + 1]) == Sum(s[..i]) + s[i]
  {
    assert s[..i + 1] == s[..i] + [s[i]];
    SumAppend(s[..i], [s[i]]);
  }

  /** Content of bin `i` once folded: the bins outside [first, last] are
      empty, the first bin holds everything up to it, the last bin
      everything from it on (all of it when they are the same bin), and the
      bins strictly inside are untouched. */
  function FoldedContent(c: seq<real>, first: nat, last: nat, i: nat): real
    requires 1 <= first <= last < |c| - 1 && i < |c|
  {
    if i < first || i > last then 0.0
    else if i == first && i == last then Sum(c)
    else if i == first then Sum(c[..first + 1])
    else if i == last then Sum(c[last..])
    else c[i]
  }

  /** Squared error of bin `i` once folded: as the content for the two
      displayed edge bins; the underflow and overflow bins are emptied and
      every other bin keeps its squared error. */
  function FoldedSq(w: seq<real>, first: nat, last: nat, i: nat): real
    requires 1 <= first <= last < |w| - 1 && i < |w|
  {
    if i == 0 || i == |w| - 1 then 0.0
    else if i == first && i == last then Sum(w)
    else if i == first then Sum(w[..first + 1])
    else if i == last then Sum(w[last..])
    else w[i]
  }

  /** `addOverflow` with the single-bin range collecting both sides:
      nothing happens to an empty histogram; otherwise contents fold as
      `FoldedContent` and squared errors as `FoldedSq`, except for data,
      whose displayed errors stay as they were. */
  function AddOverflow(h: Hist, entries: real, typ: FileType, first: nat, last: nat): (r: Hist)
    requires InRange(h, first, last)
    ensures Conforms(r, h.NBins())
    ensures entries == 0.0 ==> r == h
    ensures entries != 0.0 ==> forall i :: 0 <= i < |h.contents| ==>
      r.contents[i] == FoldedContent(h.contents, first, last, i)
    ensures entries != 0.0 ==> forall i :: 0 <= i < |h.sumw2| ==>
      r.sumw2[i] == if typ == Data then Cleared(h, first, last).sumw2[i] else FoldedSq(h.sumw2, first, last, i)
  {
    if entries == 0.0 then h
    else
      var n := |h.contents|;
      Hist(seq(n, i requires 0 <= i < n => FoldedContent(h.contents, first, last, i)),
           if typ == Data then Cleared(h, first, last).sumw2
           else seq(n, i requires 0 <= i < n => FoldedSq(h.sumw2, first, last, i)))
  }

  /** Away from the single-bin case the source computes exactly the fold. */
  lemma AsWrittenAgreesOnWideRanges(h: Hist, entries: real, typ: FileType, first: nat, last: nat)
    requires InRange(h, first, last) && first < last
    ensures AddOverflowAsWritten(h, entries, typ, first, last) == AddOverflow(h, entries, typ, first, last)
  {
    if entries != 0.0 {
      SumUpTo(h.contents, first);
      SumFrom(h.contents, last);
      SumUpTo(h.sumw2, first);
      SumFrom(h.sumw2, last);
      var a := AddOverflowAsWritten(h, entries, typ, first, last);
      var r := AddOverflow(h, entries, typ, first, last);
      assert a.contents == r.contents;
      assert a.sumw2 == r.sumw2;
    }
  }

  /** As written, a single-bin range drops the underflow: one entry in each
      of underflow, bin 1 and overflow leaves 2 where 3 were. */
  lemma AsWrittenLosesUnderflow()
    ensures var h := Hist([1.0, 1.0, 1.0], [1.0, 1.0, 1.0]);
      && AddOverflowAsWritten(h, 3.0, MC, 1, 1).contents == [0.0, 2.0, 0.0]
      && AddOverflow(h, 3.0, MC, 1, 1).contents == [0.0, 3.0, 0.0]
      && Sum(h.contents) == 3.0
  {
    var h := Hist([1.0, 1.0, 1.0], [1.0, 1.0, 1.0]);
    assert h.contents[..1] == [1.0];
    assert h.contents[2..] == [1.0];
    assert Sum(h.contents) == 1.0 + Sum(h.contents[1..]);
    assert h.contents[1..][1..] == [1.0];
    assert AddOverflow(h, 3.0, MC, 1, 1).contents[1] == 3.0;
  }

  /** Folding conserves the content: the displayed bins hold everything
      the histogram held, under- and overflow included. */
  lemma AddOverflowConserves(h: Hist, entries: real, typ: FileType, first: nat, last: nat)
    requires InRange(h, first, last)
    ensures var r := AddOverflow(h, entries, typ, first, last);
      Sum(r.contents) == Sum(h.contents) && (entries != 0.0 ==> Integral(r) == Sum(h.contents))
  {
    var r := AddOverflow(h, entries, typ, first, last);
    if entries != 0.0 {
      var rc := r.contents;
      FoldedRange(h.contents, rc, first, last);
      OnlyRangeCounts(rc, 0, first, last, |rc|);
      OnlyRangeCounts(rc, 1, first, last, |rc| - 1);
      assert rc[0..|rc|] == rc;
    }
  }

  /** When `s` is zero outside [first, last], a slice around that range
      sums to the range. */
  lemma OnlyRangeCounts(s: seq<real>, lo: nat, first: nat, last: nat, hi: nat)
    requires lo <= first <= last < hi <= |s|
    requires forall i :: lo <= i < first ==> s[i] == 0.0
    requires forall i :: last < i < hi ==> s[i] == 0.0
    ensures Sum(s[lo..hi]) == Sum(s[first..last + 1])
  {
    assert s[lo..hi] == s[lo..first] + s[first..last + 1] + s[last + 1..hi];
    SumOfZeros(s[lo..first]);
    SumOfZeros(s[last + 1..hi]);
    SumAppend(s[lo..first] + s[first..last + 1], s[last + 1..hi]);
    SumAppend(s[lo..first], s[first..last + 1]);
  }

  /** The displayed bins of a fold hold the whole content. */
  lemma FoldedRange(c: seq<real>, rc: seq<real>, first: nat, last: nat)
    requires 1 <= first <= last < |c| - 1 && |rc| == |c|
    requires forall i :: 0 <= i < |c| ==> rc[i] == FoldedContent(c, first, last, i)
    ensures Sum(rc[first..last + 1]) == Sum(c)
  {
    if first == last {
      assert rc[first..last + 1] == [Sum(c)];
    } else {
      InnerSum(c, rc, first, last);
      SumThreeParts(c, first + 1, last);
      assert rc[first] == Sum(c[..first + 1]) && rc[last] == Sum(c[last..]);
    }
  }

  lemma SumThreeParts(c: seq<real>, a: nat, b: nat)
    requires a <= b <= |c|
    ensures Sum(c) == Sum(c[..a]) + Sum(c[a..b]) + Sum(c[b..])
  {
    SumSplit(c, a);
    SumSplit(c[a..], b - a);
    assert c[a..][..b - a] == c[a..b];
    assert c[a..][b - a..] == c[b..];
  }

  /** The displayed bins of a wide range: first bin, the untouched inner
      bins, last bin. */
  lemma InnerSum(c: seq<real>, rc: seq<real>, first: nat, last: nat)
    requires 1 <= first < last < |c| == |rc|
    requires forall i :: first < i < last ==> rc[i] == c[i]
    ensures Sum(rc[first..last + 1]) == rc[first] + Sum(c[first + 1..last]) + rc[last]
  {
    assert rc[first..last + 1] == [rc[first]] + rc[first + 1..last] + [rc[last]];
    assert rc[first + 1..last] == c[first + 1..last];
    SumAppend([rc[first]] + rc[first + 1..last], [rc[last]]);
    SumAppend([rc[first]], rc[first + 1..last]);
  }

  /** `addOnlyOverflow`: as `addOverflow` with nothing folded from below.
      The underflow bin is still emptied, so its content leaves the
      histogram. */
  function AddOnlyOverflow(h: Hist, entries: real, typ: FileType, last: nat): (r: Hist)
    requires InRange(h, 1, last)
    ensures Conforms(r, h.NBins())
    ensures entries == 0.0 ==> r == h
    ensures entries != 0.0 ==>
      && r.contents[0] == 0.0
      && (forall i :: last < i < |h.contents| ==> r.contents[i] == 0.0)
      && (forall i :: 1 <= i < last ==> r.contents[i] == h.contents[i])
      && r.contents[last] == Sum(h.contents[last..])
      && r.sumw2[0] == 0.0 && r.sumw2[|h.sumw2| - 1] == 0.0
      && (forall i :: 0 < i < |h.sumw2| - 1 && (typ == Data || i != last) ==> r.sumw2[i] == h.sumw2[i])
      && (typ != Data ==> r.sumw2[last] == Sum(h.sumw2[last..]))
  {
    if entries == 0.0 then h
    else
      var c := Cleared(h, 1, last);
      var over, overSq := Sum(h.contents[last + 1..]), Sum(h.sumw2[last + 1..]);
      var contents := c.contents[last := c.contents[last] + over];
      var sumw2 := if typ != Data then c.sumw2[last := c.sumw2[last] + overSq] else c.sumw2;
      SumFrom(h.contents, last);
      SumFrom(h.sumw2, last);
      Hist(contents, sumw2)
  }

  /** Without an underflow, folding only the overflow is folding both
      sides from the first bin. */
  lemma OnlyOverflowIsOverflowWithoutUnderflow(h: Hist, entries: real, typ: FileType, last: nat)
    requires InRange(h, 1, last)
    requires h.contents[0] == 0.0 && h.sumw2[0] == 0.0
    ensures AddOnlyOverflow(h, entries, typ, last) == AddOverflow(h, entries, typ, 1, last)
  {
    if entries != 0.0 {
      OnlyOverflowContents(h, entries, typ, last);
      OnlyOverflowSumw2(h, entries, typ, last);
    }
  }

  lemma OnlyOverflowContents(h: Hist, entries: real, typ: FileType, last: nat)
    requires InRange(h, 1, last) && entries != 0.0
    requires h.contents[0] == 0.0
    ensures AddOnlyOverflow(h, entries, typ, last).contents == AddOverflow(h, entries, typ, 1, last).contents
  {
    SumFrom(h.contents, 0);
    SumUpTo(h.contents, 1);
    assert h.contents[..1] == [0.0];
  }

  lemma OnlyOverflowSumw2(h: Hist, entries: real, typ: FileType, last: nat)
    requires InRange(h, 1, last) && entries != 0.0
    requires h.sumw2[0] == 0.0
    ensures AddOnlyOverflow(h, entries, typ, last).sumw2 == AddOverflow(h, entries, typ, 1, last).sumw2
  {
    SumFrom(h.sumw2, 0);
    SumUpTo(h.sumw2, 1);
    assert h.sumw2[..1] == [0.0];
  }

  /** Folding a second time leaves the contents as they are: no content is
      left outside the range. (For simulation the squared errors grow: the
      regular bins outside the range keep theirs and are folded in again.) */
  lemma AddOverflowIdempotent(h: Hist, entries: real, typ: FileType, first: nat, last: nat)
    requires InRange(h, first, last)
    ensures var r := AddOverflow(h, entries, typ, first, last);
      AddOverflow(r, entries, typ, first, last).contents == r.contents
  {
    var r := AddOverflow(h, entries, typ, first, last);
    if entries != 0.0 {
      var rc := r.contents;
      AddOverflowConserves(h, entries, typ, first, last);
      SumOfZeros(rc[..first]);
      SumOfZeros(rc[last + 1..]);
      SumUpTo(rc, first);
      SumFrom(rc, last);
      var r2 := AddOverflow(r, entries, typ, first, last);
      assert r2.contents == rc;
    }
  }

  /** For data the whole histogram is unchanged by a second fold: its
      squared errors are only cleared, and they already are. */
  lemma AddOverflowIdempotentForData(h: Hist, entries: real, first: nat, last: nat)
    requires InRange(h, first, last)
    ensures var r := AddOverflow(h, entries, Data, first, last);
      AddOverflow(r, entries, Data, first, last) == r
  {
    var r := AddOverflow(h, entries, Data, first, last);
    if entries != 0.0 {
      AddOverflowIdempotent(h, entries, Data, first, last);
      var r2 := AddOverflow(r, entries, Data, first, last);
      assert r2.sumw2 == r.sumw2;
    }
  }

  /** For simulation the squared errors left in the regular bins before the
      range are counted again: a second fold adds them to the first bin
      once more. */
  lemma RefoldingCountsErrorsAgain()
    ensures var h := Hist([0.0, 1.0, 1.0, 1.0, 0.0], [0.0, 1.0, 1.0, 1.0, 0.0]);
      var r := AddOverflow(h, 1.0, MC, 2, 3);
      r.sumw2[2] == 2.0 && AddOverflow(r, 1.0, MC, 2, 3).sumw2[2] == 3.0
  {
    var h := Hist([0.0, 1.0, 1.0, 1.0, 0.0], [0.0, 1.0, 1.0, 1.0, 0.0]);
    var r := AddOverflow(h, 1.0, MC, 2, 3);
    assert h.sumw2[..3] == [0.0, 1.0, 1.0];
    assert Sum([0.0, 1.0, 1.0]) == 2.0 by {
      assert [0.0, 1.0, 1.0][..2] == [0.0, 1.0] && [0.0, 1.0][..1] == [0.0] && [0.0][..0] == [];
    }
    assert r.sumw2 == [0.0, 1.0, 2.0, 1.0, 0.0];
    assert r.sumw2[..3] == [0.0, 1.0, 2.0];
    assert Sum([0.0, 1.0, 2.0]) == 3.0 by {
      assert [0.0, 1.0, 2.0][..2] == [0.0, 1.0] && [0.0, 1.0][..1] == [0.0] && [0.0][..0] == [];
    }
  }
}

=== FILE: plots.dfy ===
/** List-level handling of plots while the configuration is read: merging a
    plot's labels with the global ones, the `override` filter, the
    expansion of a plot into its log-scale variants, and the luminosity of
    the configuration. */
module Plots {
  import opened Wrappers
  import opened Yaml
  import opened Types

  // ---------------------------------------------------------------------
  // Labels

  /** Whether some label of `labels` reads `text`. */
  predicate HasText(labels: seq<Label>, text: string) {
    exists i :: 0 <= i < |labels| && labels[i].text == text
  }

  /** The global labels whose text no plot label has, in their order. */
  function NewGlobals(plotLabels: seq<Label>, globals: seq<Label>): (r: seq<Label>)
    ensures |r| <= |globals|
    ensures forall k :: 0 <= k < |r| ==> r[k] in globals && !HasText(plotLabels, r[k].text)
    ensures forall k :: 0 <= k < |globals| && !HasText(plotLabels, globals[k].text) ==> globals[k] in r
  {
    if |globals| == 0 then []
    else
      var init := NewGlobals(plotLabels, globals[..|globals| - 1]);
      var g := globals[|globals| - 1];
      assert forall k :: 0 <= k < |globals| - 1 ==> globals[..|globals| - 1][k] == globals[k];
      if HasText(plotLabels, g.text) then init else init + [g]
  }

  /** `mergeLabels`: the plot's labels first, then each global label that
      does not repeat the text of a plot label. Global labels are compared
      with the plot's labels only, so two equal global labels both stay. */
  function MergeLabels(plotLabels: seq<Label>, globals: seq<Label>): (r: seq<Label>)
    ensures |plotLabels| <= |r| <= |plotLabels| + |globals|
    ensures r[..|plotLabels|] == plotLabels
    ensures forall k :: |plotLabels| <= k < |r| ==> r[k] in globals && !HasText(plotLabels, r[k].text)
    ensures forall g :: g in globals ==> (g in r[|plotLabels|..] <==> !HasText(plotLabels, g.text))
  {
    var extra := NewGlobals(plotLabels, globals);
    var r := plotLabels + extra;
    assert r[|plotLabels|..] == extra;
    assert forall k :: |plotLabels| <= k < |r| ==> r[k] == extra[k - |plotLabels|];
    r
  }

  lemma {:induction false} NoNewGlobals(labels: seq<Label>, globals: seq<Label>)
    requires forall k :: 0 <= k < |globals| ==> HasText(labels, globals[k].text)
    ensures NewGlobals(labels, globals) == []
  {
    if |globals| > 0 {
      NoNewGlobals(labels, globals[..|globals| - 1]);
    }
  }

  /** The new globals of `a + b` are those of `a` followed by those of `b`:
      the selection keeps the order of the global list and keeps repeats. */
  lemma {:induction false} NewGlobalsAppend(plotLabels: seq<Label>, a: seq<Label>, b: seq<Label>)
    ensures NewGlobals(plotLabels, a + b) == NewGlobals(plotLabels, a) + NewGlobals(plotLabels, b)
    decreases |b|
  {
    if |b| == 0 {
      assert a + b == a;
    } else {
      var b' := b[..|b| - 1];
      NewGlobalsAppend(plotLabels, a, b');
      assert (a + b)[..|a + b| - 1] == a + b';
      assert (a + b)[|a + b| - 1] == b[|b| - 1];
    }
  }

  /** A single global label is added exactly when no plot label has its
      text. */
  lemma NewGlobalsSingle(plotLabels: seq<Label>, g: Label)
    ensures NewGlobals(plotLabels, [g]) == if HasText(plotLabels, g.text) then [] else [g]
  {
    assert [g][..0] == [];
  }

  /** Merging with `globals + [g]` appends `g` to the merge with `globals`
      unless a plot label already has its text: the global labels are
      visited once each, in order. */
  lemma MergeLabelsAppend(plotLabels: seq<Label>, globals: seq<Label>, g: Label)
    ensures MergeLabels(plotLabels, globals + [g]) ==
      MergeLabels(plotLabels, globals) + (if HasText(plotLabels, g.text) then [] else [g])
  {
    NewGlobalsAppend(plotLabels, globals, [g]);
    NewGlobalsSingle(plotLabels, g);
  }

  /** Merging the global labels a second time adds nothing: every global
      label is then either in the merged list or shadowed by a plot
      label. */
  lemma MergeLabelsIdempotent(plotLabels: seq<Label>, globals: seq<Label>)
    ensures MergeLabels(MergeLabels(plotLabels, globals), globals) == MergeLabels(plotLabels, globals)
  {
    var merged := MergeLabels(plotLabels, globals);
    forall k | 0 <= k < |globals|
      ensures HasText(merged, globals[k].text)
    {
      var g := globals[k];
      if HasText(plotLabels, g.text) {
        var i :| 0 <= i < |plotLabels| && plotLabels[i].text == g.text;
        assert merged[i] == plotLabels[i];
      } else {
        assert g in merged[|plotLabels|..];
        var i :| |plotLabels| <= i < |merged| && merged[i] == g;
      }
    }
    NoNewGlobals(merged, globals);
    assert merged + [] == merged;
  }

  // ---------------------------------------------------------------------
  // Override filter

  predicate AnyOverride(plots: seq<Plot>) {
    exists i :: 0 <= i < |plots| && plots[i].override
  }

  /** The plots with `override` set, in their order. */
  function Overriding(plots: seq<Plot>): (r: seq<Plot>)
    ensures |r| <= |plots|
    ensures forall k :: 0 <= k < |r| ==> r[k].override && r[k] in plots
    ensures forall k :: 0 <= k < |plots| && plots[k].override ==> plots[k] in r
    ensures (forall k :: 0 <= k < |plots| ==> plots[k].override) ==> r == plots
  {
    if |plots| == 0 then []
    else
      var init := Overriding(plots[..|plots| - 1]);
      var p := plots[|plots| - 1];
      assert forall k :: 0 <= k < |plots| - 1 ==> plots[..|plots| - 1][k] == plots[k];
      assert plots == plots[..|plots| - 1] + [p];
      if p.override then init + [p] else init
  }

  /** The overriding plots of `a + b` are those of `a` followed by those
      of `b`: like `std::remove_if`, the filter is stable. */
  lemma {:induction false} OverridingAppend(a: seq<Plot>, b: seq<Plot>)
    ensures Overriding(a + b) == Overriding(a) + Overriding(b)
    decreases |b|
  {
    if |b| == 0 {
      assert a + b == a;
    } else {
      var b' := b[..|b| - 1];
      OverridingAppend(a, b');
      assert (a + b)[..|a + b| - 1] == a + b';
      assert (a + b)[|a + b| - 1] == b[|b| - 1];
    }
  }

  /** A single plot is kept exactly when it has `override` set. */
  lemma OverridingSingle(p: Plot)
    ensures Overriding([p]) == if p.override then [p] else []
  {
    assert [p][..0] == [];
  }

  /** When some plot has `override` set, only those plots are kept, in
      their order; otherwise the list is unchanged. */
  function OverrideFilter(plots: seq<Plot>): (r: seq<Plot>)
    ensures AnyOverride(plots) ==> 0 < |r| <= |plots|
    ensures AnyOverride(plots) ==> forall k :: 0 <= k < |r| ==> r[k].override && r[k] in plots
    ensures AnyOverride(plots) ==> forall k :: 0 <= k < |plots| && plots[k].override ==> plots[k] in r
    ensures !AnyOverride(plots) ==> r == plots
  {
    if AnyOverride(plots) then Overriding(plots) else plots
  }

  /** Filtering a second time changes nothing. */
  lemma OverrideFilterIdempotent(plots: seq<Plot>)
    ensures OverrideFilter(OverrideFilter(plots)) == OverrideFilter(plots)
  {
    var r := OverrideFilter(plots);
    if AnyOverride(plots) {
      assert r[0].override;
      assert AnyOverride(r);
    }
  }

  // ---------------------------------------------------------------------
  // Log-scale variants

  /** The `log-x` / `log-y` setting of a plot node: "both" asks for both
      scales. */
  datatype LogSetting = LogOff | LogOn | LogBoth

  /** The log flags a setting expands to. When the setting is not "both"
      the plot's flag already holds it. */
  function LogValues(setting: LogSetting, current: bool): (r: seq<bool>)
    ensures 1 <= |r| <= 2
    ensures |r| == 2 <==> setting == LogBoth
    ensures |r| == 2 ==> r[0] != r[1]
  {
    if setting == LogBoth then [false, true] else [current]
  }

  function Suffix(flag: bool, suffix: string): string {
    if flag then suffix else ""
  }

  function Row(x: bool, ys: seq<bool>): (r: seq<(bool, bool)>)
    ensures |r| == |ys| && forall j :: 0 <= j < |ys| ==> r[j] == (x, ys[j])
  {
    seq(|ys|, j requires 0 <= j < |ys| => (x, ys[j]))
  }

  /** The pairs `(x, y)` of `xs` and `ys`, x-major. */
  function Grid(xs: seq<bool>, ys: seq<bool>): (r: seq<(bool, bool)>)
    ensures |r| == |xs| * |ys|
    ensures forall x, y :: (x, y) in r <==> x in xs && y in ys
  {
    if |xs| == 0 then []
    else
      var n := |xs| - 1;
      var init := Grid(xs[..n], ys);
      var row := Row(xs[n], ys);
      assert xs == xs[..n] + [xs[n]];
      forall y | y in ys ensures (xs[n], y) in row {
        var j :| 0 <= j < |ys| && ys[j] == y;
        assert row[j] == (xs[n], y);
      }
      init + row
  }

  /** A plot with the log flags `(x, y)`: the first copy keeps
      `use_for_yields`, and each set flag appends its suffix. */
  predicate IsVariant(v: Plot, plot: Plot, flags: (bool, bool), first: bool) {
    && v.logX == flags.0 && v.logY == flags.1
    && (v.useForYields <==> first && plot.useForYields)
    && v.outputSuffix == plot.outputSuffix + Suffix(flags.0, "_logx") + Suffix(flags.1, "_logy")
    && v.(logX := plot.logX, logY := plot.logY, useForYields := plot.useForYields, outputSuffix := plot.outputSuffix) == plot
  }

  /** The expansion of a plot into one copy per combination of the x and y
      log flags, x-major. Only the first copy keeps `use_for_yields`, so
      that yields are reported once, and every set flag appends its suffix
      to the output name. */
  method ExpandLogs(plot: Plot, logX: LogSetting, logY: LogSetting) returns (variants: seq<Plot>)
    ensures var grid := Grid(LogValues(logX, plot.logX), LogValues(logY, plot.logY));
      && |variants| == |grid|
      && forall k :: 0 <= k < |variants| ==> IsVariant(variants[k], plot, grid[k], k == 0)
  {
    var xs := LogValues(logX, plot.logX);
    var ys := LogValues(logY, plot.logY);
    variants := [];
    for i := 0 to |xs|
      invariant |variants| == |Grid(xs[..i], ys)|
      invariant forall k :: 0 <= k < |variants| ==> IsVariant(variants[k], plot, Grid(xs[..i], ys)[k], k == 0)
    {
      variants := AddRow(plot, xs[i], ys, variants, Grid(xs[..i], ys));
      GridStep(xs, ys, i);
    }
    assert xs[..|xs|] == xs;
  }

  /** The inner loop: one copy per y flag for the x flag `x`, appended
      after the copies made so far. */
  method AddRow(plot: Plot, x: bool, ys: seq<bool>, variants: seq<Plot>, ghost done: seq<(bool, bool)>)
    returns (r: seq<Plot>)
    requires |variants| == |done|
    requires forall k :: 0 <= k < |variants| ==> IsVariant(variants[k], plot, done[k], k == 0)
    ensures |r| == |done + Row(x, ys)|
    ensures forall k :: 0 <= k < |r| ==> IsVariant(r[k], plot, (done + Row(x, ys))[k], k == 0)
  {
    r := variants;
    var counter := |variants|;
    for j := 0 to |ys|
      invariant counter == |r| == |done| + j
      invariant forall k :: 0 <= k < |done| ==> IsVariant(r[k], plot, done[k], k == 0)
      invariant forall k :: |done| <= k < |r| ==> IsVariant(r[k], plot, (x, ys[k - |done|]), k == 0)
    {
      var p := MakeVariant(plot, x, ys[j], counter);
      r := r + [p];
      counter := counter + 1;
    }
  }

  lemma GridStep(xs: seq<bool>, ys: seq<bool>, i: nat)
    requires i < |xs|
    ensures Grid(xs[..i + 1], ys) == Grid(xs[..i], ys) + Row(xs[i], ys)
  {
    assert xs[..i + 1][..i] == xs[..i];
  }

  /** One pass of the inner loop: the copy made for the flags `(x, y)`
      after `counter` copies. */
  method MakeVariant(plot: Plot, x: bool, y: bool, counter: nat) returns (p: Plot)
    ensures IsVariant(p, plot, (x, y), counter == 0)
  {
    p := plot.(logX := x, logY := y);
    if counter != 0 && plot.useForYields {
      p := p.(useForYields := false);
    }
    if p.logX {
      p := p.(outputSuffix := p.outputSuffix + "_logx");
    }
    if p.logY {
      p := p.(outputSuffix := p.outputSuffix + "_logy");
    }
  }

  /** "both" on both axes gives the four combinations of flags. */
  lemma BothAxesGiveFourVariants(plot: Plot)
    ensures var grid := Grid(LogValues(LogBoth, plot.logX), LogValues(LogBoth, plot.logY));
      |grid| == 4 && forall x, y :: (x, y) in grid
  {
  }

  // ---------------------------------------------------------------------
  // Luminosity

  /** A sum of floats in which a NaN term makes the sum NaN. */
  function FloatSum(values: seq<Float>): (r: Float)
    ensures r.Some? <==> forall i :: 0 <= i < |values| ==> values[i].Some?
  {
    if |values| == 0 then Some(0.0)
    else
      var init := FloatSum(values[..|values| - 1]);
      var last := values[|values| - 1];
      assert forall i :: 0 <= i < |values| - 1 ==> values[..|values| - 1][i] == values[i];
      if init.Some? && last.Some? then Some(init.value + last.value) else None
  }

  /** The luminosity of each era read from a map node, failing at the
      first era that has no numeric entry. */
  function EraLuminosities(node: Node, eras: seq<string>): (r: Result<seq<Float>>)
    ensures r.Success? <==> forall i :: 0 <= i < |eras| ==> node.Get(eras[i]).AsFloat().Success?
    ensures r.Success? ==> |r.value| == |eras|
    ensures r.Success? ==> forall i :: 0 <= i < |eras| ==> r.value[i] == node.Get(eras[i]).AsFloat().value
  {
    if |eras| == 0 then Success([])
    else
      var init := EraLuminosities(node, eras[..|eras| - 1]);
      var last := node.Get(eras[|eras| - 1]).AsFloat();
      assert forall i :: 0 <= i < |eras| - 1 ==> eras[..|eras| - 1][i] == eras[i];
      if init.Failure? then Failure(init.error)
      else if last.Failure? then Failure(last.error)
      else Success(init.value + [last.value])
  }

  function EraSet(eras: seq<string>): set<string> {
    set i | 0 <= i < |eras| :: eras[i]
  }

  /** The per-era map filled in era order; the empty key holds the sum. */
  function EraMap(eras: seq<string>, values: seq<Float>): (r: map<string, Float>)
    requires |values| == |eras|
    ensures r.Keys == {""} + EraSet(eras)
    ensures r[""] == FloatSum(values)
  {
    if |eras| == 0 then map["" := Some(0.0)]
    else
      var init := EraMap(eras[..|eras| - 1], values[..|values| - 1]);
      assert forall i :: 0 <= i < |eras| - 1 ==> eras[..|eras| - 1][i] == eras[i];
      init[eras[|eras| - 1] := values[|values| - 1]]["" := FloatSum(values)]
  }

  /** The `luminosity` entry of the configuration: a scalar is the total;
      a map gives each configured era its value and the total their sum.
      A missing entry or any other node is an error. */
  function LoadLuminosity(config: Node, eras: seq<string>): (r: Result<map<string, Float>>)
    ensures !config.Get("luminosity").Scalar? && !config.Get("luminosity").Map? ==> r.Failure?
    ensures config.Get("luminosity").Scalar? ==>
      (r.Success? <==> config.Get("luminosity").number.Some?)
      && (r.Success? ==> r.value == map["" := config.Get("luminosity").number.value])
    ensures config.Get("luminosity").Map? ==>
      (r.Success? <==> forall i :: 0 <= i < |eras| ==> config.Get("luminosity").Get(eras[i]).AsFloat().Success?)
    ensures r.Success? && config.Get("luminosity").Map? ==>
      && r.value.Keys == {""} + EraSet(eras)
      && r.value[""] == FloatSum(seq(|eras|, i requires 0 <= i < |eras| => config.Get("luminosity").Get(eras[i]).AsFloat().value))
  {
    var node := config.Get("luminosity");
    if !node.IsDefined() then Failure("'configuration' block is missing luminosity")
    else if node.Scalar? then
      var v := node.AsFloat();
      if v.Failure? then Failure(v.error) else Success(map["" := v.value])
    else if node.Map? then
      var values := EraLuminosities(node, eras);
      if values.Failure? then Failure(values.error)
      else
        assert values.value == seq(|eras|, i requires 0 <= i < |eras| => node.Get(eras[i]).AsFloat().value);
        Success(EraMap(eras, values.value))
    else Failure("luminosity should be a single value or a map (one value per era)")
  }

  /** With distinct, named eras the map holds each era's own value, so the
      total is the sum of the values stored under the eras. */
  lemma EraMapTotal(eras: seq<string>, values: seq<Float>)
    requires |values| == |eras|
    requires forall i, j :: 0 <= i < j < |eras| ==> eras[i] != eras[j]
    requires forall i :: 0 <= i < |eras| ==> eras[i] != ""
    ensures forall i :: 0 <= i < |eras| ==> EraMap(eras, values)[eras[i]] == values[i]
  {
    forall i | 0 <= i < |eras|
      ensures EraMap(eras, values)[eras[i]] == values[i]
    {
      EraMapAt(eras, values, i);
    }
  }

  /** The value stored under era `i` is that era's own. */
  lemma {:induction false} EraMapAt(eras: seq<string>, values: seq<Float>, i: nat)
    requires |values| == |eras| && i < |eras|
    requires forall k, j :: 0 <= k < j < |eras| ==> eras[k] != eras[j]
    requires forall k :: 0 <= k < |eras| ==> eras[k] != ""
    ensures EraMap(eras, values)[eras[i]] == values[i]
  {
    var n := |eras| - 1;
    if i < n {
      var init, vinit := eras[..n], values[..n];
      assert forall k :: 0 <= k < n ==> init[k] == eras[k];
      assert init[i] == eras[i] && vinit[i] == values[i];
      EraMapAt(init, vinit, i);
      assert eras[i] != eras[n] && eras[i] != "";
    }
  }
}

=== FILE: ratio.dfy ===
/** `getRatio` and `getRatio2`: the points of a ratio plot between a
    histogram `a` and a reference `b`. A point is emitted for each regular
    bin of `a` where both contents are non-zero; its value is the ratio of
    the contents and its up and down errors come from the errors of the two
    inputs. Bin centres and the graph object are not modelled: a point
    records the bin it comes from. */
module Ratios {
  import opened Reals

  /** A histogram as the ratio reads it: contents with their up and down
      errors, which ROOT computes from the histogram's error option. */
  datatype Measured = Measured(contents: seq<real>, errorUp: seq<real>, errorLow: seq<real>) {
    predicate Valid() {
      |contents| >= 2 && |errorUp| == |contents| && |errorLow| == |contents|
    }

    function NBins(): nat
      requires Valid()
    {
      |contents| - 2
    }
  }

  /** Contents, up error and down error of bin `i`, zero outside. */
  function Content(m: Measured, i: nat): real {
    if i < |m.contents| then m.contents[i] else 0.0
  }

  function ErrorUp(m: Measured, i: nat): real {
    if i < |m.errorUp| then m.errorUp[i] else 0.0
  }

  function ErrorLow(m: Measured, i: nat): real {
    if i < |m.errorLow| then m.errorLow[i] else 0.0
  }

  /** One ratio point: the bin it stands for, its value, and its down and
      up error. `getRatio` errors are held squared. */
  datatype Point = Point(bin: nat, y: real, low: real, up: real)

  /** Whether bin `i` yields a point. */
  predicate HasPoint(a: Measured, b: Measured, i: nat) {
    Content(a, i) != 0.0 && Content(b, i) != 0.0
  }

  lemma QuotientErrorSqNonNegative(x: real, y: real, ex: real, ey: real)
    requires y != 0.0
    ensures QuotientErrorSq(x, y, ex, ey) >= 0.0
  {
    ProductNonNegative(Square(ex), Square(y));
    ProductNonNegative(Square(ey), Square(x));
    QuotientNonNegative(Square(ex) * Square(y) + Square(ey) * Square(x), Square(Square(y)));
  }

  /** Squared error of a ratio x / y whose terms have errors ex and ey,
      as `getRatio` propagates it. */
  function QuotientErrorSq(x: real, y: real, ex: real, ey: real): real
    requires y != 0.0
  {
    (Square(ex) * Square(y) + Square(ey) * Square(x)) / Square(Square(y))
  }

  /** The point of bin `i` in `getRatio`. */
  function RatioPoint(a: Measured, b: Measured, i: nat): (p: Point)
    requires HasPoint(a, b, i)
    ensures p.bin == i && p.y * Content(b, i) == Content(a, i)
    ensures p.low >= 0.0 && p.up >= 0.0
  {
    QuotientTimesDivisor(Content(a, i), Content(b, i));
    QuotientErrorSqNonNegative(Content(a, i), Content(b, i), ErrorLow(a, i), ErrorLow(b, i));
    QuotientErrorSqNonNegative(Content(a, i), Content(b, i), ErrorUp(a, i), ErrorUp(b, i));
    var x := Content(a, i);
    var y := Content(b, i);
    Point(i, x / y,
          QuotientErrorSq(x, y, ErrorLow(a, i), ErrorLow(b, i)),
          QuotientErrorSq(x, y, ErrorUp(a, i), ErrorUp(b, i)))
  }

  /** The point of bin `i` in `getRatio2`: only `a`'s errors, scaled by
      the reference content. */
  function Ratio2Point(a: Measured, b: Measured, i: nat): (p: Point)
    requires HasPoint(a, b, i)
    ensures p.bin == i && p.y * Content(b, i) == Content(a, i)
    ensures p.low >= 0.0 && p.up >= 0.0
  {
    QuotientTimesDivisor(Content(a, i), Content(b, i));
    var y := Content(b, i);
    Point(i, Content(a, i) / y, Abs(ErrorLow(a, i) / y), Abs(ErrorUp(a, i) / y))
  }

  /** Points of bins 1..m, in bin order. */
  function RatioPoints(a: Measured, b: Measured, m: nat, second: bool): (r: seq<Point>)
    ensures |r| <= m
    ensures forall k :: 0 <= k < |r| ==> 1 <= r[k].bin <= m && HasPoint(a, b, r[k].bin)
    ensures forall k :: 0 <= k < |r| ==>
      r[k] == if second then Ratio2Point(a, b, r[k].bin) else RatioPoint(a, b, r[k].bin)
    ensures forall k, l :: 0 <= k < l < |r| ==> r[k].bin < r[l].bin
  {
    if m == 0 then []
    else
      var init := RatioPoints(a, b, m - 1, second);
      if HasPoint(a, b, m) then init + [if second then Ratio2Point(a, b, m) else RatioPoint(a, b, m)]
      else init
  }

  /** `getRatio(a, b)`. */
  function GetRatio(a: Measured, b: Measured): (r: seq<Point>)
    requires a.Valid()
    ensures |r| <= a.NBins()
    ensures forall k, l :: 0 <= k < l < |r| ==> r[k].bin < r[l].bin
  {
    RatioPoints(a, b, a.NBins(), false)
  }

  /** `getRatio2(a, b)`. */
  function GetRatio2(a: Measured, b: Measured): (r: seq<Point>)
    requires a.Valid()
    ensures |r| <= a.NBins()
    ensures forall k, l :: 0 <= k < l < |r| ==> r[k].bin < r[l].bin
  {
    RatioPoints(a, b, a.NBins(), true)
  }

  /** A bin has a point exactly when it is a regular bin with both
      contents non-zero. */
  lemma {:induction false} PointsAreTheNonZeroBins(a: Measured, b: Measured, m: nat, second: bool, i: nat)
    ensures HasBin(RatioPoints(a, b, m, second), i) <==> 1 <= i <= m && HasPoint(a, b, i)
  {
    if m > 0 {
      PointsAreTheNonZeroBins(a, b, m - 1, second, i);
      var r := RatioPoints(a, b, m, second);
      var init := RatioPoints(a, b, m - 1, second);
      if HasPoint(a, b, m) {
        var p := if second then Ratio2Point(a, b, m) else RatioPoint(a, b, m);
        assert r == init + [p] && p.bin == m;
        HasBinAppend(init, p, i);
      }
    }
  }

  /** Some point of `r` is for bin `i`. */
  predicate HasBin(r: seq<Point>, i: nat) {
    exists k :: 0 <= k < |r| && r[k].bin == i
  }

  lemma HasBinAppend(r: seq<Point>, p: Point, i: nat)
    ensures HasBin(r + [p], i) <==> HasBin(r, i) || p.bin == i
  {
    var s := r + [p];
    if HasBin(r, i) {
      var k :| 0 <= k < |r| && r[k].bin == i;
      assert s[k] == r[k];
    }
    if p.bin == i {
      assert s[|r|] == p;
    }
    if HasBin(s, i) {
      var k :| 0 <= k < |s| && s[k].bin == i;
      if k < |r| {
        assert s[k] == r[k];
      }
    }
  }

  /** The squared error of a `getRatio` point is the squared value times
      the sum of the squared relative errors of the two contents. */
  lemma RelativeErrorsAddInQuadrature(x: real, y: real, ex: real, ey: real)
    requires x != 0.0 && y != 0.0
    ensures QuotientErrorSq(x, y, ex, ey) == Square(x / y) * (Square(ex) / Square(x) + Square(ey) / Square(y))
  {
    var X, Y, A, B := Square(x), Square(y), Square(ex), Square(ey);
    ProductOfQuotients(x, y, x, y);
    assert Square(x / y) == X / Y;
    QuadratureAlgebra(A, B, X, Y);
    assert Square(Y) == Y * Y;
  }

  /** The field identity behind the relative-error form. */
  lemma QuadratureAlgebra(A: real, B: real, X: real, Y: real)
    requires X != 0.0 && Y != 0.0
    ensures (X / Y) * (A / X + B / Y) == (A * Y + B * X) / (Y * Y)
  {
    ProductSign(Y, Y);
    calc {
      (X / Y) * (A / X + B / Y);
      (X / Y) * (A / X) + (X / Y) * (B / Y);
      { ProductOfQuotients(X, Y, A, X); ProductOfQuotients(X, Y, B, Y); }
      (X * A) / (Y * X) + (X * B) / (Y * Y);
      { assert X * A == A * X; CancelCommonFactor(A, X, Y); }
      A / Y + (X * B) / (Y * Y);
      { CancelCommonFactor(A, Y, Y); }
      (A * Y) / (Y * Y) + (X * B) / (Y * Y);
      { SumOverCommonDivisor(A * Y, X * B, Y * Y); }
      (A * Y + X * B) / (Y * Y);
      { assert X * B == B * X; }
      (A * Y + B * X) / (Y * Y);
    }
  }

  /** `getRatio2` ignores the reference's errors: replacing them changes
      nothing. */
  lemma {:induction false} Ratio2IgnoresReferenceErrors(a: Measured, b: Measured, errorUp: seq<real>, errorLow: seq<real>, m: nat)
    ensures RatioPoints(a, b, m, true) == RatioPoints(a, b.(errorUp := errorUp, errorLow := errorLow), m, true)
  {
    if m > 0 {
      Ratio2IgnoresReferenceErrors(a, b, errorUp, errorLow, m - 1);
    }
  }

  /** With an error-free reference the two ratios give the same point of
      a bin, errors compared once squared. */
  lemma PointsAgree(a: Measured, b: Measured, i: nat)
    requires HasPoint(a, b, i)
    requires ErrorUp(b, i) == 0.0 && ErrorLow(b, i) == 0.0
    ensures var p, q := Ratio2Point(a, b, i), RatioPoint(a, b, i);
      p.bin == q.bin && p.y == q.y && Square(p.up) == q.up && Square(p.low) == q.low
  {
    var y := Content(b, i);
    SquareOfQuotient(ErrorUp(a, i), Content(a, i), y);
    SquareOfQuotient(ErrorLow(a, i), Content(a, i), y);
  }

  lemma SquareOfQuotient(e: real, x: real, y: real)
    requires y != 0.0
    ensures Square(Abs(e / y)) == QuotientErrorSq(x, y, e, 0.0)
  {
    var E, Y := Square(e), Square(y);
    ProductOfQuotients(e, y, e, y);
    assert Square(Abs(e / y)) == E / Y;
    assert Square(0.0) == 0.0;
    assert Square(0.0) * Square(x) == 0.0;
    assert QuotientErrorSq(x, y, e, 0.0) == (E * Y) / (Y * Y);
    CancelCommonFactor(E, Y, Y);
  }

  /** Both ratio constructions keep points at the same bins, in the same
      order. */
  lemma {:induction false} RatiosAgree(a: Measured, b: Measured, m: nat)
    ensures |RatioPoints(a, b, m, true)| == |RatioPoints(a, b, m, false)|
    ensures forall k :: 0 <= k < |RatioPoints(a, b, m, true)| ==>
      RatioPoints(a, b, m, true)[k].bin == RatioPoints(a, b, m, false)[k].bin
  {
    if m > 0 {
      RatiosAgree(a, b, m - 1);
    }
  }
}

=== FILE: reals.dfy ===
/** Scalar helpers on reals (the model's stand-in for `float`) and the
    field facts that the error propagation proofs rest on, one step each so
    that the solver never has to search products of unknowns. */
module Reals {

  /** `std::max`: the second argument only when it is larger. */
  function Max(a: real, b: real): (r: real)
    ensures r >= a && r >= b && (r == a || r == b)
  {
    if a < b then b else a
  }

  /** `std::abs`. */
  function Abs(x: real): (r: real)
    ensures r >= 0.0 && (r == x || r == -x)
  {
    if x < 0.0 then -x else x
  }

  function Square(x: real): (r: real)
    ensures r >= 0.0
    ensures x != 0.0 ==> r > 0.0
  {
    ProductSign(x, x);
    x * x
  }

  /** Sign of a product, by cases on the signs of its factors. */
  lemma ProductSign(a: real, b: real)
    ensures a * b > 0.0 <==> (a > 0.0 && b > 0.0) || (a < 0.0 && b < 0.0)
    ensures a * b == 0.0 <==> a == 0.0 || b == 0.0
  {
    if a > 0.0 && b < 0.0 {
      assert a * b < 0.0 * b;
    } else if a < 0.0 && b > 0.0 {
      assert a * b < 0.0 * b;
    } else if a > 0.0 && b > 0.0 {
      assert a * b > 0.0 * b;
    } else if a < 0.0 && b < 0.0 {
      assert a * b > 0.0 * b;
    }
  }

  lemma ProductNonNegative(a: real, b: real)
    requires a >= 0.0 && b >= 0.0
    ensures a * b >= 0.0
  {
    ProductSign(a, b);
  }

  lemma QuotientNonNegative(n: real, d: real)
    requires n >= 0.0 && d > 0.0
    ensures n / d >= 0.0
  {
    var q := n / d;
    assert q * d == n;
    ProductSign(q, d);
  }

  lemma QuotientTimesDivisor(x: real, d: real)
    requires d != 0.0
    ensures (x / d) * d == x
  {
  }

  lemma ProductOfQuotients(a: real, b: real, c: real, d: real)
    requires b != 0.0 && d != 0.0
    ensures (a / b) * (c / d) == (a * c) / (b * d)
  {
    ProductSign(b, d);
  }

  lemma SumOverCommonDivisor(a: real, b: real, d: real)
    requires d != 0.0
    ensures (a + b) / d == a / d + b / d
  {
  }

  lemma CancelCommonFactor(a: real, k: real, d: real)
    requires k != 0.0 && d != 0.0
    ensures (a * k) / (d * k) == a / d
  {
    ProductSign(d, k);
  }

  lemma ScaleQuotient(k: real, a: real, d: real)
    requires d != 0.0
    ensures k * (a / d) == (k * a) / d
  {
  }
}

=== FILE: sorting.dfy ===
/** Ordering by a real-valued key. The source sorts with `std::sort`, which
    is not stable: callers may rely only on the result being a permutation
    of the input that is ordered by the key, and that is all `SortBy`
    promises. */
module Sorting {

  ghost predicate SortedBy<T>(s: seq<T>, key: T -> real) {
    forall i, j :: 0 <= i < j < |s| ==> key(s[i]) <= key(s[j])
  }

  /** Every element of `s` has a key of at least `b`. */
  ghost predicate AllAtLeast<T>(s: seq<T>, key: T -> real, b: real) {
    forall i :: 0 <= i < |s| ==> b <= key(s[i])
  }

  /** Inserts `x` in front of the first element whose key is not smaller. */
  function Insert<T>(x: T, s: seq<T>, key: T -> real): (r: seq<T>)
    ensures |r| == |s| + 1
    ensures multiset(r) == multiset(s) + multiset{x}
  {
    if |s| == 0 then [x]
    else if key(x) <= key(s[0]) then [x] + s
    else
      assert s == [s[0]] + s[1..];
      [s[0]] + Insert(x, s[1..], key)
  }

  lemma {:induction false} InsertSorted<T>(x: T, s: seq<T>, key: T -> real)
    requires SortedBy(s, key)
    ensures SortedBy(Insert(x, s, key), key)
    ensures forall b :: AllAtLeast(s, key, b) && b <= key(x) ==> AllAtLeast(Insert(x, s, key), key, b)
  {
    var r := Insert(x, s, key);
    if |s| == 0 {
    } else if key(x) <= key(s[0]) {
      assert r == [x] + s;
      forall i, j | 0 <= i < j < |r|
        ensures key(r[i]) <= key(r[j])
      {
        if i > 0 {
          assert key(s[i - 1]) <= key(s[j - 1]);
        } else if j > 1 {
          assert key(s[0]) <= key(s[j - 1]);
        }
      }
    } else {
      var rest := Insert(x, s[1..], key);
      assert r == [s[0]] + rest;
      InsertSorted(x, s[1..], key);
      assert AllAtLeast(s[1..], key, key(s[0])) by {
        forall i | 0 <= i < |s[1..]|
          ensures key(s[0]) <= key(s[1..][i])
        {
          assert s[1..][i] == s[i + 1];
        }
      }
      assert AllAtLeast(rest, key, key(s[0]));
      forall i, j | 0 <= i < j < |r|
        ensures key(r[i]) <= key(r[j])
      {
        if i > 0 {
          assert key(rest[i - 1]) <= key(rest[j - 1]);
        } else {
          assert key(s[0]) <= key(rest[j - 1]);
        }
      }
      forall b | AllAtLeast(s, key, b) && b <= key(x)
        ensures AllAtLeast(r, key, b)
      {
        assert AllAtLeast(s[1..], key, b) by {
          forall i | 0 <= i < |s[1..]|
            ensures b <= key(s[1..][i])
          {
            assert s[1..][i] == s[i + 1];
          }
        }
        assert AllAtLeast(rest, key, b);
        assert b <= key(s[0]);
      }
    }
  }

  /** A permutation of `s` ordered by ascending key. */
  function SortBy<T>(s: seq<T>, key: T -> real): (r: seq<T>)
    ensures |r| == |s|
    ensures multiset(r) == multiset(s)
    ensures SortedBy(r, key)
  {
    if |s| == 0 then []
    else
      assert s == [s[0]] + s[1..];
      var rest := SortBy(s[1..], key);
      InsertSorted(s[0], rest, key);
      Insert(s[0], rest, key)
  }
}

=== FILE: stack.dfy ===
/** The background stack of one stack index: simulation files whose
    histograms are merged per legend group, optionally ordered by yield,
    and summed into the statistical-only total. */
module Stacks {
  import opened Wrappers
  import opened Vectors
  import opened Histograms
  import opened Sorting
  import opened Tallies
  import opened Types
  import opened Files

  /** One histogram of the stack with the options it is drawn with.
      `group` is the legend group it stands for, empty for a file drawn on
      its own. */
  datatype Layer = Layer(hist: Hist, drawingOptions: string, group: string)

  /** A built stack: its layers from bottom to top and their bin-wise sum. */
  datatype Stack = Stack(layers: seq<Layer>, statOnly: Hist)

  /** The empty histogram of `n` regular bins. */
  function ZeroHist(n: nat): (r: Hist)
    ensures Conforms(r, n)
    ensures forall i :: 0 <= i < n + 2 ==> r.contents[i] == 0.0 && r.sumw2[i] == 0.0
  {
    Hist(Zeros(n + 2), Zeros(n + 2))
  }

  /** `a->Add(b)` for histograms of `n` bins; a histogram of another binning
      leaves `a` as it is. */
  function HistPlus(n: nat): (plus: (Hist, Hist) -> Hist)
    ensures forall a, b :: Conforms(a, n) ==> Conforms(plus(a, b), n)
    ensures forall a, b :: Conforms(a, n) && Conforms(b, n) ==> plus(a, b) == AddHist(a, b)
  {
    (a: Hist, b: Hist) => if Conforms(a, n) && Conforms(b, n) then AddHist(a, b) else a
  }

  /** The first member of a group is cloned: adding it to the empty
      histogram gives it back. */
  lemma CloneIsAddToZero(h: Hist, n: nat)
    requires Conforms(h, n)
    ensures HistPlus(n)(ZeroHist(n), h) == h
  {
    var r := HistPlus(n)(ZeroHist(n), h);
    assert r.contents == h.contents;
    assert r.sumw2 == h.sumw2;
  }

  /** A file of stack `index`. */
  predicate InStack(f: File, index: int) {
    f.typ == MC && f.stackIndex == index
  }

  /** First pass: grouped files of the stack with entries. */
  predicate GroupMember(f: File, index: int) {
    InStack(f, index) && f.legendGroup != "" && f.entries != 0.0
  }

  /** Second pass: files of the stack except ungrouped files without
      entries. */
  predicate StackCandidate(f: File, index: int) {
    InStack(f, index) && !(f.entries == 0.0 && f.legendGroup == "")
  }

  /** The (group, histogram) pairs the first pass adds, in file order. */
  function GroupItems(files: seq<File>): (r: seq<(string, Hist)>)
    ensures |r| == |files|
    ensures forall k :: 0 <= k < |files| ==> r[k] == (files[k].legendGroup, files[k].hist)
  {
    if |files| == 0 then [] else [(files[0].legendGroup, files[0].hist)] + GroupItems(files[1..])
  }

  /** The first pass: one merged histogram per legend group, in order of
      the group's first member. */
  function GroupHistograms(files: seq<File>, index: int, n: nat): seq<(string, Hist)>
  {
    Tally(GroupItems(GetFiles(files, f => GroupMember(f, index))), ZeroHist(n), HistPlus(n))
  }

  /** The second pass over the candidates, with the groups not yet placed:
      a grouped file whose group is still waiting places the merged group
      histogram and removes it; a grouped file whose group was placed (or
      has no member with entries) is skipped; any other file is drawn on
      its own. */
  function BuildLayers(fs: seq<File>, groups: seq<(string, Hist)>, groupStyles: map<string, PlotStyle>): (r: seq<Layer>)
    ensures |r| <= |fs|
  {
    if |fs| == 0 then []
    else
      var f := fs[0];
      var k := KeyIndex(groups, f.legendGroup);
      var options := StyleOf(f, groupStyles).drawingOptions;
      if f.legendGroup != "" && k == |groups| then BuildLayers(fs[1..], groups, groupStyles)
      else if k < |groups| then
        [Layer(groups[k].1, options, f.legendGroup)] + BuildLayers(fs[1..], EraseKey(groups, f.legendGroup), groupStyles)
      else [Layer(f.hist, options, f.legendGroup)] + BuildLayers(fs[1..], groups, groupStyles)
  }

  /** Reference definition of the layers: walking the candidates, each
      ungrouped file gives its own histogram, and the first file of each
      group that has members with entries gives the sum of those members;
      `seen` holds the groups already placed. */
  function RefLayers(fs: seq<File>, seen: set<string>, items: seq<(string, Hist)>,
                     groupStyles: map<string, PlotStyle>, n: nat): seq<Layer>
  {
    if |fs| == 0 then []
    else
      var f := fs[0];
      var g := f.legendGroup;
      var options := StyleOf(f, groupStyles).drawingOptions;
      if g == "" then [Layer(f.hist, options, g)] + RefLayers(fs[1..], seen, items, groupStyles, n)
      else if g in seen || g !in Names(items) then RefLayers(fs[1..], seen, items, groupStyles, n)
      else [Layer(Total(items, g, ZeroHist(n), HistPlus(n)), options, g)]
           + RefLayers(fs[1..], seen + {g}, items, groupStyles, n)
  }

  /** Looking a name up in the merged groups finds it exactly when it is
      one of the group names, with the group's reference sum. */
  lemma GroupLookup(items: seq<(string, Hist)>, n: nat, seen: set<string>, g: string)
    ensures var t := Tally(items, ZeroHist(n), HistPlus(n)); var r := Without(t, seen); var k := KeyIndex(r, g);
      && (k < |r| <==> g in Names(items) && g !in seen)
      && (k < |r| ==> r[k].1 == Total(items, g, ZeroHist(n), HistPlus(n)))
      && DistinctKeys(t)
  {
    var t := Tally(items, ZeroHist(n), HistPlus(n));
    var names := Names(items);
    TallyIsTotals(items, ZeroHist(n), HistPlus(n));
    NamesDistinct(items);
    WithoutKeyFound(t, seen, g);
    WithoutKeyEntry(t, seen, g);
    var j := KeyIndex(t, g);
    if g in names {
      var i :| 0 <= i < |names| && names[i] == g;
      assert t[i].0 == g;
    }
    if j < |t| {
      assert names[j] == g;
    }
  }

  /** The two-pass construction yields the reference layers. */
  lemma {:induction false} LayersMatchReference(fs: seq<File>, seen: set<string>, items: seq<(string, Hist)>,
                                                groupStyles: map<string, PlotStyle>, n: nat)
    requires forall k :: 0 <= k < |items| ==> items[k].0 != ""
    ensures BuildLayers(fs, Without(Tally(items, ZeroHist(n), HistPlus(n)), seen), groupStyles)
            == RefLayers(fs, seen, items, groupStyles, n)
  {
    if |fs| > 0 {
      var g := fs[0].legendGroup;
      var t := Tally(items, ZeroHist(n), HistPlus(n));
      GroupLookup(items, n, seen, g);
      if g == "" {
        assert g !in Names(items);
        LayersMatchReference(fs[1..], seen, items, groupStyles, n);
      } else if g in seen || g !in Names(items) {
        LayersMatchReference(fs[1..], seen, items, groupStyles, n);
      } else {
        EraseFound(t, seen, g);
        LayersMatchReference(fs[1..], seen + {g}, items, groupStyles, n);
      }
    }
  }

  /** Layer `i` of `r`, when grouped, stands for a group not in `seen` that
      has members with entries, holds the sum of those members, and is the
      only layer of its group. */
  predicate GroupOnceAt(r: seq<Layer>, i: nat, seen: set<string>, items: seq<(string, Hist)>, n: nat)
    requires i < |r|
  {
    r[i].group != "" ==>
      && r[i].group !in seen
      && r[i].group in Names(items)
      && r[i].hist == Total(items, r[i].group, ZeroHist(n), HistPlus(n))
      && (forall j :: i < j < |r| ==> r[j].group != r[i].group)
  }

  predicate GroupsOnce(r: seq<Layer>, seen: set<string>, items: seq<(string, Hist)>, n: nat) {
    forall i :: 0 <= i < |r| ==> GroupOnceAt(r, i, seen, items, n)
  }

  /** In the reference layers every group appears at most once, never one
      already placed, always one with members with entries, and holding
      the sum of those members. */
  lemma {:induction false} GroupsAppearOnce(fs: seq<File>, seen: set<string>, items: seq<(string, Hist)>,
                                            groupStyles: map<string, PlotStyle>, n: nat)
    ensures GroupsOnce(RefLayers(fs, seen, items, groupStyles, n), seen, items, n)
  {
    if |fs| > 0 {
      var g := fs[0].legendGroup;
      var r := RefLayers(fs, seen, items, groupStyles, n);
      if g == "" {
        GroupsAppearOnce(fs[1..], seen, items, groupStyles, n);
        var rest := RefLayers(fs[1..], seen, items, groupStyles, n);
        assert r == [r[0]] + rest && r[0].group == "";
        ConsGroupsOnce(r[0], rest, seen, items, n);
      } else if g in seen || g !in Names(items) {
        GroupsAppearOnce(fs[1..], seen, items, groupStyles, n);
      } else {
        GroupsAppearOnce(fs[1..], seen + {g}, items, groupStyles, n);
        var rest := RefLayers(fs[1..], seen + {g}, items, groupStyles, n);
        assert r == [r[0]] + rest && r[0].group == g;
        ConsGroupsOnce(r[0], rest, seen, items, n);
      }
    }
  }

  /** Putting a layer in front keeps `GroupsOnce` when it is ungrouped, or
      when it is the reference sum of a new group. */
  lemma ConsGroupsOnce(l: Layer, rest: seq<Layer>, seen: set<string>, items: seq<(string, Hist)>, n: nat)
    requires GroupsOnce(rest, if l.group == "" then seen else seen + {l.group}, items, n)
    requires l.group != "" ==> l.group !in seen && l.group in Names(items)
                               && l.hist == Total(items, l.group, ZeroHist(n), HistPlus(n))
    ensures GroupsOnce([l] + rest, seen, items, n)
  {
    var r := [l] + rest;
    var seen' := if l.group == "" then seen else seen + {l.group};
    forall i | 0 <= i < |r|
      ensures GroupOnceAt(r, i, seen, items, n)
    {
      if i > 0 {
        ConsGroupOnceAt(l, rest, seen, items, n, i - 1);
      } else if l.group != "" {
        forall j | 0 < j < |r|
          ensures r[j].group != l.group
        {
          assert r[j] == rest[j - 1];
          assert GroupOnceAt(rest, j - 1, seen', items, n);
        }
      }
    }
  }

  /** A layer of `rest` keeps its property behind a new front layer. */
  lemma ConsGroupOnceAt(l: Layer, rest: seq<Layer>, seen: set<string>, items: seq<(string, Hist)>, n: nat, i: nat)
    requires i < |rest| && GroupOnceAt(rest, i, if l.group == "" then seen else seen + {l.group}, items, n)
    ensures GroupOnceAt([l] + rest, i + 1, seen, items, n)
  {
    var r := [l] + rest;
    assert r[i + 1] == rest[i];
    forall j | i + 1 < j < |r|
      ensures r[j] == rest[j - 1]
    {
    }
  }

  /** Every reference layer has `n` bins when every candidate has. */
  lemma {:induction false} RefLayersConform(fs: seq<File>, seen: set<string>, items: seq<(string, Hist)>,
                                            groupStyles: map<string, PlotStyle>, n: nat)
    requires FilesConform(fs, n)
    ensures LayersConform(RefLayers(fs, seen, items, groupStyles, n), n)
  {
    if |fs| > 0 {
      var f := fs[0];
      var g := f.legendGroup;
      var options := StyleOf(f, groupStyles).drawingOptions;
      FilesConformTail(fs, n);
      if g == "" {
        RefLayersConform(fs[1..], seen, items, groupStyles, n);
        ConsConform(Layer(f.hist, options, g), RefLayers(fs[1..], seen, items, groupStyles, n), n);
      } else if g in seen || g !in Names(items) {
        RefLayersConform(fs[1..], seen, items, groupStyles, n);
      } else {
        TotalConforms(items, g, n);
        RefLayersConform(fs[1..], seen + {g}, items, groupStyles, n);
        ConsConform(Layer(Total(items, g, ZeroHist(n), HistPlus(n)), options, g),
                    RefLayers(fs[1..], seen + {g}, items, groupStyles, n), n);
      }
    }
  }

  lemma FilesConformTail(fs: seq<File>, n: nat)
    requires |fs| > 0 && FilesConform(fs, n)
    ensures Conforms(fs[0].hist, n) && FilesConform(fs[1..], n)
  {
    assert Conforms(fs[0].hist, n);
    forall k | 0 <= k < |fs| - 1
      ensures Conforms(fs[1..][k].hist, n)
    {
      assert fs[1..][k] == fs[k + 1];
    }
  }

  lemma ConsConform(l: Layer, rest: seq<Layer>, n: nat)
    requires Conforms(l.hist, n) && LayersConform(rest, n)
    ensures LayersConform([l] + rest, n)
  {
    forall k | 0 <= k < |rest| + 1
      ensures Conforms(([l] + rest)[k].hist, n)
    {
      if k > 0 {
        assert ([l] + rest)[k] == rest[k - 1];
      }
    }
  }

  /** A sum of histograms started from the empty one keeps its binning. */
  lemma {:induction false} TotalConforms(items: seq<(string, Hist)>, g: string, n: nat)
    ensures Conforms(Total(items, g, ZeroHist(n), HistPlus(n)), n)
  {
    if |items| > 0 {
      TotalConforms(items[..|items| - 1], g, n);
    }
  }

  /** Value of bin `i` of `h`, zero outside its range. */
  function BinOf(h: Hist, i: nat): real {
    if i < |h.contents| then h.contents[i] else 0.0
  }

  function Sumw2Of(h: Hist, i: nat): real {
    if i < |h.sumw2| then h.sumw2[i] else 0.0
  }

  /** Bin `i` of every layer, bottom to top. */
  function Column(layers: seq<Layer>, i: nat): (r: seq<real>)
    ensures |r| == |layers|
    ensures forall k :: 0 <= k < |layers| ==> r[k] == BinOf(layers[k].hist, i)
  {
    if |layers| == 0 then [] else Column(layers[..|layers| - 1], i) + [BinOf(layers[|layers| - 1].hist, i)]
  }

  /** Squared error of bin `i` of every layer, bottom to top. */
  function Sumw2Column(layers: seq<Layer>, i: nat): (r: seq<real>)
    ensures |r| == |layers|
    ensures forall k :: 0 <= k < |layers| ==> r[k] == Sumw2Of(layers[k].hist, i)
  {
    if |layers| == 0 then [] else Sumw2Column(layers[..|layers| - 1], i) + [Sumw2Of(layers[|layers| - 1].hist, i)]
  }

  predicate LayersConform(layers: seq<Layer>, n: nat) {
    forall k :: 0 <= k < |layers| ==> Conforms(layers[k].hist, n)
  }

  /** The statistical-only histogram: a clone of the bottom layer to which
      every other layer is added. */
  function StatOnly(layers: seq<Layer>, n: nat): (r: Hist)
    requires |layers| > 0 && LayersConform(layers, n)
    ensures Conforms(r, n)
    ensures forall i :: 0 <= i < n + 2 ==>
      r.contents[i] == Sum(Column(layers, i)) && r.sumw2[i] == Sum(Sumw2Column(layers, i))
  {
    var last := layers[|layers| - 1].hist;
    assert Conforms(last, n);
    if |layers| == 1 then
      SingleLayer(layers, n);
      last
    else
      var init := layers[..|layers| - 1];
      InitConform(layers, n);
      var below := StatOnly(init, n);
      StackOneMore(layers, below, n);
      AddHist(below, last)
  }

  lemma SingleLayer(layers: seq<Layer>, n: nat)
    requires |layers| == 1 && LayersConform(layers, n)
    ensures forall i :: 0 <= i < n + 2 ==>
      layers[0].hist.contents[i] == Sum(Column(layers, i)) && layers[0].hist.sumw2[i] == Sum(Sumw2Column(layers, i))
  {
    assert Conforms(layers[0].hist, n);
    forall i | 0 <= i < n + 2
      ensures layers[0].hist.contents[i] == Sum(Column(layers, i)) && layers[0].hist.sumw2[i] == Sum(Sumw2Column(layers, i))
    {
      assert Column(layers, i) == [layers[0].hist.contents[i]];
      assert Sumw2Column(layers, i) == [layers[0].hist.sumw2[i]];
    }
  }

  lemma InitConform(layers: seq<Layer>, n: nat)
    requires |layers| > 0 && LayersConform(layers, n)
    ensures LayersConform(layers[..|layers| - 1], n)
  {
    var init := layers[..|layers| - 1];
    forall k | 0 <= k < |init|
      ensures Conforms(init[k].hist, n)
    {
      assert init[k] == layers[k];
    }
  }

  /** Adding the top layer to the sum of the ones below it gives the sum of
      every layer, bin by bin. */
  lemma StackOneMore(layers: seq<Layer>, below: Hist, n: nat)
    requires |layers| > 1 && LayersConform(layers, n) && Conforms(below, n)
    requires forall i :: 0 <= i < n + 2 ==>
      below.contents[i] == Sum(Column(layers[..|layers| - 1], i)) && below.sumw2[i] == Sum(Sumw2Column(layers[..|layers| - 1], i))
    ensures forall i :: 0 <= i < n + 2 ==>
      && AddHist(below, layers[|layers| - 1].hist).contents[i] == Sum(Column(layers, i))
      && AddHist(below, layers[|layers| - 1].hist).sumw2[i] == Sum(Sumw2Column(layers, i))
  {
    assert Conforms(layers[|layers| - 1].hist, n);
    forall i | 0 <= i < n + 2
      ensures AddHist(below, layers[|layers| - 1].hist).contents[i] == Sum(Column(layers, i))
      ensures AddHist(below, layers[|layers| - 1].hist).sumw2[i] == Sum(Sumw2Column(layers, i))
    {
      StackBin(layers, below, n, i);
    }
  }

  /** Bin `i` of the stack grown by its top layer. */
  lemma StackBin(layers: seq<Layer>, below: Hist, n: nat, i: nat)
    requires |layers| > 1 && LayersConform(layers, n) && Conforms(below, n) && i < n + 2
    requires below.contents[i] == Sum(Column(layers[..|layers| - 1], i))
    requires below.sumw2[i] == Sum(Sumw2Column(layers[..|layers| - 1], i))
    ensures Conforms(layers[|layers| - 1].hist, n)
    ensures AddHist(below, layers[|layers| - 1].hist).contents[i] == Sum(Column(layers, i))
    ensures AddHist(below, layers[|layers| - 1].hist).sumw2[i] == Sum(Sumw2Column(layers, i))
  {
    var init, last := layers[..|layers| - 1], layers[|layers| - 1].hist;
    assert Conforms(last, n);
    assert Column(layers, i) == Column(init, i) + [last.contents[i]];
    assert Sumw2Column(layers, i) == Sumw2Column(init, i) + [last.sumw2[i]];
    SumAppend(Column(init, i), [last.contents[i]]);
    SumAppend(Sumw2Column(init, i), [last.sumw2[i]]);
  }

  /** The integral a layer is ordered by. */
  function Yield(l: Layer): real {
    if l.hist.Valid() then Integral(l.hist) else 0.0
  }

  /** The layers of stack `index` in file order, before any sorting. */
  function UnsortedLayers(files: seq<File>, index: int, groupStyles: map<string, PlotStyle>, n: nat): seq<Layer>
  {
    BuildLayers(GetFiles(files, f => StackCandidate(f, index)), GroupHistograms(files, index, n), groupStyles)
  }

  /** `buildStack(index, sortByYields)`: the layers, optionally ordered by
      ascending yield, and their sum; no stack at all when no layer is
      left. */
  function BuildStack(files: seq<File>, index: int, sortByYields: bool,
                      groupStyles: map<string, PlotStyle>, n: nat): (r: Option<Stack>)
    requires FilesConform(files, n)
    ensures r.None? <==> |UnsortedLayers(files, index, groupStyles, n)| == 0
  {
    var unsorted := UnsortedLayers(files, index, groupStyles, n);
    StackLayersAreReference(files, index, groupStyles, n);
    var layers := if sortByYields then SortBy(unsorted, Yield) else unsorted;
    PermutedLayersConform(unsorted, layers, n);
    if |layers| == 0 then None else Some(Stack(layers, StatOnly(layers, n)))
  }

  lemma PermutedLayersConform(a: seq<Layer>, b: seq<Layer>, n: nat)
    requires LayersConform(a, n) && multiset(a) == multiset(b)
    ensures LayersConform(b, n)
  {
    forall k | 0 <= k < |b|
      ensures Conforms(b[k].hist, n)
    {
      assert b[k] in multiset(a);
    }
  }

  /** What a built stack holds: its layers are the unsorted layers, or a
      permutation of them ordered by ascending yield; every layer has `n`
      bins; and the statistical-only histogram is their bin-wise sum. */
  lemma BuildStackLayers(files: seq<File>, index: int, sortByYields: bool,
                         groupStyles: map<string, PlotStyle>, n: nat)
    requires FilesConform(files, n)
    ensures var r := BuildStack(files, index, sortByYields, groupStyles, n);
      var unsorted := UnsortedLayers(files, index, groupStyles, n);
      r.Some? ==>
        && multiset(r.value.layers) == multiset(unsorted)
        && (sortByYields ==> SortedBy(r.value.layers, Yield))
        && (!sortByYields ==> r.value.layers == unsorted)
        && LayersConform(r.value.layers, n)
        && Conforms(r.value.statOnly, n)
        && forall i :: 0 <= i < n + 2 ==>
             && r.value.statOnly.contents[i] == Sum(Column(r.value.layers, i))
             && r.value.statOnly.sumw2[i] == Sum(Sumw2Column(r.value.layers, i))
  {
    StackLayersAreReference(files, index, groupStyles, n);
    var unsorted := UnsortedLayers(files, index, groupStyles, n);
    if sortByYields {
      PermutedLayersConform(unsorted, SortBy(unsorted, Yield), n);
    }
  }

  /** The stack's unsorted layers are the reference layers of its
      candidates, and each has `n` bins. */
  lemma StackLayersAreReference(files: seq<File>, index: int, groupStyles: map<string, PlotStyle>, n: nat)
    requires FilesConform(files, n)
    ensures var items := GroupItems(GetFiles(files, f => GroupMember(f, index)));
      && UnsortedLayers(files, index, groupStyles, n)
         == RefLayers(GetFiles(files, f => StackCandidate(f, index)), {}, items, groupStyles, n)
      && LayersConform(UnsortedLayers(files, index, groupStyles, n), n)
  {
    var members := GetFiles(files, f => GroupMember(f, index));
    var items := GroupItems(members);
    var candidates := GetFiles(files, f => StackCandidate(f, index));
    assert forall k :: 0 <= k < |items| ==> items[k].0 != "" by {
      forall k | 0 <= k < |items|
        ensures items[k].0 != ""
      {
        assert GroupMember(members[k], index);
      }
    }
    WithoutNothing(Tally(items, ZeroHist(n), HistPlus(n)));
    LayersMatchReference(candidates, {}, items, groupStyles, n);
    assert FilesConform(candidates, n) by {
      forall k | 0 <= k < |candidates|
        ensures Conforms(candidates[k].hist, n)
      {
        var j :| 0 <= j < |files| && files[j] == candidates[k];
      }
    }
    RefLayersConform(candidates, {}, items, groupStyles, n);
  }

  /** Each legend group is drawn at most once in a stack, as the sum of its
      members with entries. */
  lemma StackGroupsAppearOnce(files: seq<File>, index: int, groupStyles: map<string, PlotStyle>, n: nat)
    requires FilesConform(files, n)
    ensures GroupsOnce(UnsortedLayers(files, index, groupStyles, n), {},
                       GroupItems(GetFiles(files, f => GroupMember(f, index))), n)
  {
    var items := GroupItems(GetFiles(files, f => GroupMember(f, index)));
    StackLayersAreReference(files, index, groupStyles, n);
    GroupsAppearOnce(GetFiles(files, f => StackCandidate(f, index)), {}, items, groupStyles, n);
  }

  // ---------------------------------------------------------------------
  // All stacks

  predicate StrictlyIncreasing(s: seq<int>) {
    forall i, j :: 0 <= i < j < |s| ==> s[i] < s[j]
  }

  /** `x` added to a strictly increasing sequence, unless already there. */
  function InsertUnique(x: int, s: seq<int>): (r: seq<int>)
    requires StrictlyIncreasing(s)
    ensures StrictlyIncreasing(r)
    ensures forall y :: y in r <==> y == x || y in s
  {
    if |s| == 0 then [x]
    else if x < s[0] then [x] + s
    else if x == s[0] then s
    else
      var rest := InsertUnique(x, s[1..]);
      assert forall y :: y in s <==> y == s[0] || y in s[1..];
      assert forall k :: 0 <= k < |rest| ==> s[0] < rest[k] by {
        forall k | 0 <= k < |rest|
          ensures s[0] < rest[k]
        {
          assert rest[k] in rest;
          if rest[k] != x {
            var j :| 0 <= j < |s[1..]| && s[1..][j] == rest[k];
            assert s[j + 1] == rest[k];
          }
        }
      }
      [s[0]] + rest
  }

  /** The `std::set` of stack indices of the simulation files, ascending. */
  function StackIndices(files: seq<File>): (r: seq<int>)
    ensures StrictlyIncreasing(r)
    ensures forall x :: x in r <==> exists k :: 0 <= k < |files| && files[k].typ == MC && files[k].stackIndex == x
  {
    if |files| == 0 then []
    else
      var init := StackIndices(files[..|files| - 1]);
      var last := files[|files| - 1];
      assert forall k :: 0 <= k < |files| - 1 ==> files[..|files| - 1][k] == files[k];
      if last.typ == MC then InsertUnique(last.stackIndex, init) else init
  }

  /** The elements of `indices` that satisfy `keep`, in order. */
  function KeepIndices(indices: seq<int>, keep: int -> bool): (r: seq<int>)
    ensures |r| <= |indices|
    ensures forall k :: 0 <= k < |r| ==> keep(r[k])
  {
    if |indices| == 0 then []
    else
      var rest := KeepIndices(indices[1..], keep);
      if keep(indices[0]) then [indices[0]] + rest else rest
  }

  /** An index is kept exactly when it is one of `indices` and satisfies
      `keep`. */
  lemma {:induction false} KeepIndicesMembers(indices: seq<int>, keep: int -> bool)
    ensures forall i :: i in KeepIndices(indices, keep) <==> i in indices && keep(i)
  {
    if |indices| > 0 {
      KeepIndicesMembers(indices[1..], keep);
      assert forall i :: i in indices <==> i == indices[0] || i in indices[1..];
    }
  }

  /** Increasing indices stay increasing once filtered. */
  lemma {:induction false} KeepIndicesIncreasing(indices: seq<int>, keep: int -> bool)
    requires StrictlyIncreasing(indices)
    ensures StrictlyIncreasing(KeepIndices(indices, keep))
  {
    if |indices| > 0 {
      var rest := KeepIndices(indices[1..], keep);
      assert StrictlyIncreasing(indices[1..]);
      KeepIndicesIncreasing(indices[1..], keep);
      KeepIndicesMembers(indices[1..], keep);
      forall k | 0 <= k < |rest|
        ensures indices[0] < rest[k]
      {
        assert rest[k] in indices[1..];
        var j :| 0 <= j < |indices| - 1 && indices[1..][j] == rest[k];
        assert indices[j + 1] == rest[k];
      }
      var r := KeepIndices(indices, keep);
      if keep(indices[0]) {
        assert r == [indices[0]] + rest;
        forall k, l | 0 <= k < l < |r|
          ensures r[k] < r[l]
        {
          assert r[l] == rest[l - 1];
          if k > 0 {
            assert r[k] == rest[k - 1];
          }
        }
      }
    }
  }

  /** The stack indices whose stack is not empty, ascending. */
  function PresentIndices(eraFiles: seq<File>, files: seq<File>, sortByYields: bool,
                          groupStyles: map<string, PlotStyle>, n: nat): (r: seq<int>)
    requires FilesConform(files, n)
    ensures forall k :: 0 <= k < |r| ==> BuildStack(files, r[k], sortByYields, groupStyles, n).Some?
  {
    KeepIndices(StackIndices(eraFiles), i => BuildStack(files, i, sortByYields, groupStyles, n).Some?)
  }

  /** `buildStacks(sortByYields)`: one stack per stack index of the
      simulation files of the configured eras, ascending, keeping only the
      non-empty ones. The members of each stack are taken among all files. */
  function BuildStacks(eraFiles: seq<File>, files: seq<File>, sortByYields: bool,
                       groupStyles: map<string, PlotStyle>, n: nat): (r: seq<(int, Stack)>)
    requires FilesConform(files, n)
    ensures var present := PresentIndices(eraFiles, files, sortByYields, groupStyles, n);
      && |r| == |present|
      && forall k :: 0 <= k < |r| ==>
           r[k].0 == present[k] && BuildStack(files, r[k].0, sortByYields, groupStyles, n) == Some(r[k].1)
  {
    var present := PresentIndices(eraFiles, files, sortByYields, groupStyles, n);
    seq(|present|, k requires 0 <= k < |present| =>
      (present[k], BuildStack(files, present[k], sortByYields, groupStyles, n).value))
  }

  /** The stacks come in strictly ascending index order, and an index has a
      stack exactly when some simulation file of the configured eras has
      that index and its stack is not empty. */
  lemma BuildStacksIndices(eraFiles: seq<File>, files: seq<File>, sortByYields: bool,
                           groupStyles: map<string, PlotStyle>, n: nat)
    requires FilesConform(files, n)
    ensures var r := BuildStacks(eraFiles, files, sortByYields, groupStyles, n);
      && (forall k, l :: 0 <= k < l < |r| ==> r[k].0 < r[l].0)
      && (forall i :: (exists k :: 0 <= k < |r| && r[k].0 == i) <==>
            (exists j :: 0 <= j < |eraFiles| && eraFiles[j].typ == MC && eraFiles[j].stackIndex == i)
            && BuildStack(files, i, sortByYields, groupStyles, n).Some?)
  {
    var indices := StackIndices(eraFiles);
    var present := PresentIndices(eraFiles, files, sortByYields, groupStyles, n);
    KeepIndicesMembers(indices, i => BuildStack(files, i, sortByYields, groupStyles, n).Some?);
    KeepIndicesIncreasing(indices, i => BuildStack(files, i, sortByYields, groupStyles, n).Some?);
    var r := BuildStacks(eraFiles, files, sortByYields, groupStyles, n);
    assert StrictlyIncreasing(present);
    forall k, l | 0 <= k < l < |r|
      ensures r[k].0 < r[l].0
    {
      assert r[k].0 == present[k] && r[l].0 == present[l];
    }
    forall i
      ensures (exists k :: 0 <= k < |r| && r[k].0 == i) <==>
              (exists j :: 0 <= j < |eraFiles| && eraFiles[j].typ == MC && eraFiles[j].stackIndex == i)
              && BuildStack(files, i, sortByYields, groupStyles, n).Some?
    {
      assert i in present <==> i in indices && BuildStack(files, i, sortByYields, groupStyles, n).Some?;
      if i in present {
        var k :| 0 <= k < |present| && present[k] == i;
        assert r[k].0 == i;
      }
      if exists k :: 0 <= k < |r| && r[k].0 == i {
        var k :| 0 <= k < |r| && r[k].0 == i;
        assert present[k] == i;
      }
    }
  }
}

=== FILE: summary.dfy ===
/** The yield summary: nominal items per file type and systematic items per
    (file type, process), both append-only, and the totals the console
    printer derives from them. */
module Summaries {
  import opened Wrappers
  import opened Vectors
  import opened Tallies
  import opened Types

  /** Integrated yield of one process, or one systematic contribution to
      it, with its uncertainties. */
  datatype SummaryItem = SummaryItem(
    name: string,
    processId: nat,
    events: real,
    eventsUncertainty: real,
    eventsUncertaintyUp: real,
    eventsUncertaintyDown: real,
    efficiency: real,
    efficiencyUncertainty: real)

  /** The two maps of `Summary`: nominal items by type, systematic items
      by (type, process id). */
  datatype Summary = Summary(
    items: map<FileType, seq<SummaryItem>>,
    systematics: map<(FileType, nat), seq<SummaryItem>>)

  const EmptySummary: Summary := Summary(map[], map[])

  /** `get(type)`: the nominal items of that type, none if never added. */
  function Get(s: Summary, t: FileType): (r: seq<SummaryItem>)
    ensures t !in s.items ==> r == []
  {
    if t in s.items then s.items[t] else []
  }

  /** `getSystematics(type, id)`: the systematic items of that process,
      none if never added. */
  function GetSystematics(s: Summary, t: FileType, id: nat): (r: seq<SummaryItem>)
    ensures (t, id) !in s.systematics ==> r == []
  {
    if (t, id) in s.systematics then s.systematics[(t, id)] else []
  }

  /** `add(type, item)`: appends to the items of that type only. */
  function Add(s: Summary, t: FileType, item: SummaryItem): (r: Summary)
    ensures Get(r, t) == Get(s, t) + [item]
    ensures forall u :: u != t ==> Get(r, u) == Get(s, u)
    ensures forall u, id: nat :: GetSystematics(r, u, id) == GetSystematics(s, u, id)
  {
    s.(items := s.items[t := Get(s, t) + [item]])
  }

  /** `addSystematics(type, id, item)`: appends to the items of that
      process only. */
  function AddSystematics(s: Summary, t: FileType, id: nat, item: SummaryItem): (r: Summary)
    ensures GetSystematics(r, t, id) == GetSystematics(s, t, id) + [item]
    ensures forall u, j: nat :: (u, j) != (t, id) ==> GetSystematics(r, u, j) == GetSystematics(s, u, j)
    ensures forall u :: Get(r, u) == Get(s, u)
  {
    s.(systematics := s.systematics[(t, id) := GetSystematics(s, t, id) + [item]])
  }

  /** One call made on a summary. */
  datatype Op =
    | AddOp(t: FileType, item: SummaryItem)
    | AddSystematicsOp(t: FileType, id: nat, item: SummaryItem)

  /** The summary after the calls `ops`, in order. */
  function Replay(s: Summary, ops: seq<Op>): Summary
  {
    if |ops| == 0 then s
    else
      var s' := Replay(s, ops[..|ops| - 1]);
      match ops[|ops| - 1]
      case AddOp(t, item) => Add(s', t, item)
      case AddSystematicsOp(t, id, item) => AddSystematics(s', t, id, item)
  }

  /** Reference: the items of the `add` calls of type `t`, in order. */
  function AddedItems(ops: seq<Op>, t: FileType): seq<SummaryItem>
  {
    if |ops| == 0 then []
    else
      var init := AddedItems(ops[..|ops| - 1], t);
      var op := ops[|ops| - 1];
      if op.AddOp? && op.t == t then init + [op.item] else init
  }

  /** Reference: the items of the `addSystematics` calls for `(t, id)`, in
      order. */
  function AddedSystematics(ops: seq<Op>, t: FileType, id: nat): seq<SummaryItem>
  {
    if |ops| == 0 then []
    else
      var init := AddedSystematics(ops[..|ops| - 1], t, id);
      var op := ops[|ops| - 1];
      if op.AddSystematicsOp? && op.t == t && op.id == id then init + [op.item] else init
  }

  /** Starting from an empty summary, each getter returns exactly the items
      passed to its own adder with that key, in insertion order, whatever
      calls to the other adder are interleaved. */
  lemma {:induction false} ReplayGet(ops: seq<Op>, t: FileType, id: nat)
    ensures Get(Replay(EmptySummary, ops), t) == AddedItems(ops, t)
    ensures GetSystematics(Replay(EmptySummary, ops), t, id) == AddedSystematics(ops, t, id)
  {
    if |ops| > 0 {
      ReplayGet(ops[..|ops| - 1], t, id);
    }
  }

  /** Appending the systematic items of `ops` for their (type, id) keys. */
  function AddAllSystematics(s: Summary, ops: seq<(FileType, nat, SummaryItem)>): (r: Summary)
    ensures forall u :: Get(r, u) == Get(s, u)
  {
    if |ops| == 0 then s
    else
      var (t, id, item) := ops[|ops| - 1];
      AddSystematics(AddAllSystematics(s, ops[..|ops| - 1]), t, id, item)
  }

  /** The items of `ops` filed under `(t, id)`, in order. */
  function ItemsFor(ops: seq<(FileType, nat, SummaryItem)>, t: FileType, id: nat): seq<SummaryItem>
  {
    if |ops| == 0 then []
    else
      var init := ItemsFor(ops[..|ops| - 1], t, id);
      var op := ops[|ops| - 1];
      if op.0 == t && op.1 == id then init + [op.2] else init
  }

  lemma {:induction false} AddAllSystematicsGet(s: Summary, ops: seq<(FileType, nat, SummaryItem)>, t: FileType, id: nat)
    ensures GetSystematics(AddAllSystematics(s, ops), t, id) == GetSystematics(s, t, id) + ItemsFor(ops, t, id)
  {
    if |ops| > 0 {
      AddAllSystematicsGet(s, ops[..|ops| - 1], t, id);
    }
  }

  // ---------------------------------------------------------------------
  // Printed totals

  /** What `printItems` computes for one type: the summed yield, the
      summed squared statistical uncertainty, the per-name sums of the
      systematic uncertainties, the squared total uncertainty (none for
      signal, which prints no total), and for each nominal item the squared
      uncertainty of its breakdown when one is printed. */
  datatype Totals = Totals(
    events: real,
    statSq: real,
    systematics: seq<(string, real)>,
    totalSq: Option<real>,
    breakdownSq: seq<Option<real>>)

  /** The (name, uncertainty) pairs of a list of systematic items. */
  function NamedUncertainties(items: seq<SummaryItem>): (r: seq<(string, real)>)
    ensures |r| == |items|
    ensures forall k :: 0 <= k < |items| ==> r[k] == (items[k].name, items[k].eventsUncertainty)
  {
    if |items| == 0 then [] else NamedUncertainties(items[..|items| - 1]) + [(items[|items| - 1].name, items[|items| - 1].eventsUncertainty)]
  }

  /** Every systematic item of every nominal process, in printing order. */
  function SystematicsOf(s: Summary, t: FileType, nominal: seq<SummaryItem>): seq<(string, real)>
  {
    if |nominal| == 0 then []
    else SystematicsOf(s, t, nominal[..|nominal| - 1])
         + NamedUncertainties(GetSystematics(s, t, nominal[|nominal| - 1].processId))
  }

  function RealPlus(a: real, b: real): real { a + b }

  /** Sum of the squared uncertainties of a list of items. */
  function UncertaintySq(items: seq<SummaryItem>): (r: real)
    ensures r >= 0.0
  {
    if |items| == 0 then 0.0
    else
      var u := items[|items| - 1].eventsUncertainty;
      UncertaintySq(items[..|items| - 1]) + u * u
  }

  function EventsSum(items: seq<SummaryItem>): real
  {
    if |items| == 0 then 0.0 else EventsSum(items[..|items| - 1]) + items[|items| - 1].events
  }

  /** Sum of the squares of the values of an association list. */
  function SquaresOfValues(acc: seq<(string, real)>): (r: real)
    ensures r >= 0.0
  {
    if |acc| == 0 then 0.0 else SquaresOfValues(acc[..|acc| - 1]) + acc[|acc| - 1].1 * acc[|acc| - 1].1
  }

  /** The squared uncertainty of one process's breakdown, printed only when
      systematics are not combined and the process has systematic items:
      the statistical uncertainty and every systematic item's uncertainty
      added in quadrature. */
  function BreakdownSq(s: Summary, t: FileType, item: SummaryItem, combine: bool): (r: Option<real>)
    ensures r.Some? <==> !combine && |GetSystematics(s, t, item.processId)| > 0
    ensures r.Some? ==> r.value >= item.eventsUncertainty * item.eventsUncertainty
    ensures r.Some? ==> r.value == item.eventsUncertainty * item.eventsUncertainty
                                   + UncertaintySq(GetSystematics(s, t, item.processId))
  {
    var systs := GetSystematics(s, t, item.processId);
    if !combine && |systs| > 0 then Some(item.eventsUncertainty * item.eventsUncertainty + UncertaintySq(systs))
    else None
  }

  function Breakdowns(s: Summary, t: FileType, nominal: seq<SummaryItem>, combine: bool): (r: seq<Option<real>>)
    ensures |r| == |nominal|
    ensures forall k :: 0 <= k < |nominal| ==> r[k] == BreakdownSq(s, t, nominal[k], combine)
  {
    if |nominal| == 0 then []
    else Breakdowns(s, t, nominal[..|nominal| - 1], combine) + [BreakdownSq(s, t, nominal[|nominal| - 1], combine)]
  }

  /** `printItems(type, summary, combineSystematics)`: nothing when the type
      has no nominal item. Systematics of the same name are summed across
      processes. For simulation with systematics the total adds the squares
      of those sums to the statistical part; data keeps the statistical
      part only; signal has no total. */
  function PrintItems(s: Summary, t: FileType, combine: bool): (r: Option<Totals>)
    ensures r.None? <==> |Get(s, t)| == 0
    ensures r.Some? ==>
      && r.value.events == EventsSum(Get(s, t))
      && r.value.statSq == UncertaintySq(Get(s, t))
      && (t == Signal <==> r.value.totalSq.None?)
      && (t == Data ==> r.value.totalSq == Some(r.value.statSq))
      && (t == MC ==> r.value.totalSq == Some(r.value.statSq + SquaresOfValues(r.value.systematics)))
      && |r.value.breakdownSq| == |Get(s, t)|
    ensures r.Some? ==> forall k :: 0 <= k < |Get(s, t)| ==>
      r.value.breakdownSq[k] == BreakdownSq(s, t, Get(s, t)[k], combine)
  {
    var nominal := Get(s, t);
    if |nominal| == 0 then None
    else
      var systematics := Tally(SystematicsOf(s, t, nominal), 0.0, RealPlus);
      var statSq := UncertaintySq(nominal);
      var totalSq :=
        if t == Signal then None
        else if t == MC && |systematics| > 0 then Some(statSq + SquaresOfValues(systematics))
        else Some(statSq);
      Some(Totals(EventsSum(nominal), statSq, systematics, totalSq, Breakdowns(s, t, nominal, combine)))
  }

  /** The per-name sums are the reference sums of every systematic item
      with that name across the processes, one entry per distinct name; so
      the simulation total is the statistical part plus the sum over names
      of the squared per-name sums, which is never below the statistical
      part. */
  lemma PrintItemsTotals(s: Summary, t: FileType, combine: bool)
    requires |Get(s, t)| > 0
    ensures var r := PrintItems(s, t, combine).value;
      var all := SystematicsOf(s, t, Get(s, t));
      && |r.systematics| == |Names(all)|
      && (forall k :: 0 <= k < |r.systematics| ==>
            r.systematics[k] == (Names(all)[k], Total(all, Names(all)[k], 0.0, RealPlus)))
      && (t == MC ==> r.totalSq.value >= r.statSq)
  {
    TallyIsTotals(SystematicsOf(s, t, Get(s, t)), 0.0, RealPlus);
  }

  /** With no systematic item the printed simulation total is the
      statistical uncertainty alone. */
  lemma NoSystematicsTotalIsStatistical(s: Summary, combine: bool)
    requires |Get(s, MC)| > 0
    requires forall k :: 0 <= k < |Get(s, MC)| ==> GetSystematics(s, MC, Get(s, MC)[k].processId) == []
    ensures PrintItems(s, MC, combine).value.totalSq == Some(UncertaintySq(Get(s, MC)))
  {
    var nominal := Get(s, MC);
    NoSystematicsOf(s, nominal);
  }

  lemma {:induction false} NoSystematicsOf(s: Summary, nominal: seq<SummaryItem>)
    requires forall k :: 0 <= k < |nominal| ==> GetSystematics(s, MC, nominal[k].processId) == []
    ensures SystematicsOf(s, MC, nominal) == []
  {
    if |nominal| > 0 {
      var init := nominal[..|nominal| - 1];
      assert forall k :: 0 <= k < |init| ==> init[k] == nominal[k];
      NoSystematicsOf(s, init);
      assert GetSystematics(s, MC, nominal[|nominal| - 1].processId) == [];
    }
  }
}

=== FILE: systematics.dfy ===
/** Systematic uncertainty sources and the per-file sets of shapes they
    produce. A set keeps the "true" shapes it was created with and rebuilds
    its working shapes (nominal, up, down) from them whenever it is updated,
    so rescaling the working shapes never accumulates. */
module Systematics {
  import opened Wrappers
  import opened Vectors
  import opened Histograms
  import opened Yaml

  /** Parameters of a log-normal source, as read from the configuration. */
  datatype LogNormalParams = LogNormalParams(prior: Float, postfit: Float, errorUp: Float, errorDown: Float)

  /** The kind of a source and what it needs to build its variations. The
      log-normal factors come from an evaluation of the parameters with
      `exp` and `log` that is not part of this model. */
  datatype Kind =
    | Constant(value: Float)
    | LogNormal(params: LogNormalParams, factorUp: real, factorDown: real)
    | Shape(extSumWeightUp: Float, extSumWeightDown: Float)

  /** A systematic source. `on` is the pattern of file names it applies to. */
  datatype Systematic = Systematic(name: string, prettyName: string, on: string, kind: Kind)

  /** The shapes of one source for one file. The working shapes are absent
      until the set is first updated. */
  datatype SystematicSet = SystematicSet(
    source: Systematic,
    trueNominal: Hist, trueUp: Hist, trueDown: Hist,
    nominal: Option<Hist>, up: Option<Hist>, down: Option<Hist>)
  {
    /** The true shapes share one binning; so do the working shapes present. */
    predicate Valid() {
      && trueNominal.Valid()
      && Conforms(trueUp, trueNominal.NBins())
      && Conforms(trueDown, trueNominal.NBins())
      && (nominal.Some? ==> Conforms(nominal.value, trueNominal.NBins()))
      && (up.Some? ==> Conforms(up.value, trueNominal.NBins()))
      && (down.Some? ==> Conforms(down.value, trueNominal.NBins()))
    }
  }

  /** A shape scaled by `f` when present. */
  function ScaleShape(h: Option<Hist>, f: real): (r: Option<Hist>)
    ensures r.Some? <==> h.Some?
    ensures h.Some? ==> r.value == ScaleHist(h.value, f)
  {
    match h
    case None => None
    case Some(x) => Some(ScaleHist(x, f))
  }

  /** `SystematicSet::scale`: every working shape that is present is scaled
      by `factor`; absent shapes stay absent and the true shapes are kept. */
  function ScaleSet(s: SystematicSet, factor: real): (r: SystematicSet)
    requires s.Valid()
    ensures r.Valid()
    ensures r.source == s.source
    ensures r.trueNominal == s.trueNominal && r.trueUp == s.trueUp && r.trueDown == s.trueDown
    ensures r.nominal.Some? <==> s.nominal.Some?
    ensures r.up.Some? <==> s.up.Some?
    ensures r.down.Some? <==> s.down.Some?
    ensures s.nominal.Some? ==> r.nominal.value == ScaleHist(s.nominal.value, factor)
    ensures s.up.Some? ==> r.up.value == ScaleHist(s.up.value, factor)
    ensures s.down.Some? ==> r.down.value == ScaleHist(s.down.value, factor)
  {
    s.(nominal := ScaleShape(s.nominal, factor),
       up := ScaleShape(s.up, factor),
       down := ScaleShape(s.down, factor))
  }

  /** `Systematic::newSet`: a fresh set whose three true shapes are all the
      nominal histogram. */
  function NewSet(source: Systematic, nominal: Hist): (r: SystematicSet)
    requires nominal.Valid()
    ensures r.Valid()
    ensures r.source == source
    ensures r.trueNominal == nominal && r.trueUp == nominal && r.trueDown == nominal
    ensures r.nominal.None? && r.up.None? && r.down.None?
  {
    SystematicSet(source, nominal, nominal, nominal, None, None, None)
  }

  /** The source's kind has no NaN factor, so its variations are real
      histograms. */
  predicate FiniteKind(k: Kind) {
    k.Constant? ==> k.value.Some?
  }

  /** `SystematicSet::update`, i.e. the source's `apply`: the working shapes
      are rebuilt from the true shapes, then a constant source scales up by
      its value and down by two minus its value, and a log-normal source
      scales them by its two factors. */
  function Update(s: SystematicSet): (r: SystematicSet)
    requires s.Valid() && FiniteKind(s.source.kind)
    ensures r.Valid()
    ensures r.source == s.source
    ensures r.trueNominal == s.trueNominal && r.trueUp == s.trueUp && r.trueDown == s.trueDown
    ensures r.nominal == Some(s.trueNominal)
    ensures r.up.Some? && r.down.Some?
    ensures s.source.kind.Shape? ==> r.up == Some(s.trueUp) && r.down == Some(s.trueDown)
    ensures s.source.kind.Constant? ==>
      var v := s.source.kind.value.value;
      && (forall i :: 0 <= i < |s.trueUp.contents| ==> r.up.value.contents[i] == v * s.trueUp.contents[i])
      && (forall i :: 0 <= i < |s.trueDown.contents| ==> r.down.value.contents[i] == (2.0 - v) * s.trueDown.contents[i])
    ensures s.source.kind.LogNormal? ==>
      && (forall i :: 0 <= i < |s.trueUp.contents| ==> r.up.value.contents[i] == s.source.kind.factorUp * s.trueUp.contents[i])
      && (forall i :: 0 <= i < |s.trueDown.contents| ==> r.down.value.contents[i] == s.source.kind.factorDown * s.trueDown.contents[i])
  {
    match s.source.kind
    case Shape(_, _) => s.(nominal := Some(s.trueNominal), up := Some(s.trueUp), down := Some(s.trueDown))
    case Constant(v) =>
      s.(nominal := Some(s.trueNominal),
         up := Some(ScaleHist(s.trueUp, v.value)),
         down := Some(ScaleHist(s.trueDown, 2.0 - v.value)))
    case LogNormal(_, fUp, fDown) =>
      s.(nominal := Some(s.trueNominal),
         up := Some(ScaleHist(s.trueUp, fUp)),
         down := Some(ScaleHist(s.trueDown, fDown)))
  }

  /** Updating twice is updating once: the working shapes depend only on
      the true shapes. */
  lemma UpdateIdempotent(s: SystematicSet)
    requires s.Valid() && FiniteKind(s.source.kind)
    ensures Update(Update(s)) == Update(s)
  {
  }

  /** Updating after scaling forgets the scaling. */
  lemma UpdateForgetsScale(s: SystematicSet, factor: real)
    requires s.Valid() && FiniteKind(s.source.kind)
    ensures Update(ScaleSet(s, factor)) == Update(s)
  {
  }

  /** A shape source whose set was made from the nominal alone varies
      nothing: up and down equal nominal. */
  lemma DefaultSetHasNoVariation(source: Systematic, nominal: Hist)
    requires nominal.Valid() && source.kind.Shape?
    ensures var r := Update(NewSet(source, nominal));
      r.nominal == r.up == r.down == Some(nominal)
  {
  }

  /** For a constant source on a fresh set, the up and down deltas are
      opposite in every bin. */
  lemma ConstantDeltasOpposite(source: Systematic, nominal: Hist)
    requires nominal.Valid() && source.kind.Constant? && source.kind.value.Some?
    ensures var r := Update(NewSet(source, nominal));
      forall i :: 0 <= i < |nominal.contents| ==>
        r.up.value.contents[i] - nominal.contents[i] == -(r.down.value.contents[i] - nominal.contents[i])
  {
    var v := source.kind.value.value;
    var r := Update(NewSet(source, nominal));
    forall i | 0 <= i < |nominal.contents|
      ensures r.up.value.contents[i] - nominal.contents[i] == -(r.down.value.contents[i] - nominal.contents[i])
    {
      assert r.up.value.contents[i] == v * nominal.contents[i];
      assert r.down.value.contents[i] == (2.0 - v) * nominal.contents[i];
    }
  }

  // ---------------------------------------------------------------------
  // Reading sources from the configuration

  /** `ConstantSystematic(node)`: a scalar node is the value itself, any
      other node must hold a numeric "value" key. */
  function ConstantFromNode(node: Node): (r: Result<Float>)
    ensures node.Scalar? ==> r == node.AsFloat()
    ensures !node.Scalar? ==> r == node.Get("value").AsFloat()
    ensures r.Success? ==> (node.Scalar? && node.number == Some(r.value))
                           || (node.Map? && node.Get("value").Scalar? && node.Get("value").number == Some(r.value))
  {
    if node.Scalar? then node.AsFloat() else node.Get("value").AsFloat()
  }

  /** Reads an optional float key, keeping `default` when it is absent. */
  function OptionalFloat(node: Node, key: string, default: Float): (r: Result<Float>)
    ensures !node.Get(key).IsDefined() ==> r == Success(default)
    ensures node.Get(key).IsDefined() ==> r == node.Get(key).AsFloat()
  {
    if node.Get(key).IsDefined() then node.Get(key).AsFloat() else Success(default)
  }

  /** An optional key is either absent or holds a float. */
  predicate OptionalParses(node: Node, key: string) {
    !node.Get(key).IsDefined() || node.Get(key).AsFloat().Success?
  }

  /** `LogNormalSystematic(node)`: a scalar is the prior; otherwise "prior"
      is required, "post-fit" defaults to 0, both errors default to 1,
      "post-fit-error" sets both errors and the "-up"/"-down" keys override
      one side each. */
  function LogNormalFromNode(node: Node): (r: Result<LogNormalParams>)
    ensures node.Scalar? ==>
      (r.Success? <==> node.AsFloat().Success?)
      && (r.Success? ==> r.value == LogNormalParams(node.AsFloat().value, Some(0.0), Some(1.0), Some(1.0)))
    ensures !node.Scalar? && r.Success? ==>
      && node.Get("prior").AsFloat() == Success(r.value.prior)
      && (!node.Get("post-fit").IsDefined() ==> r.value.postfit == Some(0.0))
      && (node.Get("post-fit").IsDefined() ==> node.Get("post-fit").AsFloat() == Success(r.value.postfit))
      && (node.Get("post-fit-error-up").IsDefined() ==> node.Get("post-fit-error-up").AsFloat() == Success(r.value.errorUp))
      && (node.Get("post-fit-error-down").IsDefined() ==> node.Get("post-fit-error-down").AsFloat() == Success(r.value.errorDown))
      && (!node.Get("post-fit-error-up").IsDefined() && node.Get("post-fit-error").IsDefined() ==>
            node.Get("post-fit-error").AsFloat() == Success(r.value.errorUp))
      && (!node.Get("post-fit-error-up").IsDefined() && !node.Get("post-fit-error").IsDefined() ==>
            r.value.errorUp == Some(1.0))
      && (!node.Get("post-fit-error-down").IsDefined() && node.Get("post-fit-error").IsDefined() ==>
            node.Get("post-fit-error").AsFloat() == Success(r.value.errorDown))
      && (!node.Get("post-fit-error-down").IsDefined() && !node.Get("post-fit-error").IsDefined() ==>
            r.value.errorDown == Some(1.0))
    ensures !node.Scalar? ==>
      (r.Success? <==> node.Get("prior").AsFloat().Success? && OptionalParses(node, "post-fit")
                       && OptionalParses(node, "post-fit-error") && OptionalParses(node, "post-fit-error-up")
                       && OptionalParses(node, "post-fit-error-down"))
  {
    if node.Scalar? then
      var prior :- node.AsFloat();
      Success(LogNormalParams(prior, Some(0.0), Some(1.0), Some(1.0)))
    else
      var prior :- node.Get("prior").AsFloat();
      var postfit :- OptionalFloat(node, "post-fit", Some(0.0));
      var both :- OptionalFloat(node, "post-fit-error", Some(1.0));
      var errUp :- OptionalFloat(node, "post-fit-error-up", both);
      var errDown :- OptionalFloat(node, "post-fit-error-down", both);
      Success(LogNormalParams(prior, postfit, errUp, errDown))
  }

  /** `ShapeSystematic(node)`: external sums of weights, 1 unless given. */
  function ShapeFromNode(node: Node): (r: Result<Kind>)
    ensures r.Success? ==> r.value.Shape?
    ensures r.Success? && !node.Get("ext-sum-weight-up").IsDefined() ==> r.value.extSumWeightUp == Some(1.0)
    ensures r.Success? && !node.Get("ext-sum-weight-down").IsDefined() ==> r.value.extSumWeightDown == Some(1.0)
    ensures !node.Map? ==> r == Success(Shape(Some(1.0), Some(1.0)))
  {
    var up :- OptionalFloat(node, "ext-sum-weight-up", Some(1.0));
    var down :- OptionalFloat(node, "ext-sum-weight-down", Some(1.0));
    Success(Shape(up, down))
  }

  /** Is `typ` one of the names `Create` accepts? Matching is exact. */
  predicate KnownType(typ: string) {
    typ == "const" || typ == "lognormal" || typ == "ln" || typ == "shape"
  }

  /** `SystematicFactory::create`. "const", "lognormal"/"ln" and "shape"
      choose the kind (case-sensitively); any other type is an error. The
      pretty name is the name and the file pattern ".*" unless a map node
      sets "pretty-name" or "on". `evalLogNormal` stands for the `exp`/`log`
      evaluation of the log-normal factors. */
  function Create(name: string, typ: string, node: Node, evalLogNormal: LogNormalParams -> (real, real)): (r: Result<Systematic>)
    ensures !KnownType(typ) ==> r == Failure("Unknown systematic type: " + typ)
    ensures r.Success? ==> KnownType(typ) && r.value.name == name
    ensures r.Success? ==> (typ == "const" <==> r.value.kind.Constant?)
    ensures r.Success? ==> (typ == "shape" <==> r.value.kind.Shape?)
    ensures r.Success? ==> (typ == "lognormal" || typ == "ln" <==> r.value.kind.LogNormal?)
    ensures r.Success? && r.value.kind.Constant? ==> ConstantFromNode(node) == Success(r.value.kind.value)
    ensures r.Success? && !(node.Map? && node.Get("pretty-name").IsDefined()) ==> r.value.prettyName == name
    ensures r.Success? && !(node.Map? && node.Get("on").IsDefined()) ==> r.value.on == ".*"
    ensures r.Success? && node.Map? && node.Get("pretty-name").IsDefined() ==> Success(r.value.prettyName) == node.Get("pretty-name").AsString()
  {
    var kind :-
      if typ == "const" then
        var v :- ConstantFromNode(node);
        Success(Constant(v))
      else if typ == "lognormal" || typ == "ln" then
        var p :- LogNormalFromNode(node);
        var factors := evalLogNormal(p);
        Success(LogNormal(p, factors.0, factors.1))
      else if typ == "shape" then
        ShapeFromNode(node)
      else
        Failure("Unknown systematic type: " + typ);
    var prettyName :- if node.Map? && node.Get("pretty-name").IsDefined() then node.Get("pretty-name").AsString() else Success(name);
    var on :- if node.Map? && node.Get("on").IsDefined() then node.Get("on").AsString() else Success(".*");
    Success(Systematic(name, prettyName, on, kind))
  }

  /** Matching the type is case-sensitive: "Const" is not a known type. */
  lemma TypeMatchingIsCaseSensitive(node: Node, evalLogNormal: LogNormalParams -> (real, real))
    ensures Create("n", "Const", node, evalLogNormal).Failure?
  {
  }

  /** `parseSystematicsNode`'s choice of name, type and configuration node.
      A scalar names a shape source with no configuration. A map's first
      entry names the source: a scalar value makes it constant, a value with
      a "type" key has that type (a null type reads as "null"), and any other value makes it a shape
      source. Any other node is an error. The first entry of an empty map is
      undefined behaviour, so maps must not be empty. */
  function SystematicsNodeType(node: Node): (r: Result<(string, string, Node)>)
    requires node.Map? ==> |node.entries| > 0
    ensures node.Scalar? ==> r == Success((node.text, "shape", Null))
    ensures node.Map? && node.entries[0].1.Scalar? ==> r == Success((node.entries[0].0, "const", node.entries[0].1))
    ensures node.Map? && !node.entries[0].1.Scalar? && node.entries[0].1.Get("type").IsDefined() ==>
      (r.Success? <==> node.entries[0].1.Get("type").Scalar? || node.entries[0].1.Get("type").Null?)
      && (node.entries[0].1.Get("type").Scalar? ==>
            r == Success((node.entries[0].0, node.entries[0].1.Get("type").text, node.entries[0].1)))
      && (node.entries[0].1.Get("type").Null? ==> r == Success((node.entries[0].0, "null", node.entries[0].1)))
    ensures node.Map? && !node.entries[0].1.Scalar? && !node.entries[0].1.Get("type").IsDefined() ==>
      r == Success((node.entries[0].0, "shape", node.entries[0].1))
    ensures !node.Scalar? && !node.Map? ==> r.Failure?
  {
    match node
    case Scalar(text, _) => Success((text, "shape", Null))
    case Map(entries) =>
      var (name, value) := entries[0];
      if value.Scalar? then Success((name, "const", value))
      else if value.Get("type").IsDefined() then
        var typ :- value.Get("type").AsString();
        Success((name, typ, value))
      else Success((name, "shape", value))
    case _ => Failure("Invalid systematics node. Must be either a string or a map")
  }

  /** `parseSystematicsNode`: choose the type, then create the source. */
  function ParseSystematicsNode(node: Node, evalLogNormal: LogNormalParams -> (real, real)): (r: Result<Systematic>)
    requires node.Map? ==> |node.entries| > 0
    ensures r.Success? ==> SystematicsNodeType(node).Success?
    ensures r.Success? ==> var (name, typ, _) := SystematicsNodeType(node).value;
      r.value.name == name && KnownType(typ)
    ensures node.Scalar? ==> r.Success? && r.value.name == node.text && r.value.kind == Shape(Some(1.0), Some(1.0))
                             && r.value.prettyName == node.text && r.value.on == ".*"
  {
    var (name, typ, config) :- SystematicsNodeType(node);
    Create(name, typ, config, evalLogNormal)
  }
}

=== FILE: tallies.dfy ===
/** Per-name accumulation: the `std::map<std::string, V>` with
    `m[name] += v` that the summary printer and the systematics combiner
    both use to sum contributions of sources sharing a name. The map is an
    association list kept in first-encounter order; the sums themselves do
    not depend on that order. */
module Tallies {

  /** Position of `name` among the keys of `acc`, or `|acc|` if absent. */
  function KeyIndex<V>(acc: seq<(string, V)>, name: string): (k: nat)
    ensures k <= |acc|
    ensures k < |acc| ==> acc[k].0 == name
    ensures forall j :: 0 <= j < k ==> acc[j].0 != name
  {
    if |acc| == 0 then 0
    else if acc[0].0 == name then 0
    else 1 + KeyIndex(acc[1..], name)
  }

  /** `acc[name] += v`, where a missing entry starts from `zero`. */
  function Bump<V>(acc: seq<(string, V)>, name: string, v: V, zero: V, plus: (V, V) -> V): (r: seq<(string, V)>)
  {
    var k := KeyIndex(acc, name);
    if k < |acc| then acc[k := (name, plus(acc[k].1, v))] else acc + [(name, plus(zero, v))]
  }

  /** The accumulated list after adding every item in order. */
  function Tally<V>(items: seq<(string, V)>, zero: V, plus: (V, V) -> V): (r: seq<(string, V)>)
  {
    if |items| == 0 then []
    else
      var last := items[|items| - 1];
      Bump(Tally(items[..|items| - 1], zero, plus), last.0, last.1, zero, plus)
  }

  /** The distinct names of `items`, in order of first appearance. */
  function Names<V>(items: seq<(string, V)>): (r: seq<string>)
    ensures forall j :: 0 <= j < |items| ==> items[j].0 in r
    ensures forall x :: x in r ==> exists j :: 0 <= j < |items| && items[j].0 == x
  {
    if |items| == 0 then []
    else
      var init := Names(items[..|items| - 1]);
      var name := items[|items| - 1].0;
      assert forall j :: 0 <= j < |items| - 1 ==> items[..|items| - 1][j] == items[j];
      if name in init then init else init + [name]
  }

  /** The reference sum for one name: every value filed under it, folded
      with `plus` from `zero` in order. */
  function Total<V>(items: seq<(string, V)>, name: string, zero: V, plus: (V, V) -> V): V
  {
    if |items| == 0 then zero
    else
      var t := Total(items[..|items| - 1], name, zero, plus);
      if items[|items| - 1].0 == name then plus(t, items[|items| - 1].1) else t
  }

  predicate Distinct(s: seq<string>) {
    forall i, j :: 0 <= i < j < |s| ==> s[i] != s[j]
  }

  lemma {:induction false} NamesDistinct<V>(items: seq<(string, V)>)
    ensures Distinct(Names(items))
  {
    if |items| > 0 {
      NamesDistinct(items[..|items| - 1]);
    }
  }

  /** A name that never occurs sums to `zero`. */
  lemma {:induction false} TotalOfAbsentName<V>(items: seq<(string, V)>, name: string, zero: V, plus: (V, V) -> V)
    requires forall j :: 0 <= j < |items| ==> items[j].0 != name
    ensures Total(items, name, zero, plus) == zero
  {
    if |items| > 0 {
      TotalOfAbsentName(items[..|items| - 1], name, zero, plus);
    }
  }

  /** The accumulated list holds exactly one entry per distinct name, in
      order of first appearance, and each entry is that name's reference
      sum. */
  lemma {:induction false} TallyIsTotals<V>(items: seq<(string, V)>, zero: V, plus: (V, V) -> V)
    ensures |Tally(items, zero, plus)| == |Names(items)|
    ensures forall k :: 0 <= k < |Names(items)| ==>
      Tally(items, zero, plus)[k] == (Names(items)[k], Total(items, Names(items)[k], zero, plus))
  {
    if |items| > 0 {
      var init := items[..|items| - 1];
      var (name, v) := items[|items| - 1];
      var acc := Tally(init, zero, plus);
      var names := Names(init);
      TallyIsTotals(init, zero, plus);
      NamesDistinct(init);
      var k := KeyIndex(acc, name);
      if name in names {
        var j :| 0 <= j < |names| && names[j] == name;
        assert acc[j].0 == name;
        assert k == j;
        assert Names(items) == names;
        forall i | 0 <= i < |names|
          ensures Tally(items, zero, plus)[i] == (names[i], Total(items, names[i], zero, plus))
        {
          if i != j {
            assert names[i] != name;
          }
        }
      } else {
        assert k == |acc|;
        assert forall j :: 0 <= j < |init| ==> init[j].0 != name by {
          forall j | 0 <= j < |init|
            ensures init[j].0 != name
          {
            assert init[j].0 in names;
          }
        }
        TotalOfAbsentName(init, name, zero, plus);
        assert Names(items) == names + [name];
      }
    }
  }

  /** The keys of an association list are pairwise different. */
  predicate DistinctKeys<V>(acc: seq<(string, V)>) {
    forall i, j :: 0 <= i < j < |acc| ==> acc[i].0 != acc[j].0
  }

  /** The entries of `acc` whose key is not in `seen`, in order. */
  function Without<V>(acc: seq<(string, V)>, seen: set<string>): (r: seq<(string, V)>)
    ensures |r| <= |acc|
    ensures forall i :: 0 <= i < |r| ==> r[i].0 !in seen
  {
    if |acc| == 0 then []
    else
      var rest := Without(acc[1..], seen);
      if acc[0].0 in seen then rest else [acc[0]] + rest
  }

  lemma {:induction false} WithoutNothing<V>(acc: seq<(string, V)>)
    ensures Without(acc, {}) == acc
  {
    if |acc| > 0 {
      WithoutNothing(acc[1..]);
    }
  }

  /** Removing a key that does not occur changes nothing. */
  lemma {:induction false} WithoutAbsent<V>(acc: seq<(string, V)>, seen: set<string>, g: string)
    requires forall i :: 0 <= i < |acc| ==> acc[i].0 != g
    ensures Without(acc, seen + {g}) == Without(acc, seen)
  {
    if |acc| > 0 {
      WithoutAbsent(acc[1..], seen, g);
    }
  }

  lemma DistinctKeysTail<V>(acc: seq<(string, V)>)
    requires |acc| > 0 && DistinctKeys(acc)
    ensures DistinctKeys(acc[1..])
    ensures forall i :: 0 <= i < |acc| - 1 ==> acc[1..][i].0 != acc[0].0
  {
    forall i, j | 0 <= i < j < |acc| - 1
      ensures acc[1..][i].0 != acc[1..][j].0
    {
      assert acc[1..][i] == acc[i + 1] && acc[1..][j] == acc[j + 1];
    }
    forall i | 0 <= i < |acc| - 1
      ensures acc[1..][i].0 != acc[0].0
    {
      assert acc[1..][i] == acc[i + 1];
    }
  }

  /** `erase(find_if(key == g))`: the list without its first entry under
      `g`; unchanged when there is none. */
  function EraseKey<V>(acc: seq<(string, V)>, g: string): (r: seq<(string, V)>)
    ensures KeyIndex(acc, g) < |acc| ==> |r| == |acc| - 1
    ensures KeyIndex(acc, g) == |acc| ==> r == acc
  {
    if |acc| == 0 then []
    else if acc[0].0 == g then acc[1..]
    else [acc[0]] + EraseKey(acc[1..], g)
  }

  /** Erasing the entry found for `g` from the remaining entries is the
      same as adding `g` to the keys already taken. */
  lemma {:induction false} EraseFound<V>(acc: seq<(string, V)>, seen: set<string>, g: string)
    requires DistinctKeys(acc)
    ensures EraseKey(Without(acc, seen), g) == Without(acc, seen + {g})
  {
    if |acc| > 0 {
      DistinctKeysTail(acc);
      if acc[0].0 in seen {
        EraseFound(acc[1..], seen, g);
      } else if acc[0].0 == g {
        WithoutAbsent(acc[1..], seen, g);
      } else {
        EraseFound(acc[1..], seen, g);
      }
    }
  }

  /** Looking `g` up among the remaining entries finds it exactly when it
      is a key of `acc` not yet taken... */
  lemma {:induction false} WithoutKeyFound<V>(acc: seq<(string, V)>, seen: set<string>, g: string)
    ensures KeyIndex(Without(acc, seen), g) < |Without(acc, seen)| <==> KeyIndex(acc, g) < |acc| && g !in seen
  {
    if |acc| > 0 {
      var r, rest := Without(acc, seen), Without(acc[1..], seen);
      WithoutKeyFound(acc[1..], seen, g);
      if acc[0].0 in seen {
        assert r == rest;
      } else if acc[0].0 == g {
        assert r == [acc[0]] + rest;
      } else {
        assert r == [acc[0]] + rest && r[1..] == rest;
      }
    }
  }

  /** ... and then finds the entry of `acc`. */
  lemma {:induction false} WithoutKeyEntry<V>(acc: seq<(string, V)>, seen: set<string>, g: string)
    ensures KeyIndex(Without(acc, seen), g) < |Without(acc, seen)| ==>
      KeyIndex(acc, g) < |acc| && Without(acc, seen)[KeyIndex(Without(acc, seen), g)] == acc[KeyIndex(acc, g)]
  {
    if |acc| > 0 {
      var r, rest := Without(acc, seen), Without(acc[1..], seen);
      WithoutKeyEntry(acc[1..], seen, g);
      if acc[0].0 in seen {
        assert r == rest;
        if acc[0].0 != g {
          var j := KeyIndex(acc[1..], g);
          assert KeyIndex(acc, g) == 1 + j;
          assert j < |acc| - 1 ==> acc[1 + j] == acc[1..][j];
        }
      } else if acc[0].0 == g {
        assert r == [acc[0]] + rest;
      } else {
        var k, j := KeyIndex(rest, g), KeyIndex(acc[1..], g);
        assert r == [acc[0]] + rest && r[1..] == rest;
        assert KeyIndex(r, g) == 1 + k;
        assert KeyIndex(acc, g) == 1 + j;
        assert k < |rest| ==> r[1 + k] == rest[k] && acc[1 + j] == acc[1..][j];
      }
    }
  }
}

=== FILE: types.dfy ===
/** The configuration vocabulary: file types, error types, points, ranges
    and positions with their YAML encodings, labels, plots, line and plot
    styles with their defaults, and legend entries. */
module Types {
  import opened Wrappers
  import opened Yaml
  import opened Utilities

  // ---------------------------------------------------------------------
  // Enumerations and their names

  /** The kind of an input file: simulated background, signal, or data. */
  datatype FileType = MC | Signal | Data

  /** `string_to_type`: "signal" and "data" name their types; every other
      string is simulation. */
  function StringToType(s: string): (t: FileType)
    ensures t == Signal <==> s == "signal"
    ensures t == Data <==> s == "data"
    ensures t == MC <==> s != "signal" && s != "data"
  {
    if s == "signal" then Signal else if s == "data" then Data else MC
  }

  /** `type_to_string`: the display names. */
  function TypeToString(t: FileType): (s: string)
    ensures t == MC <==> s == "Simulation"
    ensures t == Signal <==> s == "Signal"
    ensures t == Data <==> s == "Data"
  {
    match t
    case MC => "Simulation"
    case Signal => "Signal"
    case Data => "Data"
  }

  /** Display names are capitalised while configuration names are not, so
      reading a display name back always gives simulation. */
  lemma DisplayNamesReadAsSimulation(t: FileType)
    ensures StringToType(TypeToString(t)) == MC
  {
  }

  /** How the error bars of data are computed. */
  datatype ErrorsType = Normal | Poisson | Poisson2

  /** `string_to_errors_type`: "normal" and "poisson2" name their types;
      every other string, "poisson" included, gives Poisson. */
  function StringToErrorsType(s: string): (e: ErrorsType)
    ensures e == Normal <==> s == "normal"
    ensures e == Poisson2 <==> s == "poisson2"
    ensures e == Poisson <==> s != "normal" && s != "poisson2"
  {
    if s == "normal" then Normal else if s == "poisson2" then Poisson2 else Poisson
  }

  /** The configuration name of each error type. */
  function ErrorsTypeName(e: ErrorsType): string {
    match e
    case Normal => "normal"
    case Poisson => "poisson"
    case Poisson2 => "poisson2"
  }

  lemma ErrorsTypeNamesRoundTrip(e: ErrorsType)
    ensures StringToErrorsType(ErrorsTypeName(e)) == e
  {
  }

  /** Which pad a line is drawn on. */
  datatype Location = Top | Bottom

  /** How a configured line is given: by two points, by a y value
      (horizontal) or by an x value (vertical). */
  datatype Orientation = Unspecified | Horizontal | Vertical

  // ---------------------------------------------------------------------
  // Points, ranges and positions

  /** A point; a coordinate is `None` when it is NaN (the default). */
  datatype Point = Point(x: Float, y: Float) {
    /** `Point::valid`: neither coordinate is NaN. */
    predicate Valid()
      ensures Valid() <==> x.Some? && y.Some?
    {
      x.Some? && y.Some?
    }
  }

  /** A range; a bound is `None` when it is NaN (the default). */
  datatype Range = Range(start: Float, end: Float) {
    /** `Range::valid`: neither bound is NaN. */
    predicate Valid()
      ensures Valid() <==> start.Some? && end.Some?
    {
      start.Some? && end.Some?
    }
  }

  /** Two corners of a box in pad coordinates. */
  datatype Position = Position(x1: Float, y1: Float, x2: Float, y2: Float)

  /** A sequence node of `n` numeric scalars. */
  predicate IsNumberList(node: Node, n: nat) {
    node.Sequence? && |node.items| == n
    && forall i :: 0 <= i < n ==> node.items[i].Scalar? && node.items[i].number.Some?
  }

  function EncodePoint(p: Point): (r: Node)
    ensures IsNumberList(r, 2)
  {
    Sequence([FloatNode(p.x), FloatNode(p.y)])
  }

  /** `convert<Point>::decode`: a sequence of exactly two numbers. */
  function DecodePoint(node: Node): (r: Result<Point>)
    ensures r.Success? <==> IsNumberList(node, 2)
    ensures r.Success? ==> r.value == Point(node.items[0].number.value, node.items[1].number.value)
  {
    if node.Sequence? && |node.items| == 2 then
      var x :- node.items[0].AsFloat();
      var y :- node.items[1].AsFloat();
      Success(Point(x, y))
    else Failure("bad conversion to Point")
  }

  lemma PointRoundTrip(p: Point)
    ensures DecodePoint(EncodePoint(p)) == Success(p)
  {
  }

  function EncodeRange(r: Range): (n: Node)
    ensures IsNumberList(n, 2)
  {
    Sequence([FloatNode(r.start), FloatNode(r.end)])
  }

  /** `convert<Range>::decode`: a sequence of exactly two numbers. */
  function DecodeRange(node: Node): (r: Result<Range>)
    ensures r.Success? <==> IsNumberList(node, 2)
    ensures r.Success? ==> r.value == Range(node.items[0].number.value, node.items[1].number.value)
  {
    if node.Sequence? && |node.items| == 2 then
      var s :- node.items[0].AsFloat();
      var e :- node.items[1].AsFloat();
      Success(Range(s, e))
    else Failure("bad conversion to Range")
  }

  lemma RangeRoundTrip(r: Range)
    ensures DecodeRange(EncodeRange(r)) == Success(r)
  {
  }

  /** Decoding an encoded range and encoding it again gives the same node,
      up to the text of the scalars. */
  lemma RangeNodeRoundTrip(node: Node)
    requires IsNumberList(node, 2)
    ensures DecodeRange(node).Success?
    ensures var e := EncodeRange(DecodeRange(node).value);
      forall i :: 0 <= i < 2 ==> e.items[i].number == node.items[i].number
  {
  }

  /** `convert<Position>::encode` as written: it stores x1, y1 twice and
      never x2, y2. */
  function EncodePositionAsWritten(p: Position): (r: Node)
    ensures IsNumberList(r, 4)
  {
    Sequence([FloatNode(p.x1), FloatNode(p.y1), FloatNode(p.x1), FloatNode(p.y1)])
  }

  /** The encoder with the four corners in order. */
  function EncodePosition(p: Position): (r: Node)
    ensures IsNumberList(r, 4)
  {
    Sequence([FloatNode(p.x1), FloatNode(p.y1), FloatNode(p.x2), FloatNode(p.y2)])
  }

  /** `convert<Position>::decode`: a sequence of exactly four numbers. */
  function DecodePosition(node: Node): (r: Result<Position>)
    ensures r.Success? <==> IsNumberList(node, 4)
    ensures r.Success? ==> r.value == Position(node.items[0].number.value, node.items[1].number.value,
                                               node.items[2].number.value, node.items[3].number.value)
  {
    if node.Sequence? && |node.items| == 4 then
      var x1 :- node.items[0].AsFloat();
      var y1 :- node.items[1].AsFloat();
      var x2 :- node.items[2].AsFloat();
      var y2 :- node.items[3].AsFloat();
      Success(Position(x1, y1, x2, y2))
    else Failure("bad conversion to Position")
  }

  /** The encoder as written loses the second corner: decoding its output
      gives the first corner twice, so the default legend box does not come
      back. */
  lemma PositionAsWrittenDoesNotRoundTrip()
    ensures var p := Position(Some(0.6), Some(0.6), Some(0.9), Some(0.9));
      DecodePosition(EncodePositionAsWritten(p)) == Success(Position(p.x1, p.y1, p.x1, p.y1))
      && DecodePosition(EncodePositionAsWritten(p)) != Success(p)
  {
  }

  lemma PositionRoundTrip(p: Position)
    ensures DecodePosition(EncodePosition(p)) == Success(p)
  {
  }

  // ---------------------------------------------------------------------
  // Labels and plots

  /** A text label placed on the canvas. */
  datatype Label = Label(text: string, size: real, font: int, position: Point)

  /** The settings of one plot that the modelled code reads. Rendering-only
      settings (titles, fits, axis styling) are not part of this model. */
  datatype Plot = Plot(
    name: string,
    uid: string,
    outputSuffix: string,
    override: bool,
    logX: bool,
    logY: bool,
    noData: bool,
    useForYields: bool,
    yieldsTitle: string,
    yieldsTableOrder: int,
    sortByYields: bool,
    showErrors: bool,
    showOverflow: bool,
    showOnlyOverflow: bool,
    xAxisRange: Range,
    logXAxisRange: Range,
    blindedRange: Range,
    legendColumns: nat,
    errorsType: ErrorsType,
    labels: seq<Label>)

  /** `Plot::Clone(new_name)`: a copy that differs only by its name and by
      a fresh unique id (drawn by the caller). */
  function Clone(p: Plot, newName: string, freshUid: string): (r: Plot)
    ensures r.name == newName && r.uid == freshUid
    ensures r.(name := p.name, uid := p.uid) == p
  {
    p.(name := newName, uid := freshUid)
  }

  // ---------------------------------------------------------------------
  // Styles

  /** Line attributes; colours are ROOT colour indices or custom colours. */
  datatype LineStyle = LineStyle(lineWidth: Float, lineColor: Color, lineType: int)

  /** `LineStyle()` defaults: width 1, colour 1, type 1. */
  const DefaultLineStyle: LineStyle := LineStyle(Some(1.0), Index(1), 1)

  /** `LineStyle::parse`: each of "line-color", "line-type" and
      "line-width" that is present replaces the corresponding attribute. */
  function ParseLineStyle(node: Node, base: LineStyle): (r: Result<LineStyle>)
    ensures r.Success? ==>
      && (!node.Get("line-color").IsDefined() ==> r.value.lineColor == base.lineColor)
      && (node.Get("line-color").IsDefined() ==> LoadColor(node.Get("line-color")) == Success(r.value.lineColor))
      && (!node.Get("line-type").IsDefined() ==> r.value.lineType == base.lineType)
      && (node.Get("line-type").IsDefined() ==> node.Get("line-type").AsInt16() == Success(r.value.lineType))
      && (!node.Get("line-width").IsDefined() ==> r.value.lineWidth == base.lineWidth)
      && (node.Get("line-width").IsDefined() ==> node.Get("line-width").AsFloat() == Success(r.value.lineWidth))
    ensures !node.Map? ==> r == Success(base)
  {
    var color :- if node.Get("line-color").IsDefined() then LoadColor(node.Get("line-color")) else Success(base.lineColor);
    var typ :- if node.Get("line-type").IsDefined() then node.Get("line-type").AsInt16() else Success(base.lineType);
    var width :- if node.Get("line-width").IsDefined() then node.Get("line-width").AsFloat() else Success(base.lineWidth);
    Success(LineStyle(width, color, typ))
  }

  /** Drawing style and legend settings of a file or a legend group. */
  datatype PlotStyle = PlotStyle(
    line: LineStyle,
    markerSize: Float,
    markerColor: Color,
    markerType: int,
    fillColor: Color,
    fillType: int,
    drawingOptions: string,
    legend: string,
    legendStyle: string,
    legendOrder: int)

  /** The style of a freshly created entry of type `t` whose node sets no
      style key: MC is filled with colour 1, pattern 1001 and a 0.5 wide
      line; signal is an unfilled 3 wide line of colour 1 and type 1; data
      is marker 20 of size 1 and colour 1 with a 1 wide line of colour 1.
      Unset attributes are -1; the legend is empty with order 0. */
  function DefaultStyle(t: FileType): PlotStyle {
    match t
    case MC => PlotStyle(LineStyle(Some(0.5), Index(-1), -1), Some(-1.0), Index(-1), -1, Index(1), 1001, "hist", "", "F", 0)
    case Signal => PlotStyle(LineStyle(Some(3.0), Index(1), 1), Some(-1.0), Index(-1), -1, Index(-1), 0, "hist", "", "F", 0)
    case Data => PlotStyle(LineStyle(Some(1.0), Index(1), -1), Some(1.0), Index(1), 20, Index(-1), -1, "P E X0", "", "P", 0)
  }

  /** An optional key read with `read`, or `default` when absent. */
  function OrDefault<T>(node: Node, key: string, read: Node -> Result<T>, default: T): (r: Result<T>)
    ensures !node.Get(key).IsDefined() ==> r == Success(default)
    ensures node.Get(key).IsDefined() ==> r == read(node.Get(key))
  {
    if node.Get(key).IsDefined() then read(node.Get(key)) else Success(default)
  }

  function ReadString(n: Node): Result<string> { n.AsString() }
  function ReadInt16(n: Node): Result<int> { n.AsInt16() }
  function ReadFloat(n: Node): Result<Float> { n.AsFloat() }

  /** An absent key, or one that `read` converts. */
  predicate KeyReadable<T>(node: Node, key: string, read: Node -> Result<T>) {
    node.Get(key).IsDefined() ==> read(node.Get(key)).Success?
  }

  /** `value` is what `read` makes of the key when it is present, and
      `default` when it is absent. */
  predicate KeyGives<T(==)>(node: Node, key: string, read: Node -> Result<T>, default: T, value: T) {
    if node.Get(key).IsDefined() then read(node.Get(key)) == Success(value) else value == default
  }

  /** The legend keys and the drawing options read over `base`. */
  function LoadLegend(node: Node, base: PlotStyle): (r: Result<PlotStyle>)
    ensures r.Success? <==>
      && KeyReadable(node, "legend", ReadString)
      && KeyReadable(node, "legend-style", ReadString)
      && KeyReadable(node, "legend-order", ReadInt16)
      && KeyReadable(node, "drawing-options", ReadString)
    ensures r.Success? ==>
      && KeyGives(node, "legend", ReadString, base.legend, r.value.legend)
      && KeyGives(node, "legend-style", ReadString, base.legendStyle, r.value.legendStyle)
      && KeyGives(node, "legend-order", ReadInt16, base.legendOrder, r.value.legendOrder)
      && KeyGives(node, "drawing-options", ReadString, base.drawingOptions, r.value.drawingOptions)
      && r.value.(legend := base.legend, legendStyle := base.legendStyle, legendOrder := base.legendOrder,
                  drawingOptions := base.drawingOptions) == base
  {
    var legend :- OrDefault(node, "legend", ReadString, base.legend);
    var legendStyle :- OrDefault(node, "legend-style", ReadString, base.legendStyle);
    var legendOrder :- OrDefault(node, "legend-order", ReadInt16, base.legendOrder);
    var drawing :- OrDefault(node, "drawing-options", ReadString, base.drawingOptions);
    Success(base.(legend := legend, legendStyle := legendStyle, legendOrder := legendOrder, drawingOptions := drawing))
  }

  /** The fill keys read over `base`. */
  function LoadFill(node: Node, base: PlotStyle): (r: Result<PlotStyle>)
    ensures r.Success? <==> KeyReadable(node, "fill-color", LoadColor) && KeyReadable(node, "fill-type", ReadInt16)
    ensures r.Success? ==>
      && KeyGives(node, "fill-color", LoadColor, base.fillColor, r.value.fillColor)
      && KeyGives(node, "fill-type", ReadInt16, base.fillType, r.value.fillType)
      && r.value.(fillColor := base.fillColor, fillType := base.fillType) == base
  {
    var fillColor :- OrDefault(node, "fill-color", LoadColor, base.fillColor);
    var fillType :- OrDefault(node, "fill-type", ReadInt16, base.fillType);
    Success(base.(fillColor := fillColor, fillType := fillType))
  }

  /** The marker keys read over `base`. */
  function LoadMarker(node: Node, base: PlotStyle): (r: Result<PlotStyle>)
    ensures r.Success? <==>
      && KeyReadable(node, "marker-color", LoadColor)
      && KeyReadable(node, "marker-type", ReadInt16)
      && KeyReadable(node, "marker-size", ReadFloat)
    ensures r.Success? ==>
      && KeyGives(node, "marker-color", LoadColor, base.markerColor, r.value.markerColor)
      && KeyGives(node, "marker-type", ReadInt16, base.markerType, r.value.markerType)
      && KeyGives(node, "marker-size", ReadFloat, base.markerSize, r.value.markerSize)
      && r.value.(markerColor := base.markerColor, markerType := base.markerType, markerSize := base.markerSize) == base
  {
    var markerColor :- OrDefault(node, "marker-color", LoadColor, base.markerColor);
    var markerType :- OrDefault(node, "marker-type", ReadInt16, base.markerType);
    var markerSize :- OrDefault(node, "marker-size", ReadFloat, base.markerSize);
    Success(base.(markerColor := markerColor, markerType := markerType, markerSize := markerSize))
  }

  /** `PlotStyle::loadFromYAML(node, type)` on a default-constructed style.
      The type fixes the defaults; "legend", "legend-style", "legend-order",
      "drawing-options", "fill-color", "fill-type", the line keys,
      "marker-color", "marker-type" and "marker-size" override them, read
      in that order. Loading fails exactly when a present key does not
      convert. */
  function LoadPlotStyle(node: Node, t: FileType): (r: Result<PlotStyle>)
    ensures var d := DefaultStyle(t);
      r.Success? <==>
        && KeyReadable(node, "legend", ReadString)
        && KeyReadable(node, "legend-style", ReadString)
        && KeyReadable(node, "legend-order", ReadInt16)
        && KeyReadable(node, "drawing-options", ReadString)
        && KeyReadable(node, "fill-color", LoadColor)
        && KeyReadable(node, "fill-type", ReadInt16)
        && ParseLineStyle(node, d.line).Success?
        && KeyReadable(node, "marker-color", LoadColor)
        && KeyReadable(node, "marker-type", ReadInt16)
        && KeyReadable(node, "marker-size", ReadFloat)
    ensures r.Success? ==>
      var d := DefaultStyle(t);
      && KeyGives(node, "legend", ReadString, d.legend, r.value.legend)
      && KeyGives(node, "legend-style", ReadString, d.legendStyle, r.value.legendStyle)
      && KeyGives(node, "legend-order", ReadInt16, 0, r.value.legendOrder)
      && KeyGives(node, "drawing-options", ReadString, d.drawingOptions, r.value.drawingOptions)
      && KeyGives(node, "fill-color", LoadColor, d.fillColor, r.value.fillColor)
      && KeyGives(node, "fill-type", ReadInt16, d.fillType, r.value.fillType)
      && ParseLineStyle(node, d.line) == Success(r.value.line)
      && KeyGives(node, "marker-color", LoadColor, d.markerColor, r.value.markerColor)
      && KeyGives(node, "marker-type", ReadInt16, d.markerType, r.value.markerType)
      && KeyGives(node, "marker-size", ReadFloat, d.markerSize, r.value.markerSize)
  {
    var d := DefaultStyle(t);
    var legend :- LoadLegend(node, d);
    var fill :- LoadFill(node, legend);
    var line :- ParseLineStyle(node, d.line);
    LoadMarker(node, fill.(line := line))
  }

  /** With no keys set, the loaded style is the type's default table: the
      legend style is "F" for MC and signal and "P" for data, and the
      drawing options are "hist" for MC and signal and "P E X0" for data. */
  lemma EmptyNodeGivesDefaults(t: FileType)
    ensures LoadPlotStyle(Map([]), t) == Success(DefaultStyle(t))
    ensures DefaultStyle(t).legendStyle == (if t == Data then "P" else "F")
    ensures DefaultStyle(t).drawingOptions == (if t == Data then "P E X0" else "hist")
  {
  }

  // ---------------------------------------------------------------------
  // Style nodes

  predicate InInt16(n: int) {
    Int16Min <= n <= Int16Max
  }

  /** A colour index a node can hold. Custom colours are left to the hex
      colour lemmas. */
  predicate IndexColor(c: Color) {
    c.Index? && InInt16(c.index)
  }

  function ColorNode(c: Color): (r: Node)
    requires c.Index?
    ensures IndexColor(c) ==> LoadColor(r) == Success(c)
  {
    IntNode(c.index)
  }

  predicate EncodableLineStyle(ls: LineStyle) {
    IndexColor(ls.lineColor) && InInt16(ls.lineType)
  }

  /** A style whose colours are indices and whose integers fit in 16
      bits. */
  predicate EncodableStyle(s: PlotStyle) {
    && EncodableLineStyle(s.line)
    && IndexColor(s.fillColor) && IndexColor(s.markerColor)
    && InInt16(s.fillType) && InInt16(s.markerType) && InInt16(s.legendOrder)
  }

  /** A node that sets every key of a style. */
  function StyleNode(s: PlotStyle): (r: Node)
    requires s.line.lineColor.Index? && s.fillColor.Index? && s.markerColor.Index?
    ensures r.Map?
  {
    Map([("legend", TextNode(s.legend)), ("legend-style", TextNode(s.legendStyle)),
         ("legend-order", IntNode(s.legendOrder)), ("drawing-options", TextNode(s.drawingOptions)),
         ("fill-color", ColorNode(s.fillColor)), ("fill-type", IntNode(s.fillType)),
         ("line-color", ColorNode(s.line.lineColor)), ("line-type", IntNode(s.line.lineType)),
         ("line-width", FloatNode(s.line.lineWidth)),
         ("marker-color", ColorNode(s.markerColor)), ("marker-type", IntNode(s.markerType)),
         ("marker-size", FloatNode(s.markerSize))])
  }

  /** The keys of a style node, in order. */
  const StyleKeys: seq<string> := ["legend", "legend-style", "legend-order", "drawing-options", "fill-color",
    "fill-type", "line-color", "line-type", "line-width", "marker-color", "marker-type", "marker-size"]

  lemma StyleKeysDistinct()
    ensures forall i, j :: 0 <= i < j < |StyleKeys| ==> StyleKeys[i] != StyleKeys[j]
  {
  }

  /** Each key of a style node holds its own entry. */
  lemma StyleNodeGet(s: PlotStyle, i: nat)
    requires s.line.lineColor.Index? && s.fillColor.Index? && s.markerColor.Index?
    requires i < |StyleKeys|
    ensures StyleNode(s).Get(StyleKeys[i]) == StyleNode(s).entries[i].1
  {
    var e := StyleNode(s).entries;
    assert |e| == |StyleKeys| && forall k :: 0 <= k < |e| ==> e[k].0 == StyleKeys[k];
    StyleKeysDistinct();
    LookupFinds(e, i);
  }

  /** What each key of a style node holds. */
  lemma StyleNodeGets(s: PlotStyle)
    requires s.line.lineColor.Index? && s.fillColor.Index? && s.markerColor.Index?
    ensures var node := StyleNode(s);
      && node.Get("legend") == TextNode(s.legend)
      && node.Get("legend-style") == TextNode(s.legendStyle)
      && node.Get("legend-order") == IntNode(s.legendOrder)
      && node.Get("drawing-options") == TextNode(s.drawingOptions)
      && node.Get("fill-color") == ColorNode(s.fillColor)
      && node.Get("fill-type") == IntNode(s.fillType)
      && node.Get("line-color") == ColorNode(s.line.lineColor)
      && node.Get("line-type") == IntNode(s.line.lineType)
      && node.Get("line-width") == FloatNode(s.line.lineWidth)
      && node.Get("marker-color") == ColorNode(s.markerColor)
      && node.Get("marker-type") == IntNode(s.markerType)
      && node.Get("marker-size") == FloatNode(s.markerSize)
  {
    StyleNodeGet(s, 0);
    StyleNodeGet(s, 1);
    StyleNodeGet(s, 2);
    StyleNodeGet(s, 3);
    StyleNodeGet(s, 4);
    StyleNodeGet(s, 5);
    StyleNodeGet(s, 6);
    StyleNodeGet(s, 7);
    StyleNodeGet(s, 8);
    StyleNodeGet(s, 9);
    StyleNodeGet(s, 10);
    StyleNodeGet(s, 11);
  }

  /** A node that sets every key of a style loads as that style, whatever
      the file type. */
  lemma StyleNodeRoundTrip(s: PlotStyle, t: FileType)
    requires EncodableStyle(s)
    ensures LoadPlotStyle(StyleNode(s), t) == Success(s)
  {
    var node := StyleNode(s);
    StyleNodeGets(s);
    var r := LoadPlotStyle(node, t);
    assert r.Success?;
    assert r.value.line == s.line;
    assert r.value.(line := s.line) == s;
  }

  // ---------------------------------------------------------------------
  // Lines

  /** A straight line on a plot; a NaN coordinate follows the axis. */
  datatype Line = Line(start: Point, end: Point, style: Option<LineStyle>, pad: Location)

  /** `as<std::vector<Point>>()`: a sequence whose every item is a point. */
  function DecodePoints(node: Node): (r: Result<seq<Point>>)
    ensures r.Success? <==> node.Sequence? && forall i :: 0 <= i < |node.items| ==> DecodePoint(node.items[i]).Success?
    ensures r.Success? ==> |r.value| == |node.items|
                           && forall i :: 0 <= i < |r.value| ==> DecodePoint(node.items[i]) == Success(r.value[i])
  {
    if !node.Sequence? then Failure("bad conversion to a list of points")
    else DecodePointList(node.items)
  }

  function DecodePointList(items: seq<Node>): (r: Result<seq<Point>>)
    ensures r.Success? <==> forall i :: 0 <= i < |items| ==> DecodePoint(items[i]).Success?
    ensures r.Success? ==> |r.value| == |items|
                           && forall i :: 0 <= i < |r.value| ==> DecodePoint(items[i]) == Success(r.value[i])
  {
    if |items| == 0 then Success([])
    else
      var p :- DecodePoint(items[0]);
      var rest :- DecodePointList(items[1..]);
      assert forall i :: 1 <= i < |items| ==> items[1..][i - 1] == items[i];
      Success([p] + rest)
  }

  /** `Line(node, orientation)`. A map node carries a style, an optional
      "pad-location" (only exactly "bottom" moves the line to the bottom
      pad) and the line itself under "value"; any other node is the line
      itself. An unspecified line is a list of exactly two points; a
      horizontal line is one y value and a vertical line one x value, the
      other coordinate being NaN. */
  function LineFromNode(node: Node, orientation: Orientation): (r: Result<Line>)
    ensures r.Success? ==> (r.value.style.Some? <==> node.Map?)
    ensures r.Success? ==> (r.value.pad == Bottom <==>
      node.Map? && node.Get("pad-location").AsString() == Success("bottom"))
    ensures r.Success? && orientation == Horizontal ==>
      r.value.start.x.None? && r.value.end.x.None? && r.value.start.y == r.value.end.y
    ensures r.Success? && orientation == Vertical ==>
      r.value.start.y.None? && r.value.end.y.None? && r.value.start.x == r.value.end.x
    ensures orientation == Unspecified && r.Success? ==>
      var config := if node.Map? then node.Get("value") else node;
      DecodePoints(config).Success? && DecodePoints(config).value == [r.value.start, r.value.end]
    ensures orientation == Unspecified ==>
      var config := if node.Map? then node.Get("value") else node;
      DecodePoints(config).Success? && |DecodePoints(config).value| != 2 ==> r.Failure?
    ensures r.Success? && orientation == Horizontal ==>
      var config := if node.Map? then node.Get("value") else node;
      config.AsFloat() == Success(r.value.start.y)
    ensures r.Success? && orientation == Vertical ==>
      var config := if node.Map? then node.Get("value") else node;
      config.AsFloat() == Success(r.value.start.x)
    ensures r.Success? && node.Map? ==> ParseLineStyle(node, DefaultLineStyle) == Success(r.value.style.value)
    ensures r.Success? <==>
      var config := if node.Map? then node.Get("value") else node;
      && (node.Map? ==> ParseLineStyle(node, DefaultLineStyle).Success?)
      && (node.Map? && node.Get("pad-location").IsDefined() ==> node.Get("pad-location").AsString().Success?)
      && (orientation == Unspecified ==> DecodePoints(config).Success? && |DecodePoints(config).value| == 2)
      && (orientation != Unspecified ==> config.AsFloat().Success?)
  {
    var style :- if node.Map? then (var s :- ParseLineStyle(node, DefaultLineStyle); Success(Some(s))) else Success(None);
    var pad :-
      if node.Map? && node.Get("pad-location").IsDefined() then
        var l :- node.Get("pad-location").AsString();
        Success(if l == "bottom" then Bottom else Top)
      else Success(Top);
    var config := if node.Map? then node.Get("value") else node;
    if orientation == Unspecified then
      var points :- DecodePoints(config);
      if |points| != 2 then Failure("A line is defined by exactly two points")
      else Success(Line(points[0], points[1], style, pad))
    else
      var value :- config.AsFloat();
      if orientation == Horizontal then Success(Line(Point(None, value), Point(None, value), style, pad))
      else Success(Line(Point(value, None), Point(value, None), style, pad))
  }

  /** The node of a line's coordinates: two points, or the one coordinate
      of a horizontal or vertical line. */
  function LineValueNode(l: Line, orientation: Orientation): (r: Node) {
    match orientation
    case Unspecified => Sequence([EncodePoint(l.start), EncodePoint(l.end)])
    case Horizontal => FloatNode(l.start.y)
    case Vertical => FloatNode(l.start.x)
  }

  /** A line written as a node: a styled line is a map with the style, the
      pad and the coordinates under "value"; an unstyled one is its
      coordinates alone. */
  function LineNode(l: Line, orientation: Orientation): (r: Node)
    requires l.style.Some? ==> l.style.value.lineColor.Index?
    ensures r.Map? <==> l.style.Some?
  {
    if l.style.None? then LineValueNode(l, orientation)
    else
      var ls := l.style.value;
      Map([("line-color", ColorNode(ls.lineColor)), ("line-type", IntNode(ls.lineType)),
           ("line-width", FloatNode(ls.lineWidth)),
           ("pad-location", TextNode(if l.pad == Bottom then "bottom" else "top")),
           ("value", LineValueNode(l, orientation))])
  }

  /** A line a node can describe: only a map carries a style or moves the
      line to the bottom pad, and a horizontal or vertical line has one
      coordinate, the other being NaN. */
  predicate EncodableLine(l: Line, orientation: Orientation) {
    && (l.style.None? ==> l.pad == Top)
    && (l.style.Some? ==> EncodableLineStyle(l.style.value))
    && (orientation == Horizontal ==> l.start == l.end && l.start.x.None?)
    && (orientation == Vertical ==> l.start == l.end && l.start.y.None?)
  }

  const LineKeys: seq<string> := ["line-color", "line-type", "line-width", "pad-location", "value"]

  lemma LineKeysDistinct()
    ensures forall i, j :: 0 <= i < j < |LineKeys| ==> LineKeys[i] != LineKeys[j]
  {
  }

  lemma LineNodeGet(l: Line, orientation: Orientation, i: nat)
    requires l.style.Some? && l.style.value.lineColor.Index?
    requires i < |LineKeys|
    ensures LineNode(l, orientation).Get(LineKeys[i]) == LineNode(l, orientation).entries[i].1
  {
    var e := LineNode(l, orientation).entries;
    assert |e| == |LineKeys| && forall k :: 0 <= k < |e| ==> e[k].0 == LineKeys[k];
    LineKeysDistinct();
    LookupFinds(e, i);
  }

  /** A styled line's node holds its style, pad and coordinates. */
  lemma LineNodeGets(l: Line, orientation: Orientation)
    requires l.style.Some? && l.style.value.lineColor.Index?
    ensures var node := LineNode(l, orientation);
      && node.Get("line-color") == ColorNode(l.style.value.lineColor)
      && node.Get("line-type") == IntNode(l.style.value.lineType)
      && node.Get("line-width") == FloatNode(l.style.value.lineWidth)
      && node.Get("pad-location") == TextNode(if l.pad == Bottom then "bottom" else "top")
      && node.Get("value") == LineValueNode(l, orientation)
  {
    LineNodeGet(l, orientation, 0);
    LineNodeGet(l, orientation, 1);
    LineNodeGet(l, orientation, 2);
    LineNodeGet(l, orientation, 3);
    LineNodeGet(l, orientation, 4);
  }

  /** Reading a line's coordinates back gives the line's points. */
  lemma LineValueRoundTrip(l: Line, orientation: Orientation)
    requires EncodableLine(l, orientation)
    ensures var config := LineValueNode(l, orientation);
      && (orientation == Unspecified ==> DecodePoints(config) == Success([l.start, l.end]))
      && (orientation == Horizontal ==> config.AsFloat() == Success(l.start.y))
      && (orientation == Vertical ==> config.AsFloat() == Success(l.start.x))
  {
    if orientation == Unspecified {
      var config := LineValueNode(l, orientation);
      PointRoundTrip(l.start);
      PointRoundTrip(l.end);
      assert config.items[0] == EncodePoint(l.start) && config.items[1] == EncodePoint(l.end);
      var d := DecodePoints(config);
      assert d.Success?;
      assert d.value[0] == l.start && d.value[1] == l.end;
      assert d.value == [l.start, l.end];
    }
  }

  /** A line written as a node reads back as that line. */
  lemma LineRoundTrip(l: Line, orientation: Orientation)
    requires EncodableLine(l, orientation)
    ensures LineFromNode(LineNode(l, orientation), orientation) == Success(l)
  {
    var node := LineNode(l, orientation);
    LineValueRoundTrip(l, orientation);
    if l.style.Some? {
      LineNodeGets(l, orientation);
      assert "top" != "bottom";
    }
    var r := LineFromNode(node, orientation);
    assert r.Success?;
    assert r.value.start == l.start && r.value.end == l.end;
    assert r.value.style == l.style;
  }

  // ---------------------------------------------------------------------
  // Legend entries

  /** One legend entry. `source` identifies the drawn object the entry
      describes (the file it comes from), or is absent for an entry that is
      styled by hand, such as the uncertainty band or a padding entry. */
  datatype LegendEntry = LegendEntry(
    source: Option<nat>,
    legend: string,
    style: string,
    order: int,
    fillStyle: int,
    fillColor: int,
    lineWidth: nat)

  /** `LegendEntry()`: the empty entry used to pad legend columns. */
  const EmptyEntry: LegendEntry := LegendEntry(None, "", "", 0, 0, 0, 0)

  /** The drawing attributes of a ROOT legend entry that `stylize` sets. */
  datatype EntryAttributes = EntryAttributes(lineWidth: int, lineColor: int, fillStyle: int, fillColor: int)

  /** `LegendEntry::stylize`: an entry describing an object keeps the
      attributes ROOT gave it; a hand-styled entry takes its own line width,
      fill style and fill colour, the fill colour serving as line colour
      too. */
  function Stylize(e: LegendEntry, drawn: EntryAttributes): (r: EntryAttributes)
    ensures e.source.Some? ==> r == drawn
    ensures e.source.None? ==> r.lineWidth == e.lineWidth && r.lineColor == e.fillColor
                               && r.fillStyle == e.fillStyle && r.fillColor == e.fillColor
  {
    if e.source.Some? then drawn
    else EntryAttributes(e.lineWidth, e.fillColor, e.fillStyle, e.fillColor)
  }
}

=== FILE: utilities.dfy ===
/** Small helpers of the plotting tool: substring replacement, name
    truncation for console tables, pair accumulation, colour decoding from
    `#rrggbb` / `#aarrggbb` strings, and the positive minimum of a drawable
    object. Strings are byte strings: one `char` stands for one byte. */
module Utilities {
  import opened Wrappers
  import opened Vectors
  import opened Histograms
  import opened Yaml

  // ---------------------------------------------------------------------
  // Substring search and replacement

  predicate StartsWith(s: string, p: string) {
    |p| <= |s| && s[..|p|] == p
  }

  /** `pat` occurs in `s` starting at index `i`. */
  predicate OccursAt(s: string, pat: string, i: nat) {
    i + |pat| <= |s| && s[i..i + |pat|] == pat
  }

  /** `std::string::find(pat, from)`: the first index at or after `from`
      at which `pat` occurs. */
  function FindFrom(s: string, pat: string, from: nat): (r: Option<nat>)
    requires from <= |s|
    ensures r.Some? ==> from <= r.value <= |s| && OccursAt(s, pat, r.value)
                        && forall j :: from <= j < r.value ==> !OccursAt(s, pat, j)
    ensures r.None? ==> forall j :: from <= j <= |s| ==> !OccursAt(s, pat, j)
    decreases |s| - from
  {
    if OccursAt(s, pat, from) then Some(from)
    else if from == |s| then None
    else FindFrom(s, pat, from + 1)
  }

  /** `std::string::find(pat)`: the first index at which `pat` occurs. */
  function Find(s: string, pat: string): (r: Option<nat>)
    ensures r.Some? ==> r.value <= |s| && OccursAt(s, pat, r.value)
                        && forall j :: 0 <= j < r.value ==> !OccursAt(s, pat, j)
    ensures r.None? ==> forall j :: 0 <= j <= |s| ==> !OccursAt(s, pat, j)
  {
    FindFrom(s, pat, 0)
  }

  /** Left-to-right replacement of every occurrence of `pat`, where each
      search resumes right after the text just inserted. This is the loop of
      `replace_substr` once no match at index 0 is pending. */
  function ReplaceAll(s: string, pat: string, rep: string): (r: string)
    requires |pat| > 0
    ensures Find(s, pat).None? ==> r == s
    decreases |s|
  {
    match Find(s, pat)
    case None => s
    case Some(p) => s[..p] + rep + ReplaceAll(s[p + |pat|..], pat, rep)
  }

  /** `replace_substr(s, pat, rep)`. The loop searches from index 0 whenever
      the previous match was at index 0, so a match at the front restarts
      the search over the freshly inserted text. It terminates only when
      `pat` is non-empty and, if `s` starts with `pat`, `rep` does not. */
  function ReplaceSubstr(s: string, pat: string, rep: string): (r: string)
    requires |pat| > 0
    requires StartsWith(s, pat) ==> !StartsWith(rep, pat)
    ensures Find(s, pat).None? ==> r == s
    ensures !StartsWith(s, pat) ==> r == ReplaceAll(s, pat, rep)
    decreases |s| + (if StartsWith(s, pat) then |rep| + 1 else 0)
  {
    if StartsWith(s, pat) then
      var next := rep + s[|pat|..];
      assert |rep| >= |pat| ==> !StartsWith(next, pat) by {
        if |rep| >= |pat| {
          assert next[..|pat|] == rep[..|pat|];
        }
      }
      ReplaceSubstr(next, pat, rep)
    else
      ReplaceAll(s, pat, rep)
  }

  /** Replacing a string by itself changes nothing. */
  lemma {:induction false} ReplaceAllIdentity(s: string, pat: string)
    requires |pat| > 0
    ensures ReplaceAll(s, pat, pat) == s
    decreases |s|
  {
    match Find(s, pat)
    case None =>
    case Some(p) =>
      ReplaceAllIdentity(s[p + |pat|..], pat);
      assert s[..p] + pat + s[p + |pat|..] == s by {
        assert s[p..p + |pat|] == pat;
        assert s == s[..p] + s[p..p + |pat|] + s[p + |pat|..];
      }
  }

  /** The restart at index 0: `"abz"` with `"ab"` replaced by `"xab"` gives
      `"xxabz"`, where a plain left-to-right replacement gives `"xabz"`. */
  lemma ReplaceRestartsAfterFrontMatch()
    ensures !StartsWith("xab", "ab") && ReplaceSubstr("abz", "ab", "xab") == "xxabz"
    ensures ReplaceAll("abz", "ab", "xab") == "xabz"
  {
    assert "xab"[0] == 'x';
    assert "xab" + "abz"[2..] == "xabz";
    assert !StartsWith("xabz", "ab") by {
      assert "xabz"[0] == 'x';
    }
    ReplaceInAbz();
    ReplaceInXabz();
  }

  lemma ReplaceInAbz()
    ensures ReplaceAll("abz", "ab", "xab") == "xabz"
  {
    assert FindFrom("z", "ab", 0) == FindFrom("z", "ab", 1) == None;
    assert ReplaceAll("z", "ab", "xab") == "z";
    assert OccursAt("abz", "ab", 0) by {
      assert "abz"[0..2] == "ab";
    }
    assert Find("abz", "ab") == Some(0);
    assert "abz"[2..] == "z";
    assert ReplaceAll("abz", "ab", "xab") == "xab" + "z";
  }

  lemma ReplaceInXabz()
    ensures ReplaceAll("xabz", "ab", "xab") == "xxabz"
  {
    assert FindFrom("z", "ab", 0) == FindFrom("z", "ab", 1) == None;
    assert ReplaceAll("z", "ab", "xab") == "z";
    assert OccursAt("xabz", "ab", 1) by {
      assert "xabz"[1..3] == "ab";
    }
    assert !OccursAt("xabz", "ab", 0) by {
      assert "xabz"[0] == 'x';
    }
    assert Find("xabz", "ab") == Some(1);
    assert "xabz"[..1] == "x" && "xabz"[3..] == "z";
    assert ReplaceAll("xabz", "ab", "xab") == "x" + "xab" + "z";
  }

  /** A one-character pattern occurs exactly where that character is. */
  lemma OccursChar(s: string, c: char, i: nat)
    requires i < |s|
    ensures OccursAt(s, [c], i) <==> s[i] == c
  {
    assert s[i..i + 1] == [s[i]];
  }

  /** Every underscore of `s` comes right after a backslash. */
  predicate UnderscoresEscaped(s: string) {
    forall i :: 0 <= i < |s| && s[i] == '_' ==> 0 < i && s[i - 1] == '\\'
  }

  /** Replacing every `_` by `\_` from left to right leaves no underscore
      without a backslash in front. */
  lemma {:induction false} ReplaceAllEscapes(s: string)
    ensures UnderscoresEscaped(ReplaceAll(s, "_", "\\_"))
    decreases |s|
  {
    var r := ReplaceAll(s, "_", "\\_");
    match Find(s, "_")
    case None =>
      forall i | 0 <= i < |s| ensures s[i] != '_' {
        OccursChar(s, '_', i);
      }
    case Some(p) =>
      var rest := ReplaceAll(s[p + 1..], "_", "\\_");
      ReplaceAllEscapes(s[p + 1..]);
      assert r == s[..p] + "\\_" + rest;
      forall i | 0 <= i < |r| && r[i] == '_' ensures 0 < i && r[i - 1] == '\\' {
        if i < p {
          assert r[i] == s[i];
          OccursChar(s, '_', i);
        } else if i > p + 1 {
          assert r[i] == rest[i - p - 2];
          if i > p + 2 {
            assert r[i - 1] == rest[i - p - 3];
          }
        }
      }
  }

  // ---------------------------------------------------------------------
  // Truncation of names for console tables

  /** The largest `size_t`. */
  const SizeMax: nat := 0xFFFF_FFFF_FFFF_FFFF

  /** UTF-8 encoding of the horizontal ellipsis, three bytes. */
  const Ellipsis: string := [0xE2 as char, 0x80 as char, 0xA6 as char]

  /** `truncate(str, max_len)`: strings longer than `max_len - 1` bytes are cut
      to `max_len - 1` bytes followed by an ellipsis. `max_len - 1` is computed
      in `size_t`, so `max_len == 0` wraps to the largest size and returns the
      string unchanged. */
  function Truncate(str: string, maxLen: nat): (r: string)
    requires maxLen <= SizeMax
    ensures var limit := if maxLen == 0 then SizeMax else maxLen - 1;
      && (|str| <= limit ==> r == str)
      && (|str| > limit ==> |r| == limit + |Ellipsis| && r[..limit] == str[..limit]
                            && r[limit..] == Ellipsis)
  {
    var limit := if maxLen == 0 then SizeMax else maxLen - 1;
    if |str| > limit then str[..limit] + Ellipsis else str
  }

  lemma TruncateIdempotent(str: string, maxLen: nat)
    requires 0 < maxLen <= SizeMax
    ensures Truncate(Truncate(str, maxLen), maxLen) == Truncate(str, maxLen)
  {
    var t := Truncate(str, maxLen);
    if |str| > maxLen - 1 {
      assert t[..maxLen - 1] == str[..maxLen - 1];
    }
  }

  // ---------------------------------------------------------------------
  // ADD_PAIRS

  /** `ADD_PAIRS(p1, p2)`: both components of `p2` added into `p1`. */
  function AddPairs(p1: (real, real), p2: (real, real)): (r: (real, real))
    ensures r.0 - p1.0 == p2.0 && r.1 - p1.1 == p2.1
  {
    (p1.0 + p2.0, p1.1 + p2.1)
  }

  /** Accumulating pairs one by one with `AddPairs`, starting from zero. */
  function AccumulatePairs(ps: seq<(real, real)>): (r: (real, real))
  {
    if |ps| == 0 then (0.0, 0.0) else AddPairs(AccumulatePairs(ps[..|ps| - 1]), ps[|ps| - 1])
  }

  function Firsts(ps: seq<(real, real)>): (r: seq<real>)
    ensures |r| == |ps| && forall i :: 0 <= i < |ps| ==> r[i] == ps[i].0
  {
    seq(|ps|, i requires 0 <= i < |ps| => ps[i].0)
  }

  function Seconds(ps: seq<(real, real)>): (r: seq<real>)
    ensures |r| == |ps| && forall i :: 0 <= i < |ps| ==> r[i] == ps[i].1
  {
    seq(|ps|, i requires 0 <= i < |ps| => ps[i].1)
  }

  /** Accumulated pairs hold the sum of the first and of the second components. */
  lemma {:induction false} AccumulatePairsSums(ps: seq<(real, real)>)
    ensures AccumulatePairs(ps) == (Sum(Firsts(ps)), Sum(Seconds(ps)))
  {
    if |ps| > 0 {
      var init := ps[..|ps| - 1];
      AccumulatePairsSums(init);
      assert Firsts(ps) == Firsts(init) + [ps[|ps| - 1].0];
      assert Seconds(ps) == Seconds(init) + [ps[|ps| - 1].1];
      SumAppend(Firsts(init), [ps[|ps| - 1].0]);
      SumAppend(Seconds(init), [ps[|ps| - 1].1]);
    }
  }

  // ---------------------------------------------------------------------
  // Colours

  /** A colour as the style code sees it: a ROOT colour index, or a custom
      colour with red, green, blue and alpha in [0, 1]. The index ROOT hands
      out for a custom colour comes from a global counter and is not part of
      this model. */
  datatype Color = Index(index: int) | Rgba(r: real, g: real, b: real, a: real)

  function HexDigitValue(c: char): Option<nat>
  {
    if '0' <= c <= '9' then Some(c as nat - '0' as nat)
    else if 'a' <= c <= 'f' then Some(c as nat - 'a' as nat + 10)
    else if 'A' <= c <= 'F' then Some(c as nat - 'A' as nat + 10)
    else None
  }

  /** The hex digits at the front of `s`, read up to the first character
      that is not one and appended to a value `acc` already read. */
  function ParseHex(s: string, acc: nat): nat
  {
    if |s| == 0 || HexDigitValue(s[0]).None? then acc
    else ParseHex(s[1..], acc * 16 + HexDigitValue(s[0]).value)
  }

  /** The characters that formatted input skips: space, tab, newline,
      vertical tab, form feed and carriage return. */
  predicate IsSpace(c: char) {
    c == ' ' || c == '\t' || c == '\n' || c == 11 as char || c == 12 as char || c == '\r'
  }

  /** `s` without its leading whitespace. */
  function SkipSpaces(s: string): (r: string)
    ensures |r| <= |s| && r == s[|s| - |r|..]
    ensures |r| > 0 ==> !IsSpace(r[0])
    ensures forall i :: 0 <= i < |s| - |r| ==> IsSpace(s[i])
  {
    if |s| > 0 && IsSpace(s[0]) then
      var r := SkipSpaces(s[1..]);
      assert forall i :: 1 <= i < |s| - |r| ==> s[i] == s[1..][i - 1];
      r
    else s
  }

  const TwoTo32: nat := 0x1_0000_0000

  /** `ss << std::hex << c; ss >> color` into a `uint32_t` that starts at 0,
      as the GNU C++ library extracts it. Leading whitespace is skipped, then
      one `+` or `-`, then one `0x` or `0X`, and the hex digits that follow
      are read up to the first other character. No digit leaves 0, since a
      failed extraction stores 0. A value beyond 32 bits fails and stores
      0xffffffff. A `-` negates the value modulo 2^32. */
  function ReadHex32(s: string): (r: nat)
    ensures r < TwoTo32
  {
    ReadSignedHex32(SkipSpaces(s))
  }

  /** The extraction once the whitespace is skipped. */
  function ReadSignedHex32(t: string): (r: nat)
    ensures r < TwoTo32
  {
    var negative := |t| > 0 && t[0] == '-';
    var unsigned := if |t| > 0 && (t[0] == '-' || t[0] == '+') then t[1..] else t;
    var digits := if |unsigned| >= 2 && unsigned[0] == '0' && (unsigned[1] == 'x' || unsigned[1] == 'X')
                  then unsigned[2..] else unsigned;
    var v := ParseHex(digits, 0);
    if v >= TwoTo32 then TwoTo32 - 1
    else if negative then (if v == 0 then 0 else TwoTo32 - v)
    else v
  }

  /** Text that starts with two hex digits is read as its hex digits. */
  lemma ReadHexOfDigits(s: string)
    requires |s| >= 2 && HexDigitValue(s[0]).Some? && HexDigitValue(s[1]).Some?
    requires ParseHex(s, 0) < TwoTo32
    ensures ReadHex32(s) == ParseHex(s, 0)
  {
    assert !IsSpace(s[0]);
    assert SkipSpaces(s) == s;
  }

  /** Leading whitespace does not change what is read. */
  lemma ReadHexSkipsSpace(s: string)
    requires |s| > 0 && IsSpace(s[0])
    ensures ReadHex32(s) == ReadHex32(s[1..])
  {
    assert SkipSpaces(s) == SkipSpaces(s[1..]);
  }

  /** After `0x` or `0X` the digits are read as hex, and a value beyond 32
      bits saturates to 0xffffffff. */
  lemma ReadHexSkipsPrefix(d: string)
    ensures ReadHex32("0x" + d) == ReadHex32("0X" + d)
    ensures ReadHex32("0x" + d) == if ParseHex(d, 0) >= TwoTo32 then TwoTo32 - 1 else ParseHex(d, 0)
  {
    var t, u := "0x" + d, "0X" + d;
    assert t[0] == '0' && u[0] == '0' && t[1] == 'x' && u[1] == 'X';
    assert SkipSpaces(t) == t && SkipSpaces(u) == u;
    assert t[2..] == d && u[2..] == d;
  }

  /** A `+` sign changes nothing for text that starts with neither
      whitespace nor a sign. */
  lemma ReadHexPlusSign(d: string)
    requires |d| > 0 ==> !IsSpace(d[0]) && d[0] != '+' && d[0] != '-'
    ensures ReadHex32("+" + d) == ReadHex32(d)
  {
    var t := "+" + d;
    assert t[0] == '+' && t[1..] == d;
    assert SkipSpaces(t) == t;
    assert |d| > 0 ==> SkipSpaces(d) == d;
  }

  /** A `-` sign negates the value modulo 2^32, unless the unsigned
      reading is all ones (which a value beyond 32 bits also reads as). */
  lemma ReadHexMinusSign(d: string)
    ensures ReadHex32("+" + d) == TwoTo32 - 1 || (ReadHex32("-" + d) + ReadHex32("+" + d)) % TwoTo32 == 0
  {
    var p, m := "+" + d, "-" + d;
    assert p[0] == '+' && m[0] == '-' && p[1..] == d && m[1..] == d;
    assert SkipSpaces(p) == p && SkipSpaces(m) == m;
  }

  function Pow16(n: nat): (r: nat)
    ensures r >= 1
  {
    if n == 0 then 1 else 16 * Pow16(n - 1)
  }

  /** Reading `s` after a value `acc` stays below `(acc + 1) * 16^|s|`. */
  lemma {:induction false} ParseHexBound(s: string, acc: nat)
    ensures ParseHex(s, acc) < (acc + 1) * Pow16(|s|)
    decreases |s|
  {
    if |s| == 0 || HexDigitValue(s[0]).None? {
      assert acc < acc + 1 <= (acc + 1) * Pow16(|s|);
    } else {
      var d := HexDigitValue(s[0]).value;
      var next := acc * 16 + d;
      ParseHexBound(s[1..], next);
      assert d < 16;
      var p := Pow16(|s| - 1);
      assert Pow16(|s|) == 16 * p;
      assert next + 1 <= (acc + 1) * 16;
      MulMonotone(next + 1, (acc + 1) * 16, p);
      assert ((acc + 1) * 16) * p == (acc + 1) * (16 * p);
    }
  }

  lemma MulMonotone(a: nat, b: nat, c: nat)
    requires a <= b
    ensures a * c <= b * c
  {
  }

  lemma {:induction false} Pow16Monotone(m: nat, n: nat)
    requires m <= n
    ensures Pow16(m) <= Pow16(n)
    decreases n
  {
    if m < n {
      Pow16Monotone(m, n - 1);
    }
  }

  /** At most eight hex digits never reach 2^32, so the colour texts of
      `loadColor` never saturate. */
  lemma EightDigitsFit(s: string)
    requires |s| <= 8
    ensures ParseHex(s, 0) < TwoTo32
  {
    ParseHexBound(s, 0);
    Pow16Monotone(|s|, 8);
    assert Pow16(8) == TwoTo32;
  }

  /** `#` followed by six or eight characters: the form `loadColor` reads
      as a hexadecimal colour. */
  predicate IsHexColorText(value: string) {
    (|value| == 7 || |value| == 9) && value[0] == '#'
  }

  /** The colour of a 32-bit value read as `aarrggbb`: red, green and blue
      are bits 16-23, 8-15 and 0-7 divided by 255, and alpha is the top
      byte divided by 255 only when the value exceeds 0xffffff (otherwise
      1). */
  function ColorOfValue(v: nat): (c: Color)
    requires v < TwoTo32
    ensures c.Rgba? && 0.0 <= c.a <= 1.0
    ensures c.r == ((v / 0x10000) % 256) as real / 255.0
    ensures c.g == ((v / 0x100) % 256) as real / 255.0
    ensures c.b == (v % 256) as real / 255.0
    ensures c.a == if v > 0xFF_FFFF then (v / 0x100_0000) as real / 255.0 else 1.0
  {
    var a := if v > 0xFF_FFFF then (v / 0x100_0000) as real / 255.0 else 1.0;
    Rgba(((v / 0x10000) % 256) as real / 255.0,
         ((v / 0x100) % 256) as real / 255.0,
         (v % 256) as real / 255.0,
         a)
  }

  /** `loadColor(node)`. A scalar whose text is `#` followed by six or eight
      characters is read by stream extraction (`ReadHex32`), meant as
      hexadecimal `rrggbb` or `aarrggbb`, and decoded by `ColorOfValue`.
      Any other node must convert to a 16-bit colour index. */
  function LoadColor(node: Node): (r: Result<Color>)
    ensures node.Scalar? && IsHexColorText(node.text) ==>
      r == Success(ColorOfValue(ReadHex32(node.text[1..])))
    ensures !(node.Scalar? && IsHexColorText(node.text)) ==>
      (r.Success? <==> node.AsInt16().Success?) && (r.Success? ==> r.value == Index(node.AsInt16().value))
  {
    var value :- node.AsString();
    if |value| > 1 && value[0] == '#' && (|value| == 7 || |value| == 9) then
      Success(ColorOfValue(ReadHex32(value[1..])))
    else
      var index :- node.AsInt16();
      Success(Index(index))
  }

  /** A hex colour text whose digits read as `v` loads as `v`'s colour. */
  lemma LoadHexText(text: string, v: nat)
    requires IsHexColorText(text) && ReadHex32(text[1..]) == v
    ensures LoadColor(Scalar(text, None)) == Success(ColorOfValue(v))
  {
  }

  /** Lower-case hexadecimal digit for a value below 16. */
  function HexChar(d: nat): (c: char)
    requires d < 16
    ensures HexDigitValue(c) == Some(d)
  {
    if d < 10 then ('0' as nat + d) as char else ('a' as nat + d - 10) as char
  }

  /** The two hex digits of a byte. */
  function HexByte(b: nat): (s: string)
    requires b < 256
    ensures |s| == 2
  {
    [HexChar(b / 16), HexChar(b % 16)]
  }

  /** `#rrggbb` for three bytes. */
  function HexColor(r: nat, g: nat, b: nat): (s: string)
    requires r < 256 && g < 256 && b < 256
    ensures |s| == 7 && s[0] == '#'
  {
    "#" + HexByte(r) + HexByte(g) + HexByte(b)
  }

  lemma {:induction false} ParseHexAppend(s: string, t: string, acc: nat)
    requires forall i :: 0 <= i < |s| ==> HexDigitValue(s[i]).Some?
    ensures ParseHex(s + t, acc) == ParseHex(t, ParseHex(s, acc))
  {
    if |s| == 0 {
      assert s + t == t;
    } else {
      assert (s + t)[0] == s[0];
      assert (s + t)[1..] == s[1..] + t;
      assert forall i :: 0 <= i < |s[1..]| ==> HexDigitValue(s[1..][i]).Some? by {
        forall i | 0 <= i < |s[1..]|
          ensures HexDigitValue(s[1..][i]).Some?
        {
          assert s[1..][i] == s[i + 1];
        }
      }
      ParseHexAppend(s[1..], t, acc * 16 + HexDigitValue(s[0]).value);
    }
  }

  lemma ParseHexByte(b: nat, acc: nat)
    requires b < 256
    ensures ParseHex(HexByte(b), acc) == acc * 256 + b
  {
    var s := HexByte(b);
    assert s[1..][1..] == [];
    assert ParseHex(s, acc) == ParseHex(s[1..], acc * 16 + b / 16);
    assert ParseHex(s[1..], acc * 16 + b / 16) == (acc * 16 + b / 16) * 16 + b % 16;
  }

  lemma ByteFields(r: nat, g: nat, b: nat)
    requires r < 256 && g < 256 && b < 256
    ensures var v := (r * 256 + g) * 256 + b;
      v <= 0xFF_FFFF && (v / 0x10000) % 256 == r && (v / 0x100) % 256 == g && v % 256 == b
  {
    var v := (r * 256 + g) * 256 + b;
    assert v == r * 0x10000 + g * 0x100 + b;
    assert v / 0x10000 == r by {
      assert r * 0x10000 <= v < (r + 1) * 0x10000;
    }
    assert v / 0x100 == r * 256 + g by {
      assert (r * 256 + g) * 0x100 <= v < (r * 256 + g + 1) * 0x100;
    }
    assert (r * 256 + g) % 256 == g;
  }

  /** Writing three bytes as `#rrggbb` and loading the colour back gives
      those bytes divided by 255, fully opaque. */
  lemma HexColorRoundTrip(r: nat, g: nat, b: nat)
    requires r < 256 && g < 256 && b < 256
    ensures LoadColor(Scalar(HexColor(r, g, b), None))
            == Success(Rgba(r as real / 255.0, g as real / 255.0, b as real / 255.0, 1.0))
  {
    var v := (r * 256 + g) * 256 + b;
    HexColorValue(r, g, b);
    LoadHexText(HexColor(r, g, b), v);
    ColorOfBytes(r, g, b);
  }

  /** Three bytes packed as `rrggbb` decode to those bytes, opaque. */
  lemma ColorOfBytes(r: nat, g: nat, b: nat)
    requires r < 256 && g < 256 && b < 256
    ensures ColorOfValue((r * 256 + g) * 256 + b) == Rgba(r as real / 255.0, g as real / 255.0, b as real / 255.0, 1.0)
  {
    ByteFields(r, g, b);
  }

  /** The digits after `#` read back as the 24-bit value of the three bytes. */
  lemma HexColorValue(r: nat, g: nat, b: nat)
    requires r < 256 && g < 256 && b < 256
    ensures ParseHex(HexColor(r, g, b)[1..], 0) == (r * 256 + g) * 256 + b
    ensures ReadHex32(HexColor(r, g, b)[1..]) == (r * 256 + g) * 256 + b
  {
    var s := HexColor(r, g, b);
    var rg := HexByte(r) + HexByte(g);
    assert forall i :: 0 <= i < 2 ==> HexDigitValue(HexByte(r)[i]).Some?;
    assert forall i :: 0 <= i < 4 ==> HexDigitValue(rg[i]).Some?;
    assert s[1..] == rg + HexByte(b);
    ParseHexAppend(rg, HexByte(b), 0);
    ParseHexAppend(HexByte(r), HexByte(g), 0);
    ParseHexByte(r, 0);
    ParseHexByte(g, r);
    ParseHexByte(b, r * 256 + g);
    assert s[1] == HexChar(r / 16) && s[2] == HexChar(r % 16);
    ReadHexOfDigits(s[1..]);
  }

  /** An eight-digit colour whose alpha byte is 00 reads as opaque: the value
      does not exceed 0xffffff, so alpha falls back to 1. */
  lemma ZeroAlphaIsOpaque()
    ensures LoadColor(Scalar("#00ff0000", None)) == Success(Rgba(1.0, 0.0, 0.0, 1.0))
  {
    ZeroAlphaValue();
    LoadHexText("#00ff0000", 0xff0000);
    RedValue();
  }

  lemma ZeroAlphaValue()
    ensures ParseHex("00ff0000", 0) == 0xff0000
    ensures ReadHex32("00ff0000") == ReadHex32("#00ff0000"[1..]) == 0xff0000
  {
    assert ParseHex("00ff0000", 0) == ParseHex("0ff0000", 0);
    assert ParseHex("0ff0000", 0) == ParseHex("ff0000", 0);
    assert ParseHex("ff0000", 0) == ParseHex("f0000", 15);
    assert ParseHex("f0000", 15) == ParseHex("0000", 255);
    assert ParseHex("0000", 255) == ParseHex("000", 255 * 16);
    assert ParseHex("000", 255 * 16) == ParseHex("00", 255 * 256);
    assert ParseHex("00", 255 * 256) == ParseHex("0", 255 * 4096);
    assert ParseHex("0", 255 * 4096) == ParseHex("", 255 * 65536);
    ReadHexOfDigits("00ff0000");
    assert "#00ff0000"[1..] == "00ff0000";
  }

  /** The stream reads more than bare digits: a `0x` prefix or leading
      spaces are skipped, so `#0xff00` and `#  ff00` are the same green as
      `#00ff00`. */
  lemma PrefixedColorsRead()
    ensures LoadColor(Scalar("#0xff00", None)) == Success(Rgba(0.0, 1.0, 0.0, 1.0))
    ensures LoadColor(Scalar("#  ff00", None)) == Success(Rgba(0.0, 1.0, 0.0, 1.0))
  {
    GreenReads();
    LoadHexText("#0xff00", 0xff00);
    LoadHexText("#  ff00", 0xff00);
    GreenColor();
  }

  lemma GreenReads()
    ensures ReadHex32("#0xff00"[1..]) == 0xff00 && ReadHex32("#  ff00"[1..]) == 0xff00
  {
    PrefixedGreenReads();
    SpacedGreenReads();
    assert "#0xff00"[1..] == "0xff00" && "#  ff00"[1..] == "  ff00";
  }

  lemma GreenValue()
    ensures ParseHex("ff00", 0) == 0xff00
  {
    assert ParseHex("ff00", 0) == ParseHex("f00", 15);
    assert ParseHex("f00", 15) == ParseHex("00", 255);
    assert ParseHex("00", 255) == ParseHex("0", 255 * 16);
    assert ParseHex("0", 255 * 16) == ParseHex("", 255 * 256);
  }

  lemma PrefixedGreenReads()
    ensures ReadHex32("0xff00") == 0xff00
  {
    GreenValue();
    assert "0xff00"[2..] == "ff00";
    assert !IsSpace("0xff00"[0]);
  }

  lemma SpacedGreenReads()
    ensures ReadHex32("  ff00") == 0xff00
  {
    GreenValue();
    assert "  ff00"[1..] == " ff00" && " ff00"[1..] == "ff00";
    assert !IsSpace("ff00"[0]);
    assert SkipSpaces("  ff00") == "ff00";
  }

  /** A minus sign negates modulo 2^32: `#-00001` reads as 0xffffffff,
      opaque white. */
  lemma NegativeColorWraps()
    ensures LoadColor(Scalar("#-00001", None)) == Success(Rgba(1.0, 1.0, 1.0, 1.0))
  {
    NegativeReads();
    assert "#-00001"[1..] == "-00001";
    LoadHexText("#-00001", 0xFFFF_FFFF);
    WhiteValue();
  }

  lemma RedValue()
    ensures ColorOfValue(0xff0000) == Rgba(1.0, 0.0, 0.0, 1.0)
  {
  }

  lemma GreenColor()
    ensures ColorOfValue(0xff00) == Rgba(0.0, 1.0, 0.0, 1.0)
  {
  }

  lemma WhiteValue()
    ensures ColorOfValue(0xFFFF_FFFF) == Rgba(1.0, 1.0, 1.0, 1.0)
  {
  }

  lemma NegativeReads()
    ensures ReadHex32("-00001") == 0xFFFF_FFFF
  {
    assert "-00001"[1..] == "00001";
    assert !IsSpace("-00001"[0]) && SkipSpaces("-00001") == "-00001";
    assert "00001"[1] == '0';
    assert ParseHex("00001", 0) == ParseHex("0001", 0) == ParseHex("001", 0) == ParseHex("01", 0) == ParseHex("1", 0) == 1;
  }

  // ---------------------------------------------------------------------
  // Positive minimum of a drawable object

  /** The largest finite `float`, ROOT's starting value for a minimum search. */
  const FloatMax: real := 340282346638528859811704183484516925440.0

  /** Minimum of the strictly positive values, `FloatMax` when there are none
      (ROOT's `GetMinimum(0)` over the bins given). */
  function PositiveMinimum(s: seq<real>): (r: real)
    ensures 0.0 < r <= FloatMax
    ensures forall i :: 0 <= i < |s| && s[i] > 0.0 ==> r <= s[i]
    ensures r == FloatMax || exists i :: 0 <= i < |s| && s[i] == r
  {
    if |s| == 0 then FloatMax
    else
      var m := PositiveMinimum(s[1..]);
      assert m != FloatMax ==> exists i :: 1 <= i < |s| && s[i] == m by {
        if m != FloatMax {
          var i :| 0 <= i < |s[1..]| && s[1..][i] == m;
          assert s[i + 1] == m;
        }
      }
      if 0.0 < s[0] < m then s[0] else m
  }

  /** An object handed to the axis code: a histogram, a stack of histograms,
      or anything else. */
  datatype PlotObject = HistObject(hist: Hist) | StackObject(hists: seq<Hist>) | OtherObject

  /** The histograms ROOT's `THStack::GetStack` returns: the k-th is the sum
      of the first k+1 histograms of the stack. */
  function PartialSums(hists: seq<Hist>, n: nat): (r: seq<Hist>)
    requires AllConform(hists, n)
    ensures |r| == |hists| && AllConform(r, n)
  {
    if |hists| == 0 then []
    else
      var init := PartialSums(hists[..|hists| - 1], n);
      var last := hists[|hists| - 1];
      assert Conforms(last, n);
      if |init| == 0 then [last]
      else
        assert Conforms(init[|init| - 1], n);
        init + [AddHist(init[|init| - 1], last)]
  }

  /** Integrals of a list of histograms. */
  function Integrals(hs: seq<Hist>, n: nat): (r: seq<real>)
    requires AllConform(hs, n)
    ensures |r| == |hs|
  {
    seq(|hs|, k requires 0 <= k < |hs| => assert Conforms(hs[k], n); Integral(hs[k]))
  }

  /** The k-th layer of a stack integrates to the sum of the integrals of the
      first k+1 stacked histograms. */
  lemma {:induction false} PartialSumsIntegral(hists: seq<Hist>, n: nat, k: nat)
    requires AllConform(hists, n) && k < |hists|
    ensures Conforms(PartialSums(hists, n)[k], n)
    ensures Integral(PartialSums(hists, n)[k]) == Sum(Integrals(hists[..k + 1], n))
  {
    var r := PartialSums(hists, n);
    var init := PartialSums(hists[..|hists| - 1], n);
    assert Conforms(r[k], n);
    if k < |hists| - 1 {
      assert r[k] == init[k];
      PartialSumsIntegral(hists[..|hists| - 1], n, k);
      assert hists[..|hists| - 1][..k + 1] == hists[..k + 1];
    } else if k == 0 {
      assert r[0] == hists[0];
      assert Integrals(hists[..1], n) == [Integral(hists[0])];
    } else {
      assert Conforms(init[k - 1], n) && Conforms(hists[k], n);
      assert r[k] == AddHist(init[k - 1], hists[k]);
      IntegralOfSum(init[k - 1], hists[k]);
      PartialSumsIntegral(hists[..|hists| - 1], n, k - 1);
      assert hists[..|hists| - 1][..k] == hists[..k];
      assert Integrals(hists[..k + 1], n) == Integrals(hists[..k], n) + [Integral(hists[k])];
      SumAppend(Integrals(hists[..k], n), [Integral(hists[k])]);
    }
  }

  /** Positive minimum over the regular bins 1..N of a histogram. */
  function HistPositiveMinimum(h: Hist): real
    requires h.Valid()
  {
    PositiveMinimum(h.contents[1..h.NBins() + 1])
  }

  /** Positive minimum of every layer of a stack. */
  function LayerMinima(layers: seq<Hist>, n: nat): (r: seq<real>)
    requires AllConform(layers, n)
    ensures |r| == |layers|
    ensures forall k :: 0 <= k < |layers| ==> Conforms(layers[k], n) && r[k] == HistPositiveMinimum(layers[k])
  {
    seq(|layers|, k requires 0 <= k < |layers| => assert Conforms(layers[k], n); HistPositiveMinimum(layers[k]))
  }

  /** `getPositiveMinimum(TObject*)`: the histogram's own positive minimum;
      for a stack the smallest positive minimum among the stacked partial
      sums; 0 for any other object. */
  function ObjectPositiveMinimum(o: PlotObject, n: nat): (r: real)
    requires o.HistObject? ==> o.hist.Valid()
    requires o.StackObject? ==> |o.hists| > 0 && AllConform(o.hists, n)
    ensures o.OtherObject? ==> r == 0.0
    ensures o.HistObject? ==> r == HistPositiveMinimum(o.hist)
    ensures o.StackObject? ==>
      var minima := LayerMinima(PartialSums(o.hists, n), n);
      (forall k :: 0 <= k < |minima| ==> r <= minima[k]) && (exists k :: 0 <= k < |minima| && r == minima[k])
  {
    match o
    case HistObject(h) => HistPositiveMinimum(h)
    case OtherObject => 0.0
    case StackObject(hists) => MinimumOf(LayerMinima(PartialSums(hists, n), n))
  }

  /** The loop over the stack list: start from the first value and keep any
      strictly smaller one. */
  function MinimumOf(s: seq<real>): (r: real)
    requires |s| > 0
    ensures forall k :: 0 <= k < |s| ==> r <= s[k]
    ensures exists k :: 0 <= k < |s| && r == s[k]
  {
    if |s| == 1 then s[0]
    else
      var m := MinimumOf(s[..|s| - 1]);
      assert exists k :: 0 <= k < |s| - 1 && m == s[k] by {
        var k :| 0 <= k < |s[..|s| - 1]| && m == s[..|s| - 1][k];
        assert s[..|s| - 1][k] == s[k];
      }
      assert forall k :: 0 <= k < |s| - 1 ==> m <= s[k] by {
        forall k | 0 <= k < |s| - 1
          ensures m <= s[k]
        {
          assert s[..|s| - 1][k] == s[k];
        }
      }
      if s[|s| - 1] < m then s[|s| - 1] else m
  }
}

=== FILE: vectors.dfy ===
/** Bin-wise arithmetic on sequences of reals: the vectors of per-bin values
    that the histogram operations are built from. */
module Vectors {

  /** Sum of all elements, from the front. */
  function Sum(s: seq<real>): real
  {
    if |s| == 0 then 0.0 else s[0] + Sum(s[1..])
  }

  function Zeros(n: nat): (r: seq<real>)
    ensures |r| == n
    ensures forall i :: 0 <= i < n ==> r[i] == 0.0
  {
    seq(n, _ => 0.0)
  }

  /** Element-wise sum of two vectors of the same length. */
  function Add(a: seq<real>, b: seq<real>): (r: seq<real>)
    requires |a| == |b|
    ensures |r| == |a|
    ensures forall i :: 0 <= i < |a| ==> r[i] == a[i] + b[i]
  {
    seq(|a|, i requires 0 <= i < |a| => a[i] + b[i])
  }

  /** Every element multiplied by `k`. */
  function Scale(a: seq<real>, k: real): (r: seq<real>)
    ensures |r| == |a|
    ensures forall i :: 0 <= i < |a| ==> r[i] == k * a[i]
  {
    seq(|a|, i requires 0 <= i < |a| => k * a[i])
  }

  lemma {:induction false} SumAppend(a: seq<real>, b: seq<real>)
    ensures Sum(a + b) == Sum(a) + Sum(b)
  {
    if |a| == 0 {
      assert a + b == b;
    } else {
      assert (a + b)[1..] == a[1..] + b;
      SumAppend(a[1..], b);
    }
  }

  lemma {:induction false} SumZeros(n: nat)
    ensures Sum(Zeros(n)) == 0.0
  {
    if n > 0 {
      assert Zeros(n)[1..] == Zeros(n - 1);
      SumZeros(n - 1);
    }
  }

  /** A sequence of zeros sums to zero. */
  lemma {:induction false} SumOfZeros(s: seq<real>)
    requires forall i :: 0 <= i < |s| ==> s[i] == 0.0
    ensures Sum(s) == 0.0
  {
    if |s| > 0 {
      SumOfZeros(s[1..]);
    }
  }

  /** The sum of an element-wise sum is the sum of the sums. */
  lemma {:induction false} SumAdd(a: seq<real>, b: seq<real>)
    requires |a| == |b|
    ensures Sum(Add(a, b)) == Sum(a) + Sum(b)
  {
    if |a| > 0 {
      assert Add(a, b)[1..] == Add(a[1..], b[1..]);
      SumAdd(a[1..], b[1..]);
    }
  }

  lemma {:induction false} SumScale(a: seq<real>, k: real)
    ensures Sum(Scale(a, k)) == k * Sum(a)
  {
    if |a| > 0 {
      var t := Scale(a, k)[1..];
      forall i | 0 <= i < |t|
        ensures t[i] == Scale(a[1..], k)[i]
      {
        assert t[i] == k * a[i + 1];
      }
      assert t == Scale(a[1..], k);
      SumScale(a[1..], k);
    }
  }

  lemma AddCommutes(a: seq<real>, b: seq<real>)
    requires |a| == |b|
    ensures Add(a, b) == Add(b, a)
  {
  }

  lemma AddAssociates(a: seq<real>, b: seq<real>, c: seq<real>)
    requires |a| == |b| == |c|
    ensures Add(Add(a, b), c) == Add(a, Add(b, c))
  {
  }

  lemma AddZeros(a: seq<real>)
    ensures Add(a, Zeros(|a|)) == a
  {
  }
}

=== FILE: wrappers.dfy ===
/** Failure-compatible wrappers used across the model: `Option` for values
    that may be absent (a null pointer, an unset NaN coordinate) and `Result`
    for operations that throw in the original program. */
module Wrappers {

  datatype Option<+T> = None | Some(value: T) {
    predicate IsFailure() {
      None?
    }

    function PropagateFailure<U>(): Option<U>
      requires None?
    {
      None
    }

    function Extract(): T
      requires Some?
    {
      value
    }
  }

  /** `Failure` carries the message of the exception the source would throw. */
  datatype Result<+R> = Success(value: R) | Failure(error: string) {
    predicate IsFailure() {
      Failure?
    }

    function PropagateFailure<U>(): Result<U>
      requires Failure?
    {
      Failure(error)
    }

    function Extract(): R
      requires Success?
    {
      value
    }
  }
}

=== FILE: yaml.dfy ===
/** The parsed configuration tree the core reads its settings from. The
    YAML loader itself is not part of this model: a scalar carries its text
    and, when the loader can read that text as a floating-point number, the
    number. A floating-point value is an `Option<real>` whose `None` stands
    for NaN. */
module Yaml {
  import opened Wrappers

  /** A float that may be NaN (`None`). */
  type Float = Option<real>

  const Int16Min: int := -32768
  const Int16Max: int := 32767

  datatype Node =
    | Undefined                                 // a key that is not present
    | Null
    | Scalar(text: string, number: Option<Float>)
    | Sequence(items: seq<Node>)
    | Map(entries: seq<(string, Node)>)
  {
    /** yaml-cpp's `operator bool`: true for every node that exists. */
    predicate IsDefined() {
      !Undefined?
    }

    /** `node[key]`: the first entry with that key of a map, `Undefined`
        for a missing key and for any node that is not a map. */
    function Get(key: string): (r: Node)
      ensures !Map? ==> r == Undefined
      ensures Map? && r != Undefined ==> exists i :: 0 <= i < |entries| && entries[i] == (key, r)
      ensures Map? && (forall i :: 0 <= i < |entries| ==> entries[i].0 != key) ==> r == Undefined
    {
      if Map? then Lookup(entries, key) else Undefined
    }

    /** `as<std::string>()`: the text of a scalar, the word "null" for a
        null node; throws for anything else. */
    function AsString(): (r: Result<string>)
      ensures r.Success? <==> Scalar? || Null?
      ensures Scalar? ==> r == Success(text)
      ensures Null? ==> r == Success("null")
    {
      if Null? then Success("null")
      else if Scalar? then Success(text)
      else Failure("bad conversion to string")
    }

    /** `as<float>()`: throws unless the node is a numeric scalar. */
    function AsFloat(): (r: Result<Float>)
      ensures r.Success? <==> Scalar? && number.Some?
      ensures r.Success? ==> r.value == number.value
    {
      if Scalar? && number.Some? then Success(number.value) else Failure("bad conversion to float")
    }

    /** `as<int16_t>()`: throws unless the node is an integral numeric scalar
        in the 16-bit range. */
    function AsInt16(): (r: Result<int>)
      ensures r.Success? <==> Scalar? && number.Some? && number.value.Some?
                              && number.value.value == number.value.value.Floor as real
                              && Int16Min <= number.value.value.Floor <= Int16Max
      ensures r.Success? ==> r.value as real == number.value.value
    {
      if Scalar? && number.Some? && number.value.Some? then
        var v := number.value.value;
        if v == v.Floor as real && Int16Min <= v.Floor <= Int16Max then Success(v.Floor)
        else Failure("bad conversion to int16_t")
      else Failure("bad conversion to int16_t")
    }
  }

  /** First value stored under `key` in an association list. */
  function Lookup(entries: seq<(string, Node)>, key: string): (r: Node)
    ensures r != Undefined ==> exists i :: 0 <= i < |entries| && entries[i] == (key, r)
    ensures (forall i :: 0 <= i < |entries| ==> entries[i].0 != key) ==> r == Undefined
  {
    if |entries| == 0 then Undefined
    else if entries[0].0 == key then entries[0].1
    else
      var r := Lookup(entries[1..], key);
      assert r != Undefined ==> exists i :: 1 <= i < |entries| && entries[i] == (key, r) by {
        if r != Undefined {
          var i :| 0 <= i < |entries[1..]| && entries[1..][i] == (key, r);
          assert entries[i + 1] == (key, r);
        }
      }
      r
  }

  /** The scalar an encoder writes for a float. Its text (the decimal
      formatting of the value) is not modelled and left empty. */
  function FloatNode(f: Float): (r: Node)
    ensures r.AsFloat() == Success(f)
  {
    Scalar("", Some(f))
  }

  /** The scalar an encoder writes for an integer; its text is not
      modelled and left empty. */
  function IntNode(n: int): (r: Node)
    ensures Int16Min <= n <= Int16Max ==> r.AsInt16() == Success(n)
  {
    Scalar("", Some(Some(n as real)))
  }

  /** The scalar an encoder writes for a string that is not a number. */
  function TextNode(s: string): (r: Node)
    ensures r.AsString() == Success(s)
  {
    Scalar(s, None)
  }

  /** No key appears twice in an association list. */
  predicate DistinctKeys(entries: seq<(string, Node)>) {
    forall i, j :: 0 <= i < j < |entries| ==> entries[i].0 != entries[j].0
  }

  /** With no earlier entry under the same key, looking the key up finds
      entry `i`. */
  lemma {:induction false} LookupFinds(entries: seq<(string, Node)>, i: nat)
    requires i < |entries|
    requires forall j :: 0 <= j < i ==> entries[j].0 != entries[i].0
    ensures Lookup(entries, entries[i].0) == entries[i].1
    decreases i
  {
    if i > 0 {
      var rest := entries[1..];
      assert rest[i - 1] == entries[i];
      forall j | 0 <= j < i - 1 ensures rest[j].0 != rest[i - 1].0 {
        assert rest[j] == entries[j + 1];
      }
      LookupFinds(rest, i - 1);
    }
  }
}

=== FILE: yields.dfy ===
/** The yield table's bookkeeping: which plots become table categories and
    the systematic uncertainty of one file's yield. LaTeX output and the
    Poisson errors of data are not part of this model. */
module Yields {
  import opened Wrappers
  import opened Reals
  import opened Histograms
  import opened Systematics
  import opened Types
  import opened Files
  import opened Utilities

  // ---------------------------------------------------------------------
  // Categories

  /** The LaTeX escaping of a yield title. A title with a `$` is taken as
      LaTeX already and kept. Otherwise `replace_substr` turns each `_` into
      `\_`, so every underscore ends up behind a backslash. */
  function EscapeTitle(t: string): (r: string)
    ensures '$' in t || '_' !in t ==> r == t
    ensures '$' !in t ==> UnderscoresEscaped(r)
  {
    assert '_' !in t ==> Find(t, "_").None? by {
      if '_' !in t && Find(t, "_").Some? {
        OccursChar(t, '_', Find(t, "_").value);
      }
    }
    if '$' in t then t
    else
      assert !StartsWith("\\_", "_") by {
        assert "\\_"[0] == '\\';
      }
      if StartsWith(t, "_") then
        var next := "\\_" + t[1..];
        assert !StartsWith(next, "_") by {
          assert next[0] == '\\';
        }
        ReplaceAllEscapes(next);
        ReplaceSubstr(t, "_", "\\_")
      else
        ReplaceAllEscapes(t);
        ReplaceSubstr(t, "_", "\\_")
  }

  /** A plot once its yield title has been escaped in place. */
  function EscapedPlot(p: Plot): (r: Plot)
    ensures r.yieldsTitle == EscapeTitle(p.yieldsTitle)
    ensures r.(yieldsTitle := p.yieldsTitle) == p
  {
    p.(yieldsTitle := EscapeTitle(p.yieldsTitle))
  }

  predicate HasTitle(plots: seq<Plot>, title: string) {
    exists k :: 0 <= k < |plots| && plots[k].yieldsTitle == title
  }

  /** The titles of the plots used for yields escaped in place; the other
      plots are left alone. */
  function EscapeUsed(plots: seq<Plot>): (r: seq<Plot>)
    ensures |r| == |plots|
    ensures forall k :: 0 <= k < |plots| ==>
      r[k] == if plots[k].useForYields then EscapedPlot(plots[k]) else plots[k]
  {
    seq(|plots|, k requires 0 <= k < |plots| => if plots[k].useForYields then EscapedPlot(plots[k]) else plots[k])
  }

  /** The plots used for yields, skipping any whose title an earlier one
      already has. */
  function FirstOfEachTitle(plots: seq<Plot>): (r: seq<Plot>)
    ensures |r| <= |plots|
    ensures forall k :: 0 <= k < |r| ==> r[k] in plots && r[k].useForYields
    ensures forall k, l :: 0 <= k < l < |r| ==> r[k].yieldsTitle != r[l].yieldsTitle
    ensures forall k :: 0 <= k < |plots| && plots[k].useForYields ==> HasTitle(r, plots[k].yieldsTitle)
  {
    if |plots| == 0 then []
    else
      var n := |plots| - 1;
      var init := FirstOfEachTitle(plots[..n]);
      var p := plots[n];
      assert forall k :: 0 <= k < n ==> plots[..n][k] == plots[k];
      if !p.useForYields || HasTitle(init, p.yieldsTitle) then init
      else
        var r := init + [p];
        assert forall k :: 0 <= k < |init| ==> r[k] == init[k];
        assert r[|init|] == p;
        r
  }

  /** Plot `i` is used for yields and no earlier used plot has its
      title. */
  predicate FirstUse(plots: seq<Plot>, i: int)
    requires 0 <= i < |plots|
  {
    && plots[i].useForYields
    && forall j :: 0 <= j < i && plots[j].useForYields ==> plots[j].yieldsTitle != plots[i].yieldsTitle
  }

  /** A reference selection: among the first `n` plots, the first use of
      each title, in the order of the list. */
  function FirstUsesUpTo(plots: seq<Plot>, n: nat): (r: seq<Plot>)
    requires n <= |plots|
    ensures |r| <= n
    ensures forall k :: 0 <= k < |r| ==> r[k].useForYields
  {
    if n == 0 then []
    else FirstUsesUpTo(plots, n - 1) + (if FirstUse(plots, n - 1) then [plots[n - 1]] else [])
  }

  /** The selection built while walking the plots keeps, for each title,
      the first plot used for yields that has it, and keeps the order of
      the list. */
  lemma {:induction false} FirstOfEachTitlePrefix(plots: seq<Plot>, n: nat)
    requires n <= |plots|
    ensures FirstOfEachTitle(plots[..n]) == FirstUsesUpTo(plots, n)
    decreases n
  {
    if n > 0 {
      var m := n - 1;
      FirstOfEachTitlePrefix(plots, m);
      assert plots[..n][..m] == plots[..m];
      assert plots[..n][m] == plots[m];
      if plots[m].useForYields {
        SeenTitleIsNotFirstUse(plots, m);
      }
    }
  }

  /** A used plot's title is already among the selected ones exactly when
      an earlier used plot has it. */
  lemma SeenTitleIsNotFirstUse(plots: seq<Plot>, m: nat)
    requires m < |plots| && plots[m].useForYields
    ensures HasTitle(FirstOfEachTitle(plots[..m]), plots[m].yieldsTitle) <==> !FirstUse(plots, m)
  {
    var init := FirstOfEachTitle(plots[..m]);
    var t := plots[m].yieldsTitle;
    if HasTitle(init, t) {
      var k :| 0 <= k < |init| && init[k].yieldsTitle == t;
      assert init[k] in plots[..m];
      var j :| 0 <= j < m && plots[..m][j] == init[k];
      assert plots[j].useForYields && plots[j].yieldsTitle == t;
    } else {
      forall j | 0 <= j < m && plots[j].useForYields
        ensures plots[j].yieldsTitle != t
      {
        assert plots[..m][j] == plots[j];
      }
    }
  }

  lemma FirstOfEachTitleIsFirstUses(plots: seq<Plot>)
    ensures FirstOfEachTitle(plots) == FirstUsesUpTo(plots, |plots|)
  {
    FirstOfEachTitlePrefix(plots, |plots|);
    assert plots[..|plots|] == plots;
  }

  /** The plots that become yield categories: each used plot's title is
      escaped first, and a plot whose escaped title an earlier category
      already has is skipped. */
  function YieldPlots(plots: seq<Plot>): (r: seq<Plot>)
    ensures |r| <= |plots|
    ensures forall k :: 0 <= k < |r| ==> r[k] in EscapeUsed(plots) && r[k].useForYields
    ensures forall k, l :: 0 <= k < l < |r| ==> r[k].yieldsTitle != r[l].yieldsTitle
    ensures forall k :: 0 <= k < |plots| && plots[k].useForYields ==>
      HasTitle(r, EscapeTitle(plots[k].yieldsTitle))
  {
    var e := EscapeUsed(plots);
    assert forall k :: 0 <= k < |plots| && plots[k].useForYields ==>
      e[k].useForYields && e[k].yieldsTitle == EscapeTitle(plots[k].yieldsTitle);
    FirstOfEachTitle(e)
  }

  /** `cat` is the table order and escaped title of a plot used for
      yields. */
  predicate CategoryOf(plots: seq<Plot>, cat: (int, string)) {
    exists k :: 0 <= k < |plots| && plots[k].useForYields
      && cat == (plots[k].yieldsTableOrder, EscapeTitle(plots[k].yieldsTitle))
  }

  /** A used plot of the escaped list gives the category of the plot it
      came from. */
  lemma EscapedUsedIsCategory(plots: seq<Plot>, x: Plot)
    requires x in EscapeUsed(plots) && x.useForYields
    ensures CategoryOf(plots, (x.yieldsTableOrder, x.yieldsTitle))
  {
    var e := EscapeUsed(plots);
    var k :| 0 <= k < |e| && e[k] == x;
    assert plots[k].useForYields;
    assert x == EscapedPlot(plots[k]);
  }

  /** The table order and title of each plot. */
  function CategoryPairs(ps: seq<Plot>): (r: seq<(int, string)>)
    ensures |r| == |ps|
    ensures forall k :: 0 <= k < |ps| ==> r[k] == (ps[k].yieldsTableOrder, ps[k].yieldsTitle)
  {
    seq(|ps|, k requires 0 <= k < |ps| => (ps[k].yieldsTableOrder, ps[k].yieldsTitle))
  }

  /** Every category is that of a plot used for yields. */
  lemma CategoriesFromUsedPlots(plots: seq<Plot>)
    ensures var r := CategoryPairs(YieldPlots(plots));
      forall c :: 0 <= c < |r| ==> CategoryOf(plots, r[c])
  {
    var ps := YieldPlots(plots);
    forall c | 0 <= c < |ps| ensures CategoryOf(plots, CategoryPairs(ps)[c]) {
      EscapedUsedIsCategory(plots, ps[c]);
    }
  }

  /** Every used plot's escaped title is a category. */
  lemma CategoriesCoverUsedPlots(plots: seq<Plot>)
    ensures var r := CategoryPairs(YieldPlots(plots));
      forall k :: 0 <= k < |plots| && plots[k].useForYields ==>
        exists c :: 0 <= c < |r| && r[c].1 == EscapeTitle(plots[k].yieldsTitle)
  {
    var ps := YieldPlots(plots);
    var r := CategoryPairs(ps);
    forall k | 0 <= k < |plots| && plots[k].useForYields
      ensures exists c :: 0 <= c < |r| && r[c].1 == EscapeTitle(plots[k].yieldsTitle)
    {
      var c :| 0 <= c < |ps| && ps[c].yieldsTitle == EscapeTitle(plots[k].yieldsTitle);
      assert r[c].1 == EscapeTitle(plots[k].yieldsTitle);
    }
  }

  /** `categories`: the table order and escaped title of each category. */
  function Categories(plots: seq<Plot>): (r: seq<(int, string)>)
    ensures forall k, l :: 0 <= k < l < |r| ==> r[k].1 != r[l].1
    ensures forall c :: 0 <= c < |r| ==> CategoryOf(plots, r[c])
    ensures forall k :: 0 <= k < |plots| && plots[k].useForYields ==>
      exists c :: 0 <= c < |r| && r[c].1 == EscapeTitle(plots[k].yieldsTitle)
  {
    CategoriesFromUsedPlots(plots);
    CategoriesCoverUsedPlots(plots);
    CategoryPairs(YieldPlots(plots))
  }

  /** The categories are, in the order of the plots, the table order and
      escaped title of the first used plot with each escaped title. */
  lemma CategoriesAreFirstUses(plots: seq<Plot>)
    ensures YieldPlots(plots) == FirstUsesUpTo(EscapeUsed(plots), |plots|)
    ensures Categories(plots) == CategoryPairs(FirstUsesUpTo(EscapeUsed(plots), |plots|))
  {
    FirstOfEachTitleIsFirstUses(EscapeUsed(plots));
  }

  /** Two used plots with one title make one category, with the first
      plot's table order. */
  lemma FirstTableOrderKept(a: Plot, b: Plot)
    requires a.useForYields && b.useForYields
    requires a.yieldsTitle == b.yieldsTitle == "x"
    requires a.yieldsTableOrder == 1 && b.yieldsTableOrder == 2
    ensures Categories([a, b]) == [(1, "x")]
  {
    assert '_' !in "x" by {
      assert "x"[0] == 'x';
    }
    var e := EscapeUsed([a, b]);
    assert e[0] == EscapedPlot(a) && e[1] == EscapedPlot(b);
    assert e[0].yieldsTitle == "x" && e[1].yieldsTitle == "x";
    assert FirstUse(e, 0);
    assert !FirstUse(e, 1);
    CategoriesAreFirstUses([a, b]);
    assert FirstUsesUpTo(e, 2) == [e[0]];
  }

  /** A plot that is not used for yields does not change the categories. */
  lemma {:induction false} UnusedPlotIgnored(plots: seq<Plot>, p: Plot)
    requires !p.useForYields
    ensures YieldPlots(plots + [p]) == YieldPlots(plots)
  {
    var e := EscapeUsed(plots + [p]);
    assert e[..|plots|] == EscapeUsed(plots);
    assert e[|plots|] == p;
  }

  /** A leading underscore is escaped twice: `_a` becomes `\\_a`, because
      the search restarts at index 0 and finds the underscore again behind
      the backslash just inserted. */
  lemma LeadingUnderscoreEscapedTwice()
    ensures EscapeTitle("_a") == "\\\\_a"
  {
    assert StartsWith("_a", "_");
    assert !StartsWith("\\_", "_") by {
      assert "\\_"[0] == '\\';
    }
    assert "\\_" + "_a"[1..] == "\\_a";
    assert !StartsWith("\\_a", "_") by {
      assert "\\_a"[0] == '\\';
    }
    EscapeBackslashedA();
  }

  lemma EscapeBackslashedA()
    ensures ReplaceAll("\\_a", "_", "\\_") == "\\\\_a"
  {
    assert FindFrom("a", "_", 0) == FindFrom("a", "_", 1) == None by {
      assert !OccursAt("a", "_", 0) by {
        assert "a"[0] == 'a';
      }
    }
    assert ReplaceAll("a", "_", "\\_") == "a";
    assert !OccursAt("\\_a", "_", 0) by {
      assert "\\_a"[0] == '\\';
    }
    assert OccursAt("\\_a", "_", 1) by {
      assert "\\_a"[1..2] == "_";
    }
    assert Find("\\_a", "_") == Some(1);
    assert "\\_a"[..1] == "\\" && "\\_a"[2..] == "a";
    assert ReplaceAll("\\_a", "_", "\\_") == "\\" + "\\_" + "a";
  }

  /** An escaped underscore is escaped again: `\_a` also becomes
      `\\_a`. */
  lemma BackslashedTitleEscaped()
    ensures EscapeTitle("\\_a") == "\\\\_a"
  {
    assert '$' !in "\\_a" by {
      assert "\\_a"[0] != '$' && "\\_a"[1] != '$' && "\\_a"[2] != '$';
    }
    assert !StartsWith("\\_a", "_") by {
      assert "\\_a"[0] == '\\';
    }
    EscapeBackslashedA();
  }

  /** The escaping is not one-to-one: plots titled `_a` and `\_a` fall
      into one category. */
  lemma EscapedTitlesMerge(p: Plot, q: Plot)
    requires p.useForYields && q.useForYields
    requires p.yieldsTitle == "_a" && q.yieldsTitle == "\\_a"
    ensures |Categories([p, q])| == 1
  {
    LeadingUnderscoreEscapedTwice();
    BackslashedTitleEscaped();
    var e := EscapeUsed([p, q]);
    assert e[0] == EscapedPlot(p) && e[1] == EscapedPlot(q);
    assert e[0].yieldsTitle == e[1].yieldsTitle;
    assert e[..1] == [e[0]] && [e[0]][..0] == [];
    assert FirstOfEachTitle([e[0]]) == [e[0]];
    assert HasTitle([e[0]], e[1].yieldsTitle);
    assert YieldPlots([p, q]) == FirstOfEachTitle(e) == [e[0]];
  }

  // ---------------------------------------------------------------------
  // Yield systematics of one file

  /** The error a source puts on a yield: the larger shift of the up and
      down integrals away from the nominal one. */
  function YieldError(nominal: real, up: real, down: real): (r: real)
    ensures r >= 0.0
    ensures r >= Abs(up - nominal) && r >= Abs(nominal - down)
    ensures r == Abs(up - nominal) || r == Abs(nominal - down)
  {
    Max(Abs(up - nominal), Abs(nominal - down))
  }

  /** A source's error on the file's yield, from integrals over every bin,
      or nothing when one of its three shapes is missing. */
  function SourceError(s: SystematicSet): (r: Option<real>)
    ensures r.Some? <==> s.nominal.Some? && s.up.Some? && s.down.Some?
    ensures r.Some? ==> r.value >= 0.0
    ensures r.Some? ==> r.value == YieldError(IntegralAll(s.nominal.value), IntegralAll(s.up.value), IntegralAll(s.down.value))
  {
    if s.nominal.Some? && s.up.Some? && s.down.Some? then
      Some(YieldError(IntegralAll(s.nominal.value), IntegralAll(s.up.value), IntegralAll(s.down.value)))
    else None
  }

  /** `file_total_systematics`: the sum of the squared source errors; the
      table shows its square root. */
  function FileSystematicsSq(sets: seq<SystematicSet>): (r: real)
    ensures r >= 0.0
    ensures forall k :: 0 <= k < |sets| && SourceError(sets[k]).Some? ==> r >= Square(SourceError(sets[k]).value)
  {
    if |sets| == 0 then 0.0
    else
      var n := |sets| - 1;
      var init := FileSystematicsSq(sets[..n]);
      assert forall k :: 0 <= k < n ==> sets[..n][k] == sets[k];
      var e := SourceError(sets[n]);
      if e.Some? then init + Square(e.value) else init
  }

  /** The square of a source's error on the yield, or nothing when one
      of its shapes is missing. */
  function SourceSq(s: SystematicSet): (r: real)
    ensures r >= 0.0
    ensures SourceError(s).None? ==> r == 0.0
    ensures SourceError(s).Some? ==> r == Square(SourceError(s).value)
  {
    match SourceError(s)
    case None => 0.0
    case Some(e) => Square(e)
  }

  lemma FileSystematicsSqLast(sets: seq<SystematicSet>)
    requires |sets| > 0
    ensures FileSystematicsSq(sets) == FileSystematicsSq(sets[..|sets| - 1]) + SourceSq(sets[|sets| - 1])
  {
  }

  /** The squared systematic of `a + b` is that of `a` plus that of `b`:
      the file total is the sum of the sources' squared errors. */
  lemma {:induction false} FileSystematicsSqAppend(a: seq<SystematicSet>, b: seq<SystematicSet>)
    ensures FileSystematicsSq(a + b) == FileSystematicsSq(a) + FileSystematicsSq(b)
    decreases |b|
  {
    if |b| == 0 {
      assert a + b == a;
    } else {
      var ab := a + b;
      var b' := b[..|b| - 1];
      FileSystematicsSqAppend(a, b');
      assert ab[..|ab| - 1] == a + b';
      assert ab[|ab| - 1] == b[|b| - 1];
      FileSystematicsSqLast(ab);
      FileSystematicsSqLast(b);
    }
  }

  /** One source contributes the square of its error, or nothing when a
      shape is missing. */
  lemma FileSystematicsSqSingle(s: SystematicSet)
    ensures FileSystematicsSq([s]) == SourceSq(s)
  {
    assert [s][..0] == [];
  }

  /** A source with all three shapes leaves the yield unchanged when its
      up and down integrals both equal the nominal one. */
  predicate NoYieldShift(s: SystematicSet) {
    s.nominal.Some? && s.up.Some? && s.down.Some? ==>
      IntegralAll(s.up.value) == IntegralAll(s.nominal.value) && IntegralAll(s.down.value) == IntegralAll(s.nominal.value)
  }

  /** The file has no yield systematic exactly when no source shifts its
      yield. */
  lemma {:induction false} NoSystematicsIffNoShift(sets: seq<SystematicSet>)
    ensures FileSystematicsSq(sets) == 0.0 <==> forall k :: 0 <= k < |sets| ==> NoYieldShift(sets[k])
  {
    if |sets| > 0 {
      var n := |sets| - 1;
      NoSystematicsIffNoShift(sets[..n]);
      assert forall k :: 0 <= k < n ==> sets[..n][k] == sets[k];
      var e := SourceError(sets[n]);
      if e.Some? {
        var s := sets[n];
        var a, b := IntegralAll(s.up.value) - IntegralAll(s.nominal.value), IntegralAll(s.nominal.value) - IntegralAll(s.down.value);
        assert e.value == 0.0 <==> a == 0.0 && b == 0.0;
        assert Square(e.value) == 0.0 <==> e.value == 0.0;
      }
    }
  }

  /** Exchanging a source's up and down shapes leaves its error on the
      yield unchanged. */
  lemma YieldErrorSymmetric(nominal: real, up: real, down: real)
    ensures YieldError(nominal, up, down) == YieldError(nominal, down, up)
  {
  }

  /** The systematic term of a file in the yield table: none for data,
      which never reaches the systematics loop. */
  function FileYieldSystematicsSq(f: File): (r: Option<real>)
    ensures r.Some? <==> f.typ != Data
    ensures r.Some? ==> r.value >= 0.0
    ensures r.Some? ==> r.value == FileSystematicsSq(f.systematics)
  {
    if f.typ == Data then None else Some(FileSystematicsSq(f.systematics))
  }
}
